=== FILE: README.md ===
# EvaraTDS alerting core in Dafny

EvaraTDS watches a water-quality sensor: a total-dissolved-solids (TDS)
reading in ppm, a temperature and a supply voltage. Several components act on
these readings, and this project models each of them with its contracts
proved:

- **Alert engine.** It classifies a reading (TDS first, then temperature,
  then a fixed 3 V low-voltage level). It holds a single global cooldown and
  fans an alert out to every active Telegram recipient, logging one history
  row.
- **Telegram service.** It validates the bot token and builds the alert
  message (emoji, title-cased alert type). It sends to one chat or many and is
  a process-wide singleton.
- **Stores.** There are three recipient and history stores:
  - the in-memory `AlertDatabase`;
  - the JSON-file `ServerlessStorage`;
  - the JSON files of the "simple" API.

  Outside Vercel, the last two and the periodic report's history write to
  the same two files. The model keeps their state apart (see "## Left out").
- **Alert API routes.** These are the status, test-alert, history,
  configuration and webhook routes, plus the simple API's create, delete and
  toggle routes.
- **E-mail alerts.** They are throttled per alert type, at 15 minutes per
  type, with a log that keeps the last 50 entries. The dashboard endpoint
  decides which e-mails to send.
- **Scheduled reports.** These are the periodic status report and the
  stand-alone cron job, which uses its own 500 and 1000 ppm levels.
- **Authentication and users.** This is the bearer-token header, the user
  dictionary built from the token's claims, the admin rule, and the user
  table that a login syncs.

## How the model works

- **Modules.** Each Python file becomes one module; `Common` holds the Python
  semantics the files share.
- **Stores and services.** An object whose fields the Python code updates in
  place becomes a Dafny `class` with the same state. This covers the
  databases, the file-backed stores, the Telegram service, the engine and the
  user table.
- **Loops.** The source's loops stay loops: the bulk send, the test-alert
  fan-out, the record update and the toggle.
- **Inputs from outside.** The clock is an integer number of seconds passed
  in as `now`. The network, the e-mail provider and JWT verification are
  inputs. Each message handed to the bot is recorded in the service's `sent`
  field.

## Model

| member | source | states |
|---|---|---|
| Telegram.TokenFormatIff | backend/app/services/telegram_service.py:33-37 | A token is accepted exactly when it splits on ':' into a non-empty run of digits and a part of at least 35 characters with no further ':' |
| Telegram.TokenFormatShape | backend/app/services/telegram_service.py:33-37 | `<digits>:<secret>` is accepted when the secret has no ':' and is 35 characters or more; a non-digit id or a ':' in the secret is rejected |
| Telegram.SeverityEmoji | backend/app/services/telegram_service.py:129-136 | Each of the four known alert types maps to its own emoji; every other type gets the warning sign |
| Telegram.TitleFromAt | backend/app/services/telegram_service.py:141 | `str.title()` over ASCII letters: a letter that starts a word is upper case, any other letter is lower case, and every other character is unchanged |
| Telegram.DisplayAlertTypeAt | backend/app/services/telegram_service.py:141 | The displayed alert type has the input's length and no '_'; each character is the ASCII title-cased form after '_' became ' ' |
| Telegram.FormatAlertMessage | backend/app/services/telegram_service.py:111-153 | The message carries the type's emoji, the displayed type and the four readings unchanged |
| Telegram.Deliveries | backend/app/services/telegram_service.py:80-92 | The message is delivered once to each chat id, in order |
| Telegram.DeliveriesAppend | backend/app/services/telegram_service.py:80-92 | Delivering two lists in turn equals delivering their concatenation |
| Telegram.TelegramService.constructor | backend/app/services/telegram_service.py:17-31 | A bot exists exactly when a non-empty, well-formed token is given; nothing has been sent yet |
| Telegram.TelegramService.SendAlert | backend/app/services/telegram_service.py:39-68 | Without a bot the call returns false and sends nothing; with a bot exactly one delivery is appended |
| Telegram.TelegramService.GetBotInfo | backend/app/services/telegram_service.py:94-109 | Bot information is available only when a bot exists |
| Telegram.TelegramService.SendBulkAlert | backend/app/services/telegram_service.py:70-92 | Every chat id is attempted once, in order. The success count is the number of true outcomes, and success plus failed equals total. Without a bot every attempt fails and nothing is sent |
| Telegram.ServiceRegistry.constructor | backend/app/services/telegram_service.py:161 | No service exists before the first request |
| Telegram.ServiceRegistry.GetTelegramService | backend/app/services/telegram_service.py:163-168 | The first call creates the service from the token; later calls return that same object |
| Telegram.GetTelegramServiceTwice | backend/app/services/telegram_service.py:163-168 | Two calls give the same object, even with different tokens |
| Engine.CheckThresholds | backend/app/services/alert_engine.py:39-78 | At most one condition is reported: TDS above its threshold (critical), else temperature above its threshold (warning), else voltage below 3.0 (warning). No condition exactly when all three are within limits |
| Engine.VoltageLevelIsFixed | backend/app/services/alert_engine.py:69-76 | A low voltage with TDS and temperature within limits gives the same condition, at level 3.0, under any two threshold pairs |
| Engine.CooldownRemaining | backend/app/services/alert_engine.py:175-184 | The remaining minutes are never negative, are 0 with no previous alert, and are positive exactly when sending is refused |
| Engine.ShouldSendMonotone | backend/app/services/alert_engine.py:80-88 | Once sending is allowed, it stays allowed as time passes |
| Engine.CooldownWindow | backend/app/services/alert_engine.py:80-88 | After an alert at t, sending is refused strictly inside t + cooldown minutes, and the remaining time is what is left of the window |
| Engine.Eligible | backend/app/services/alert_engine.py:117-123 | Only active recipients with a chat id are selected, and every such recipient is selected |
| Engine.ChatIds | backend/app/services/alert_engine.py:140 | The empty chat ids are dropped, every non-empty one is kept, and each id is some recipient's chat id |
| Engine.ChatIdsAreFiltered | backend/app/services/alert_engine.py:140 | The list is the chat ids of exactly the recipients with a non-empty id, in their order and with their repetitions |
| Engine.Names | backend/app/services/alert_engine.py:152 | The notified names are the recipients' names, in order |
| Engine.Decide | backend/app/services/alert_engine.py:105-141 | The cooldown is checked before the recipients. No eligible recipient means nothing is sent. A dispatch names every eligible recipient as notified |
| Engine.DefaultConfig | backend/app/services/alert_engine.py:24-37 | Without environment values the configuration is 150 ppm, 35 °C and 15 minutes, with Telegram on and no alert sent yet |
| Engine.AlertEngine.constructor | backend/app/services/alert_engine.py:19-37 | The engine uses the stored configuration row, or else the default one |
| Engine.AlertEngine.TriggerAlert | backend/app/services/alert_engine.py:90-173 | Suppressed or no recipients: nothing is sent, logged or updated. Otherwise each chat id receives the message once and exactly one history row is logged. The last alert time becomes now even if every send failed |
| Engine.AlertEngine.ProcessSensorData | backend/app/services/alert_engine.py:186-207 | A reading within limits changes nothing; otherwise the condition found is triggered, with its own threshold recorded |
| Engine.AlertEngine.GetAlertStatus | backend/app/services/alert_engine.py:209-219 | The remaining cooldown is positive exactly when an alert cannot be sent |
| Engine.SuppressedFiveMinutesLater | backend/app/services/alert_engine.py:105-114 | Five minutes after an alert, with a 15-minute cooldown, the next alert is suppressed with 10 minutes left |
| AlertModel.NewRecipient | backend/app/models/alert.py:14-24 | A new recipient has no id yet, the role viewer, is active, and uses the Telegram channel only |
| AlertModel.ApplyUpdate | backend/app/models/alert.py:101-107 | Each of the ten fields takes the update's value when the update names it and keeps its old value otherwise; an empty update changes nothing |
| AlertModel.DefaultConfig | backend/app/models/alert.py:37-46 | The defaults are 150 ppm, a warning level of 135, a 5-minute cooldown, Telegram only, and no bot token |
| AlertModel.ApplyConfigUpdate | backend/app/models/alert.py:133-137 | Each of the nine settings takes the new value when named and is kept otherwise; an empty update changes nothing |
| AlertModel.MarkThenCanSend | backend/app/models/alert.py:140-152 | Marking a recipient at t blocks only that recipient, until the cooldown has passed |
| AlertModel.Stats | backend/app/models/alert.py:155-166 | The total is the history length and the per-type counts fit inside it. The last alert is the newest creation time, absent exactly when the history is empty |
| AlertModel.KeepLastValid | backend/app/models/alert.py:114-124 | Appending and keeping the last 1000 alerts keeps ids increasing and below the counter; the new alert is last |
| AlertModel.AlertDatabase.constructor | backend/app/models/alert.py:68-74 | The database starts empty, with the default configuration and both counters at 1 |
| AlertModel.AlertDatabase.AddRecipient | backend/app/models/alert.py:77-82 | The recipient gets the next id, above every stored id, and the creation time. It is appended and the counter advances |
| AlertModel.AlertDatabase.GetRecipients | backend/app/models/alert.py:84-87 | The result is every recipient, or exactly the active ones |
| AlertModel.AlertDatabase.GetRecipientById | backend/app/models/alert.py:89-93 | The result is a stored recipient with that id; none is returned exactly when no recipient has it |
| AlertModel.AlertDatabase.GetRecipientByChatId | backend/app/models/alert.py:95-99 | The result is a stored recipient with that chat id; none is returned exactly when no recipient has it |
| AlertModel.AlertDatabase.UpdateRecipient | backend/app/models/alert.py:101-107 | Only the first recipient with the id is rewritten; an unknown id changes nothing |
| AlertModel.AlertDatabase.DeleteRecipient | backend/app/models/alert.py:109-111 | Every recipient with the id is removed, the rest keep their order, and the result is always true |
| AlertModel.AlertDatabase.AddAlert | backend/app/models/alert.py:114-124 | The alert gets the next id and the time; the history keeps the last 1000 alerts, with the new one last |
| AlertModel.AlertDatabase.GetAlertHistory | backend/app/models/alert.py:126-127 | At most `limit` stored alerts are returned, newest first by creation time, and no alert left out is newer than one returned |
| AlertModel.AlertDatabase.GetConfig | backend/app/models/alert.py:130-131 | The result is the current configuration |
| AlertModel.AlertDatabase.UpdateConfig | backend/app/models/alert.py:133-137 | The named settings change and nothing else does |
| AlertModel.AlertDatabase.CanSendAlert | backend/app/models/alert.py:140-148 | A recipient never marked can always be sent to; otherwise only after the cooldown |
| AlertModel.AlertDatabase.MarkAlertSent | backend/app/models/alert.py:150-152 | Only this recipient's last alert time changes |
| AlertModel.AlertDatabase.GetStats | backend/app/models/alert.py:155-166 | The result is the statistics of the stored history and recipients |
| ServerlessStore.NextRecipientId | backend/app/services/serverless_storage.py:53-55 | The next id is above every stored id: 1 for an empty store, otherwise one past the largest |
| ServerlessStore.Merge | backend/app/services/serverless_storage.py:90-100 | Each of the seven updatable keys (name, chat id, e-mail, phone, role, active flag, channels) is overwritten when given and kept otherwise; the id and creation fields are kept; an empty update changes nothing |
| ServerlessStore.NextAlertId | backend/app/services/serverless_storage.py:116-142 | The next alert id is above every stored alert id |
| ServerlessStore.StoreConfig | backend/app/services/serverless_storage.py:161-175 | The stored configuration always has id 1 |
| ServerlessStore.LoadConfig | backend/app/services/serverless_storage.py:153-158 | Fields that are not stored take the model's defaults |
| ServerlessStore.ConfigRoundTrip | backend/app/services/serverless_storage.py:153-175 | Storing then loading keeps the six stored fields, and gives back the same configuration exactly when the others are at their defaults |
| ServerlessStore.UpdateConfigReadsMissingField | backend/app/services/serverless_storage.py:161-175 | The first attribute read that `AlertConfig` lacks is `enabled` |
| ServerlessStore.AddHistoryReadsMissingField | backend/app/services/serverless_storage.py:121-135 | The first attribute read that `AlertHistory` lacks is `severity` |
| ServerlessStore.ServerlessStorage.constructor | backend/app/services/serverless_storage.py:24-33 | Missing files read as empty lists |
| ServerlessStore.ServerlessStorage.AddRecipient | backend/app/services/serverless_storage.py:42-70 | A truthy chat id already stored raises `ValueError` and nothing is saved. Otherwise the record is appended, with an id above every stored id |
| ServerlessStore.ServerlessStorage.GetRecipients | backend/app/services/serverless_storage.py:73-80 | The result is every record, or exactly those active (a missing `is_active` counts as active) |
| ServerlessStore.ServerlessStorage.GetRecipientById | backend/app/services/serverless_storage.py:83-87 | The result is a stored record with the id; none is returned exactly when no record has it |
| ServerlessStore.ServerlessStorage.UpdateRecipient | backend/app/services/serverless_storage.py:90-100 | Only the first record with the id is merged; an unknown id changes nothing |
| ServerlessStore.ServerlessStorage.DeleteRecipient | backend/app/services/serverless_storage.py:103-112 | The result is true exactly when a record had the id. Afterwards no record has it and the others keep their order |
| ServerlessStore.ServerlessStorage.AddAlertHistoryAsWritten | backend/app/services/serverless_storage.py:121-124 | As written, adding an alert fails with an attribute error on `severity` |
| ServerlessStore.ServerlessStorage.AddAlertHistory | backend/app/services/serverless_storage.py:116-142 | The alert gets an id above every stored one and the time; the last 1000 alerts are kept, with the new one last |
| ServerlessStore.ServerlessStorage.GetAlertHistory | backend/app/services/serverless_storage.py:145-149 | At most `limit` stored alerts are returned, newest first, and no alert left out is newer than one returned |
| ServerlessStore.ServerlessStorage.GetConfig | backend/app/services/serverless_storage.py:153-158 | The result is the first stored configuration, or none before one is stored |
| ServerlessStore.ServerlessStorage.UpdateConfigAsWritten | backend/app/services/serverless_storage.py:171 | As written, saving a configuration fails with an attribute error on `enabled` |
| ServerlessStore.ServerlessStorage.UpdateConfig | backend/app/services/serverless_storage.py:161-175 | The stored list becomes the single new configuration, and reading it back returns it |
| Email.AlertLog.WithEntries | backend/app/services/email_service.py:87-90 | Only the list of the given alert type is replaced |
| Email.LogAlert | backend/app/services/email_service.py:76-92 | The entry is appended to its type's list, the last 50 are kept and the entry is last; the other type is unchanged |
| Email.ThrottleWindow | backend/app/services/email_service.py:58-73 | After a delivery is logged at s, that type may be mailed again exactly from s + 15 minutes |
| Email.ThrottlePerType | backend/app/services/email_service.py:58-92 | Logging one type never changes whether the other type may be mailed |
| Email.ThrottleMonotone | backend/app/services/email_service.py:58-73 | Once a type may be mailed, it stays allowed as time passes |
| Email.Emails | backend/app/services/email_service.py:144 | The logged addresses are the recipients' e-mails, in order |
| Email.EmailAlertService.constructor | backend/app/services/email_service.py:41-48 | The service starts from the loaded log with nothing attempted |
| Email.EmailAlertService.SendAlert | backend/app/services/email_service.py:95-202 | With no API key, or while throttled, nothing is attempted or logged and the result is false. Otherwise one delivery is attempted and only a success is logged |
| Email.TdsDoesNotThrottleTemp | backend/app/services/email_service.py:58-92 | Ten minutes after a TDS e-mail, another TDS e-mail is throttled but a temperature e-mail is not |
| ServerlessApi.Status | backend/app/api/v1/alerts_serverless.py:106-151 | Sending is allowed unless a last alert lies inside the cooldown. The remaining seconds are positive exactly then. Without a stored configuration the status shows 150, 35 and 15; with one, its TDS threshold, warning threshold and cooldown. The bot flag, the active count, the last alert and the total are passed through |
| ServerlessApi.ParsedCreatedAt | backend/app/api/v1/alerts_serverless.py:120-125 | A stored time reaches the handler already parsed, not as text |
| ServerlessApi.FromIsoFormat | backend/app/api/v1/alerts_serverless.py:125 | `fromisoformat` succeeds exactly on text |
| ServerlessApi.LastAlertAsWrittenIsNone | backend/app/api/v1/alerts_serverless.py:120-128 | As written, the status never sees a last alert, whatever the history holds |
| ServerlessApi.LastAlert | backend/app/api/v1/alerts_serverless.py:120-128 | The last alert is the newest alert's creation time |
| ServerlessApi.StatusAsWrittenNeverCoolsDown | backend/app/api/v1/alerts_serverless.py:120-137 | As written, the report always allows sending and shows no cooldown |
| ServerlessApi.StatusCoolsDownAfterAlert | backend/app/api/v1/alerts_serverless.py:129-137 | An alert stored inside the cooldown blocks sending, with the rest of the window remaining |
| ServerlessApi.GetAlertStatusAsWritten | backend/app/api/v1/alerts_serverless.py:106-151 | As written, Telegram is enabled only with a bot, the report never cools down, and the total is at most 1 |
| ServerlessApi.GetAlertStatus | backend/app/api/v1/alerts_serverless.py:106-151 | The status is computed from the stored configuration and the newest alert; the total counts at most the one alert fetched |
| ServerlessApi.TestTargets | backend/app/api/v1/alerts_serverless.py:190-191 | Every recipient with a truthy chat id and the Telegram channel is a target, with at most one target per recipient and none empty |
| ServerlessApi.TestTargetsAreFiltered | backend/app/api/v1/alerts_serverless.py:190-191 | The targets are exactly the chat ids of the recipients with a truthy chat id and the Telegram channel, in recipient order |
| ServerlessApi.NotifiedIds | backend/app/api/v1/alerts_serverless.py:203 | The notified list includes at least as many ids as there are targets |
| ServerlessApi.NotifiedIdsAreFiltered | backend/app/api/v1/alerts_serverless.py:203 | The notified list is exactly the truthy chat ids, in recipient order, whatever the recipient's channels |
| ServerlessApi.TestMessage | backend/app/api/v1/alerts_serverless.py:180-188 | A non-empty requested message is sent as it is |
| ServerlessApi.FanOut | backend/app/api/v1/alerts_serverless.py:190-196 | Every target is attempted once, in order. The success count is the number of targets, whatever each send returned |
| ServerlessApi.TestHistoryLacksTdsValue | backend/app/api/v1/alerts_serverless.py:199-208 | The test alert's history record omits the required `tds_value` |
| ServerlessApi.SendTestAlertAsWritten | backend/app/api/v1/alerts_serverless.py:157-225 | As written: 503 without a bot and 400 without active recipients, with nothing sent. Otherwise the sends happen and then the history record fails validation on `tds_value` |
| ServerlessApi.TestRecord | backend/app/api/v1/alerts_serverless.py:199-208 | The test record has type test, TDS value and threshold 0, the notified ids, the recipient count, and the success and failed counts |
| ServerlessApi.SendTestAlert | backend/app/api/v1/alerts_serverless.py:157-225 | Corrected: with no bot or no active recipients nothing is sent or logged. Otherwise every target gets the message, and the new history is the old one plus the test record (its counts, the next id and the time), trimmed to the last 1000 |
| ServerlessApi.HistoryRoute | backend/app/api/v1/alerts_serverless.py:65-71 | With no type, the newest `limit` alerts. With a type, exactly those of the newest `limit` alerts that have that type |
| ServerlessApi.GetConfigRouteAsWritten | backend/app/api/v1/alerts_serverless.py:77-95 | As written: a stored configuration is returned, but creating the default one fails on `enabled` |
| ServerlessApi.GetConfigRoute | backend/app/api/v1/alerts_serverless.py:77-95 | A stored configuration is returned unchanged; otherwise the route's default is stored and returned |
| ServerlessApi.RecipientName | backend/app/api/v1/alerts_serverless.py:249-253 | The name is the first name, followed by " (@username)" when a username is given |
| ServerlessApi.TelegramWebhook | backend/app/api/v1/alerts_serverless.py:231-290 | Only `/start` from a chat does anything. An unregistered chat is added once as an active viewer and a registered one is left alone |
| ServerlessApi.WebhookRegistersOnce | backend/app/api/v1/alerts_serverless.py:252-261 | The step of `WebhookTwice` for a new chat: after its record is appended, the chat counts as registered |
| ServerlessApi.WebhookTwice | backend/app/api/v1/alerts_serverless.py:231-290 | The same `/start` handled twice adds at most one recipient, keeps every earlier one, and leaves the chat registered |
| SimpleApi.NormalizePhone | backend/app/api/v1/alerts_simple.py:82-89 | The phone is stripped, then kept if it starts with '+'. Otherwise it gets '+' when it starts with 91, else '+91' |
| SimpleApi.NormalizeKeepsPlusForm | backend/app/api/v1/alerts_simple.py:82-89 | A phone already in '+' form with no surrounding space is unchanged |
| SimpleApi.NormalizedEndsWithoutSpace | backend/app/api/v1/alerts_simple.py:82-89 | A normalised phone never ends in whitespace |
| SimpleApi.NormalizePhoneIdempotent | backend/app/api/v1/alerts_simple.py:82-89 | Normalising twice gives the same phone as normalising once |
| SimpleApi.StoredPhone | backend/app/api/v1/alerts_simple.py:82-89 | A truthy phone is stored normalised, and any other phone as given |
| SimpleApi.TestEntry | backend/app/api/v1/alerts_simple.py:243-253 | The test entry's id is one past the history length |
| SimpleApi.LogTest | backend/app/api/v1/alerts_simple.py:243-253 | After logging, the history ends with the test entry, preceded by the newest earlier entries, and holds at most 100 |
| SimpleApi.TestIdsRepeatWhenFull | backend/app/api/v1/alerts_simple.py:243-253 | With a full history, two consecutive test entries get the same id |
| SimpleApi.HistoryTail | backend/app/api/v1/alerts_simple.py:162-166 | `history[-limit:]`: the last `limit` entries. A limit of 0 returns everything and a negative limit drops from the front |
| SimpleApi.SavedHistory | backend/app/api/v1/alerts_simple.py:55-60 | Only the last 100 entries are written |
| SimpleApi.SimpleStore.constructor | backend/app/api/v1/alerts_simple.py:30-53 | Missing files read as empty lists |
| SimpleApi.SimpleStore.SaveHistory | backend/app/api/v1/alerts_simple.py:55-60 | The stored history is the last 100 of the entries |
| SimpleApi.SimpleStore.GetRecipients | backend/app/api/v1/alerts_simple.py:66-74 | The result is every record, or exactly the active ones |
| SimpleApi.SimpleStore.CreateRecipient | backend/app/api/v1/alerts_simple.py:76-135 | The request is rejected exactly when its normalised phone is already stored. Otherwise the record is appended with the normalised phone and an id above every stored id |
| SimpleApi.SimpleStore.DeleteRecipient | backend/app/api/v1/alerts_simple.py:137-143 | Every record with the id is removed and the rest keep their order |
| SimpleApi.SimpleStore.ToggleRecipient | backend/app/api/v1/alerts_simple.py:145-156 | Only the first record with the id has `is_active` flipped; an unknown id changes nothing |
| SimpleApi.SimpleStore.GetAlertHistory | backend/app/api/v1/alerts_simple.py:162-166 | The result is the history's tail, which is the whole history when it fits within the limit |
| SimpleApi.SimpleStore.SendTestAlert | backend/app/api/v1/alerts_simple.py:209-276 | Without a bot the route answers 503 and nothing changes. Otherwise the message goes to the group chat and a successful test entry is logged |
| Endpoints.DashboardStatus | backend/app/api/v1/endpoints.py:49-57 | No reading is normal. Critical is above the threshold and warning above 80% of it. A non-numeric TDS shows warning |
| Endpoints.DashboardStatusMonotone | backend/app/api/v1/endpoints.py:49-57 | A higher TDS never shows a lower status |
| Endpoints.DashboardBands | backend/app/core/config.py:14 | At the configured 150 ppm, critical is above 150 and warning is (120, 150] |
| Endpoints.LoadSettingsFile | backend/app/api/v1/endpoints.py:23-31 | The result is the stored settings, or the defaults when none are stored |
| Endpoints.ThresholdsFallBack | backend/app/api/v1/endpoints.py:87-90 | The thresholds are the stored ones when present, else 150 and 35 |
| Endpoints.PlannedAttempt | backend/app/api/v1/endpoints.py:95-104 | An e-mail is attempted exactly when the value exceeds its threshold, a key is set and the type is not throttled |
| Endpoints.PlannedAttempts | backend/app/api/v1/endpoints.py:95-104 | At most two e-mails are attempted, each to all the recipients |
| Endpoints.BothAlertsAttempted | backend/app/api/v1/endpoints.py:95-104 | Both readings over their thresholds, with neither type throttled, give a TDS attempt followed by a temperature attempt |
| Endpoints.LogAlertEffects | backend/app/services/email_service.py:76-92 | Logging makes the entry its type's newest and leaves the other type unchanged |
| Endpoints.SendIfExceeded | backend/app/api/v1/endpoints.py:95-104 | The attempt is the one planned. Success requires an exceeded reading and an attempt, and the new log is the old one with the entry logged now. A failure leaves the log alone. The other type is unchanged |
| Endpoints.MailExceeded | backend/app/api/v1/endpoints.py:95-119 | A non-numeric temperature fails the check, with at most the TDS mail logged. Otherwise the attempts are the planned ones and the result is `Reported`: the new log is the old one with exactly the listed types logged now, so a type is listed if and only if its delivery was logged; each listed type had its reading exceeded and an attempt; no alert listed means the log is unchanged |
| Endpoints.LogTwoSteps | backend/app/api/v1/endpoints.py:95-119 | Logging each of the two deliveries only when it succeeded gives the log with exactly those types added, each with its newest delivery now |
| Endpoints.ReportedAfterSends | backend/app/api/v1/endpoints.py:95-119 | Two sends, each logged only on success and attempted only when planned, give an outcome that lists exactly the logged types |
| Endpoints.CheckAndSendAlerts | backend/app/api/v1/endpoints.py:66-119 | No reading gives no_data and no recipient gives no_recipients, both with nothing sent. Otherwise the checks run; the reported alerts are exactly the types logged now, and each had its reading exceeded |
| Periodic.Classify | backend/periodic_alerts.py:58-61 | Each reading is safe exactly when strictly below its threshold; the report is safe exactly when both are |
| Periodic.StatusText | backend/periodic_alerts.py:64-65 | The headline is SAFE exactly when overall safe, else ALERT |
| Periodic.Severity | backend/periodic_alerts.py:94 | The recorded severity is info exactly when overall safe, else warning |
| Periodic.ThresholdItselfIsUnsafe | backend/periodic_alerts.py:59-65 | A TDS equal to its threshold is unsafe and the headline is ALERT |
| Periodic.PeriodicHistory.constructor | backend/periodic_alerts.py:26-32 | A missing history file reads as an empty list |
| Periodic.PeriodicHistory.Save | backend/periodic_alerts.py:24-39 | The record is appended, the last 100 are kept and the record is last |
| Periodic.SendPeriodicAlert | backend/periodic_alerts.py:41-121 | No data: nothing is sent or written. A failure writes an error record only. Otherwise the report is sent to the chat and a successful record with the classification is saved |
| Cron.FeedValue | api/cron.py:33-37 | A missing or empty field is 0, a number is itself, and text `float` rejects raises `ValueError` |
| Cron.ThingSpeakData | api/cron.py:24-43 | Data is present exactly when the request answered 200 and every field converts. It carries the four converted fields and the feed's time stamp |
| Cron.EmptyTdsReadsAsZero | api/cron.py:34 | An empty TDS field reads as 0 ppm, graded safe |
| Cron.Grade | api/cron.py:71-79 | Critical is at or above 1000, high at or above 500, and safe below 500 |
| Cron.FormatAlertMessage | api/cron.py:63-99 | The message carries the grade and the four readings; "action required" appears exactly at or above 500 |
| Cron.FooterMatchesStatus | api/cron.py:71-97 | The footer asks for action exactly when the status is not safe |
| Cron.GradeMonotone | api/cron.py:71-79 | A higher TDS never gets a lower grade |
| Cron.SendAlert | api/cron.py:102-126 | No data gives an error and no post. Otherwise the message is posted once and the run succeeds exactly when the post did |
| Auth.Get | backend/app/core/auth.py:96-102 | `payload.get(k, default)`: the default only when the claim is absent, and None for a null claim |
| Auth.UserFromPayload | backend/app/core/auth.py:96-102 | Each of the five keys is `dict.get` of its claim: `sub`, `email` and `username` default to null, `email_verified` to false and the metadata to an empty dictionary; a claim present as null stays null |
| Auth.HeaderToken | backend/app/core/auth.py:84-93 | The header is rejected exactly when missing or not starting with "Bearer ". Otherwise the token is the text after it up to the next space |
| Auth.BearerRoundTrip | backend/app/core/auth.py:84-93 | A token without spaces comes back unchanged from its header |
| Auth.TokenStopsAtSpace | backend/app/core/auth.py:93 | Whatever follows a second space is dropped |
| Auth.GetCurrentUser | backend/app/core/auth.py:75-102 | A bad header is refused before verification; otherwise the verified claims become the user, and a verification error passes through |
| Auth.RequireAdminAsWritten | backend/app/core/auth.py:104-118 | As written: the admin role gives true. Otherwise a missing e-mail raises, and the result is whether the e-mail ends with the company domain |
| Auth.RequireAdmin | backend/app/core/auth.py:104-118 | Corrected: admin exactly when the role is admin or the e-mail ends with "@evaratds.com" |
| Auth.RequireAdminAgrees | backend/app/core/auth.py:104-118 | Wherever the code as written answers, the corrected rule gives the same answer |
| Auth.NoEmailClaimRaises | backend/app/core/auth.py:96-118 | A token without an e-mail claim or admin role makes the code as written raise, where the answer is "not admin" |
| Auth.DomainGrantsAdmin | backend/app/core/auth.py:117 | An address at the company domain is admin whatever the role |
| Users.Profile | backend/app/api/v1/users.py:16-23 | A row becomes a profile exactly when it has a user id |
| Users.RoleFor | backend/app/api/v1/users.py:42 | A sync gives the role admin exactly when the admin rule holds, else viewer |
| Users.UserStore.constructor | backend/app/api/v1/users.py:14 | The user table starts empty |
| Users.UserStore.SyncUser | backend/app/api/v1/users.py:30-62 | Corrected: the caller's row gets the request's fields, the role and the login time. An existing row keeps its creation time and a new one is created now. No other row changes, and the response is the caller's profile |
| Users.UserStore.GetProfile | backend/app/api/v1/users.py:64-72 | The result is not found exactly when the caller never synced, and otherwise the caller's row |
| Users.UserStore.SyncUserAsWritten | backend/app/api/v1/users.py:30-62 | As written: when the admin rule raises, the sync fails with that error and the table is unchanged; otherwise the row gets the role the rule answers |
| Users.UserStore.ListUsers | backend/app/api/v1/users.py:74-80 | Corrected: a non-admin is refused and a row without an id fails validation; the listing succeeds exactly for an admin when every row has an id, and then every row is listed in insertion order |
| Users.UserStore.ListUsersAsWritten | backend/app/api/v1/users.py:74-80 | As written: when the admin rule raises, the listing fails with that error; a non-admin is refused; otherwise the corrected listing |
| Users.UserStore.ListUsersComplete | backend/app/api/v1/users.py:80 | An admin's listing holds every row exactly once |
| Thresholds.EngineTdsImpliesPeriodicAlert | backend/periodic_alerts.py:59-65 | A TDS alert from the engine under a threshold means the periodic report under the same threshold says ALERT |
| Thresholds.AtDefaultThreshold | backend/app/core/config.py:14 | At exactly 150 ppm the four rules disagree: no engine alert, dashboard warning, periodic ALERT, cron safe |

## Left out

- **Network and external services.** These are inputs, not modelled:
  - the Telegram Bot API (`send_message`, `get_me`);
  - the Brevo API and SMTP (`_send_email`);
  - the ThingSpeak fetch;
  - the cron job's Telegram post.

  Each one is an input of the operation, or an unconstrained choice inside a
  method.
- **JWT verification.** `verify_clerk_token` (backend/app/core/auth.py:24-73)
  is a function parameter of `Auth.GetCurrentUser`; the JWKS fetch and
  signature checks are not modelled.
- **Files and the database.**
  - JSON file reading and writing is replaced by fields of the store classes.
  - A file that cannot be parsed is treated like a missing one.
  - The SQLAlchemy session of the alert engine is replaced by the engine's
    fields and a recipients input.
- **Clock, scheduling and concurrency.**
  - The wall clock is the `now` parameter, in seconds.
  - async scheduling, `asyncio.sleep`, the periodic run loop
    (backend/periodic_alerts.py:123) and concurrent requests are not
    modelled.
- **Message text.**
  - Message and HTML text, emoji rendering, timestamps and float formatting
    are reduced to what each message carries.
  - Engine.AlertEngine.TriggerAlert and Telegram.FormatAlertMessage do not
    model the rendered text.
- **Environment.** Environment variables other than the thresholds, cooldown
  and tokens are not modelled; those become parameters.
- **Routes that only forward to a store operation.** These are not separate
  members:
  - create, get, delete and toggle recipient in alerts_serverless.py:19-63;
  - the update-config route in alerts_serverless.py:97-104.
- **Other routes.**
  - The simple API's status route (alerts_simple.py:172-207) only reports
    counts.
  - `get_alert_history` in endpoints.py:121-133 reads the SQL database.
  - The cron health route is a constant answer.
- **Undefined fetch service.** periodic_alerts.py:9 imports
  `ThingSpeakService`, which thingspeak.py does not define (it has only
  `fetch_evara_data`), so importing the script raises `ImportError`: no
  run starts and no error record is written. The model describes the run
  the script's body evidently intends, with the fetch result as an input
  (`Periodic.Fetched`), including a raised error.
- **Input validation.** Pydantic validation of e-mail addresses (`EmailStr`)
  and of request bodies is not modelled. The exception is the missing
  required fields that make a record fail.
- **Aliasing.** Pydantic objects in `AlertDatabase` are mutable and shared
  with callers; the model stores them as values, so it does not capture
  changes made through an alias.
- AlertModel.AlertDatabase.UpdateRecipient: preserves the id invariant
  only when the update does not set `id`, since the source lets an update
  overwrite it.
- Engine.AlertEngine.GetAlertStatus: the cooldown remaining is in whole
  seconds divided by 60; Python's sub-second `timedelta` precision is not
  modelled.
- Cron.FeedValue: readings are Dafny reals, so there is no NaN or
  infinity. Python's `float` accepts ThingSpeak text such as
  "nan" (api/cron.py:34); every comparison with NaN is false, so the source
  grades it "SAFE" (api/cron.py:71-78) yet prints the "ACTION REQUIRED" footer
  (api/cron.py:97). Cron.FooterMatchesStatus, "the footer asks for action
  exactly when the status is not safe", therefore holds only for the real
  readings the model has, not for a NaN reading.
- ServerlessApi.Status: times are whole seconds. In Python,
  `int(cooldown_seconds - elapsed)` is 0 during the last fraction of a
  second of the window while sending is still refused; with whole-second
  times that case does not arise, so "positive exactly when refused" holds
  only in the model's clock.
- **Shared files.** Outside Vercel, the simple API (alerts_simple.py:18-21)
  and `ServerlessStorage` (serverless_storage.py:13-17) share
  `backend/data/recipients.json` and `backend/data/alert_history.json`, and
  the periodic report (periodic_alerts.py:20-22) writes the same history
  file. The model gives `SimpleApi.SimpleStore`,
  `ServerlessStore.ServerlessStorage` and `Periodic.PeriodicHistory`
  separate fields, so it does not capture
  one component's writes as seen by another: a simple test alert cutting
  the shared history to its last 100 entries, simple test ids counting the
  other components' rows, or recipients created through one API being seen
  and numbered by the other.

- Telegram.TitleFromAt: title-cases ASCII letters only. Python's
  `str.title()` also cases non-ASCII letters and treats them as word
  characters, which the model does not.
- Telegram.DisplayAlertTypeAt: shows the alert type title-cased over ASCII
  letters only, for the same reason as `Telegram.TitleFromAt`.
- Telegram.TokenFormatIff: `isdigit` is modelled as the ASCII digits '0'-'9';
  Python also accepts other Unicode digits (superscripts, other scripts),
  which the model rejects.
- Telegram.TokenFormatShape: uses the same ASCII digit set as
  `Telegram.TokenFormatIff`.
- ServerlessStore.ServerlessStorage.GetAlertHistory: returns the stored
  dictionaries; the `AlertHistory(**h)` validation performed on each one as
  it is read back is not modelled, so a stored record without a required
  field is returned here where Python would raise.

## Findings

| source | as written | input that shows it | evidently intended | confidence | as-written member | corrected member |
|---|---|---|---|---|---|---|
| backend/app/services/serverless_storage.py:171 | `update_config` reads `config.enabled`, which `AlertConfig` does not declare, so every call raises `AttributeError` | any `AlertConfig`, e.g. `AlertConfig()` | store the declared `enable_telegram` field | high, not executed | ServerlessStore.ServerlessStorage.UpdateConfigAsWritten | ServerlessStore.ServerlessStorage.UpdateConfig |
| backend/app/services/serverless_storage.py:124 | `add_alert_history` reads `alert.severity` (and other undeclared fields), so every call raises `AttributeError` | any `AlertHistory` | store the dictionary written at serverless_storage.py:122-134, keys `severity`, `temp_value`, `voltage_value` and `recipient_count` included, as if the record declared them; the corrected test record (alerts_serverless.py:199-207) passes `severity` and `recipient_count` in the same way | high, not executed | ServerlessStore.ServerlessStorage.AddAlertHistoryAsWritten | ServerlessStore.ServerlessStorage.AddAlertHistory |
| backend/app/api/v1/alerts_serverless.py:199-208 | the test alert builds `AlertHistory` without the required `tds_value`, so the route fails with a validation error after the messages are sent | one active recipient with chat id "1" and a configured bot | log the test alert with its counts, giving `tds_value` and `threshold` as 0 so the record also reads back | high, not executed | ServerlessApi.SendTestAlertAsWritten | ServerlessApi.SendTestAlert |
| backend/app/api/v1/alerts_serverless.py:125 | `datetime.fromisoformat` is called on `created_at`, which the model has already parsed into a `datetime`; the `TypeError` is swallowed, so the status never shows a cooldown | one alert stored 60 seconds ago with a 5-minute cooldown | report the remaining cooldown | high, not executed | ServerlessApi.GetAlertStatusAsWritten | ServerlessApi.GetAlertStatus |
| backend/app/api/v1/users.py:42-78 | `sync_user` and `list_users` call `require_admin`, which raises for a non-admin without an e-mail claim, so such a user can neither sync (500, nothing written) nor be told 403 | a verified token with no `email` claim and no role | sync the user as a viewer; answer 403 to the listing | high, not executed | Users.UserStore.SyncUserAsWritten | Users.UserStore.SyncUser |
| backend/app/core/auth.py:117 | `user.get("email", "")` returns `None`, because the key is always present; `None.endswith` raises for a non-admin without an e-mail claim | a verified token with no `email` claim and no role | answer "not admin" | high, not executed | Auth.RequireAdminAsWritten | Auth.RequireAdmin |

=== FILE: alert_engine.dfy ===
/**
 * The alert engine: threshold evaluation with fixed precedence (TDS, then
 * temperature, then a hard-coded low-voltage level), a single global cooldown
 * timestamp, and the dispatch that fans an alert out to every active
 * recipient with a Telegram chat id and logs one history row.
 *
 * Time is whole seconds (`now`); the cooldown is configured in minutes.
 * The database session is replaced by the engine's own fields: `config` is
 * the configuration row, `history` the rows this engine added, and the
 * recipients query result is passed in.
 */
module Engine {
  import opened Common
  import Telegram

  /** The low-voltage level; it is not configurable. */
  const LOW_VOLTAGE: real := 3.0

  datatype AlertKind = HighTds | HighTemp | LowVoltage
  datatype Severity = Critical | Warning

  /** The `alert_type` string of each kind. */
  function KindName(kind: AlertKind): string {
    match kind
    case HighTds => "high_tds"
    case HighTemp => "high_temp"
    case LowVoltage => "low_voltage"
  }

  datatype AlertInfo = AlertInfo(kind: AlertKind, severity: Severity, threshold: real, currentValue: real, parameter: string)

  /** At most one condition per reading: TDS first, then temperature, then voltage. */
  function CheckThresholds(tdsThreshold: real, tempThreshold: real, tds: real, temp: real, voltage: real): (r: Option<AlertInfo>)
    ensures tds > tdsThreshold ==> r == Some(AlertInfo(HighTds, Critical, tdsThreshold, tds, "TDS"))
    ensures (r.Some? && r.value.kind == HighTemp) <==> tds <= tdsThreshold && temp > tempThreshold
    ensures (r.Some? && r.value.kind == LowVoltage) <==> tds <= tdsThreshold && temp <= tempThreshold && voltage < LOW_VOLTAGE
    ensures r.None? <==> tds <= tdsThreshold && temp <= tempThreshold && voltage >= LOW_VOLTAGE
    ensures r.Some? && r.value.kind == HighTemp ==> r.value == AlertInfo(HighTemp, Warning, tempThreshold, temp, "Temperature")
    ensures r.Some? && r.value.kind == LowVoltage ==> r.value == AlertInfo(LowVoltage, Warning, LOW_VOLTAGE, voltage, "Voltage")
  {
    if tds > tdsThreshold then Some(AlertInfo(HighTds, Critical, tdsThreshold, tds, "TDS"))
    else if temp > tempThreshold then Some(AlertInfo(HighTemp, Warning, tempThreshold, temp, "Temperature"))
    else if voltage < LOW_VOLTAGE then Some(AlertInfo(LowVoltage, Warning, LOW_VOLTAGE, voltage, "Voltage"))
    else None
  }

  /** The voltage level does not move with the configured thresholds: a low
      voltage with TDS and temperature within their limits gives the same
      condition, with level 3.0, under any two threshold pairs. */
  lemma VoltageLevelIsFixed(tdsThr1: real, tempThr1: real, tds1: real, temp1: real,
                            tdsThr2: real, tempThr2: real, tds2: real, temp2: real, voltage: real)
    requires tds1 <= tdsThr1 && temp1 <= tempThr1 && tds2 <= tdsThr2 && temp2 <= tempThr2
    requires voltage < LOW_VOLTAGE
    ensures CheckThresholds(tdsThr1, tempThr1, tds1, temp1, voltage)
         == CheckThresholds(tdsThr2, tempThr2, tds2, temp2, voltage)
         == Some(AlertInfo(LowVoltage, Warning, 3.0, voltage, "Voltage"))
  {
  }

  // ---------------------------------------------------------------------------
  // Cooldown
  // ---------------------------------------------------------------------------

  /** True when no alert was ever sent, or at least `cooldownMinutes` have
      passed since the last one (the boundary itself is allowed). */
  function ShouldSendAlert(lastAlertTime: Option<int>, cooldownMinutes: int, now: int): bool {
    lastAlertTime.None? || now - lastAlertTime.value >= cooldownMinutes * 60
  }

  /** Minutes left in the cooldown window, never negative. */
  function CooldownRemaining(lastAlertTime: Option<int>, cooldownMinutes: int, now: int): (m: real)
    ensures m >= 0.0
    ensures lastAlertTime.None? ==> m == 0.0
    ensures m > 0.0 <==> !ShouldSendAlert(lastAlertTime, cooldownMinutes, now)
  {
    if lastAlertTime.None? then 0.0
    else
      var remaining := (cooldownMinutes * 60 - (now - lastAlertTime.value)) as real / 60.0;
      if remaining > 0.0 then remaining else 0.0
  }

  /** Once allowed, sending stays allowed as time goes on (no flapping). */
  lemma ShouldSendMonotone(lastAlertTime: Option<int>, cooldownMinutes: int, now1: int, now2: int)
    requires now1 <= now2 && ShouldSendAlert(lastAlertTime, cooldownMinutes, now1)
    ensures ShouldSendAlert(lastAlertTime, cooldownMinutes, now2)
  {
  }

  /** Right after an alert at `t`, sending is refused strictly inside the
      window and allowed from its end on. */
  lemma CooldownWindow(t: int, cooldownMinutes: int, now: int)
    requires cooldownMinutes > 0 && t <= now
    ensures ShouldSendAlert(Some(t), cooldownMinutes, now) <==> now >= t + cooldownMinutes * 60
    ensures !ShouldSendAlert(Some(t), cooldownMinutes, now) ==>
      CooldownRemaining(Some(t), cooldownMinutes, now) == (t + cooldownMinutes * 60 - now) as real / 60.0
  {
  }

  // ---------------------------------------------------------------------------
  // Dispatch decision
  // ---------------------------------------------------------------------------

  datatype DbRecipient = DbRecipient(name: string, telegramChatId: Option<string>, isActive: bool)

  /** The recipients query: active and with a chat id (which may be empty). */
  function Eligible(recipients: seq<DbRecipient>): (e: seq<DbRecipient>)
    ensures forall i :: 0 <= i < |e| ==> e[i].isActive && e[i].telegramChatId.Some?
    ensures forall i :: (0 <= i < |recipients| && recipients[i].isActive && recipients[i].telegramChatId.Some?
      ==> recipients[i] in e)
  {
    Filter(recipients, (r: DbRecipient) => r.isActive && r.telegramChatId.Some?)
  }

  /** The non-empty chat ids of the given recipients, in order. */
  function ChatIds(recipients: seq<DbRecipient>): (ids: seq<string>)
    requires forall i :: 0 <= i < |recipients| ==> recipients[i].telegramChatId.Some?
    ensures |ids| <= |recipients|
    ensures forall i :: 0 <= i < |ids| ==> ids[i] != ""
    ensures forall i :: (0 <= i < |recipients| && recipients[i].telegramChatId.value != ""
      ==> recipients[i].telegramChatId.value in ids)
    ensures forall i :: 0 <= i < |ids| ==>
      exists j :: 0 <= j < |recipients| && recipients[j].telegramChatId.value == ids[i]
  {
    if recipients == [] then []
    else
      var id := recipients[0].telegramChatId.value;
      (if id != "" then [id] else []) + ChatIds(recipients[1..])
  }

  predicate HasNonEmptyId(r: DbRecipient) {
    r.telegramChatId.Some? && r.telegramChatId.value != ""
  }

  /** The chat id of each recipient, in order. */
  function IdsOf(recipients: seq<DbRecipient>): (ids: seq<string>)
    requires forall i :: 0 <= i < |recipients| ==> recipients[i].telegramChatId.Some?
    ensures |ids| == |recipients|
    ensures forall i :: 0 <= i < |recipients| ==> ids[i] == recipients[i].telegramChatId.value
  {
    seq(|recipients|, i requires 0 <= i < |recipients| => recipients[i].telegramChatId.value)
  }

  lemma IdsOfAppend(a: seq<DbRecipient>, b: seq<DbRecipient>)
    requires forall i :: 0 <= i < |a| ==> a[i].telegramChatId.Some?
    requires forall i :: 0 <= i < |b| ==> b[i].telegramChatId.Some?
    ensures IdsOf(a + b) == IdsOf(a) + IdsOf(b)
  {
  }

  /** The comprehension as a filter then a map: the chat ids of exactly the
      recipients with a non-empty id, in their order, each as often as it
      occurs. */
  lemma {:induction false} ChatIdsAreFiltered(recipients: seq<DbRecipient>)
    requires forall i :: 0 <= i < |recipients| ==> recipients[i].telegramChatId.Some?
    ensures ChatIds(recipients) == IdsOf(Filter(recipients, HasNonEmptyId))
  {
    if recipients != [] {
      ChatIdsAreFiltered(recipients[1..]);
      IdsOfAppend(if HasNonEmptyId(recipients[0]) then [recipients[0]] else [], Filter(recipients[1..], HasNonEmptyId));
    }
  }

  function Names(recipients: seq<DbRecipient>): (names: seq<string>)
    ensures |names| == |recipients|
    ensures forall i :: 0 <= i < |recipients| ==> names[i] == recipients[i].name
  {
    seq(|recipients|, i requires 0 <= i < |recipients| => recipients[i].name)
  }

  datatype Decision =
    | InCooldown(remainingMinutes: real)
    | NoRecipients
    | Dispatch(chatIds: seq<string>, notified: seq<string>)

  /** What `trigger_alert` does: the cooldown is checked before the
      recipients; a dispatch goes to the non-empty chat ids of the eligible
      recipients and names every eligible recipient as notified. */
  function Decide(lastAlertTime: Option<int>, cooldownMinutes: int, recipients: seq<DbRecipient>, now: int): (d: Decision)
    ensures d.InCooldown? <==> !ShouldSendAlert(lastAlertTime, cooldownMinutes, now)
    ensures d.InCooldown? ==> d.remainingMinutes > 0.0
    ensures d.NoRecipients? <==> (ShouldSendAlert(lastAlertTime, cooldownMinutes, now)
      && forall i :: 0 <= i < |recipients| ==> !recipients[i].isActive || recipients[i].telegramChatId.None?)
    ensures d.Dispatch? ==> |d.chatIds| <= |d.notified| <= |recipients| && |d.notified| > 0
  {
    if !ShouldSendAlert(lastAlertTime, cooldownMinutes, now) then
      InCooldown(CooldownRemaining(lastAlertTime, cooldownMinutes, now))
    else
      var e := Eligible(recipients);
      if e == [] then
        NoRecipients
      else
        Dispatch(ChatIds(e), Names(e))
  }

  // ---------------------------------------------------------------------------
  // The engine
  // ---------------------------------------------------------------------------

  datatype EngineConfig = EngineConfig(
    tdsThreshold: real, tempThreshold: real, cooldownMinutes: int,
    telegramEnabled: bool, lastAlertTime: Option<int>)

  /** The configuration row created when none is stored: environment values
      when given, else 150, 35 and 15 minutes; Telegram on; no alert yet. */
  function DefaultConfig(envTds: Option<real>, envTemp: Option<real>, envCooldown: Option<int>): (c: EngineConfig)
    ensures envTds.None? ==> c.tdsThreshold == 150.0
    ensures envTemp.None? ==> c.tempThreshold == 35.0
    ensures envCooldown.None? ==> c.cooldownMinutes == 15
    ensures c.telegramEnabled && c.lastAlertTime.None?
  {
    EngineConfig(envTds.GetOr(150.0), envTemp.GetOr(35.0), envCooldown.GetOr(15), true, None)
  }

  datatype HistoryRow = HistoryRow(
    alertType: AlertKind, severity: Severity, message: Telegram.Message,
    tds: real, temp: real, voltage: real, threshold: real,
    recipientsNotified: seq<string>, channelsUsed: seq<string>,
    success: nat, failed: nat, recipientCount: nat)

  datatype TriggerResult =
    | Suppressed(timeRemainingMinutes: real)
    | NotSent      // reason 'no_recipients'
    | Sent(alertType: AlertKind, severity: Severity, recipients: nat, failed: nat, total: nat, timestamp: int)

  datatype AlertStatus = AlertStatus(
    telegramEnabled: bool, tdsThreshold: real, tempThreshold: real, cooldownMinutes: int,
    lastAlert: Option<int>, cooldownRemaining: real, canSendAlert: bool)

  class AlertEngine {
    var config: EngineConfig
    var history: seq<HistoryRow>
    const telegram: Telegram.TelegramService

    /** Uses the stored configuration row, or creates the default one. */
    constructor (stored: Option<EngineConfig>, envTds: Option<real>, envTemp: Option<real>, envCooldown: Option<int>,
                 telegram: Telegram.TelegramService)
      ensures config == if stored.Some? then stored.value else DefaultConfig(envTds, envTemp, envCooldown)
      ensures history == [] && this.telegram == telegram
    {
      config := if stored.Some? then stored.value else DefaultConfig(envTds, envTemp, envCooldown);
      history := [];
      this.telegram := telegram;
    }

    /** During the cooldown and with no eligible recipient nothing is sent,
        logged or updated. Otherwise every chat id is attempted once, exactly
        one row is logged whose recipient count is the number of successful
        sends, and the last alert time becomes `now` even if every send failed. */
    method TriggerAlert(kind: AlertKind, severity: Severity, tds: real, temp: real, voltage: real,
                        threshold: real, recipients: seq<DbRecipient>, now: int) returns (r: TriggerResult)
      modifies this, telegram
      ensures var d := Decide(old(config.lastAlertTime), old(config.cooldownMinutes), recipients, now);
        && (d.InCooldown? ==> r == Suppressed(d.remainingMinutes))
        && (d.NoRecipients? ==> r == NotSent)
        && (!d.Dispatch? ==> config == old(config) && history == old(history) && telegram.sent == old(telegram.sent))
      ensures var d := Decide(old(config.lastAlertTime), old(config.cooldownMinutes), recipients, now);
        var message := Telegram.FormatAlertMessage(KindName(kind), tds, temp, voltage, threshold);
        d.Dispatch? ==>
          && r.Sent? && r.alertType == kind && r.severity == severity && r.timestamp == now
          && r.total == |d.chatIds| && r.recipients + r.failed == r.total
          && (!telegram.hasBot ==> r.recipients == 0 && telegram.sent == old(telegram.sent))
          && (telegram.hasBot ==> telegram.sent == old(telegram.sent) + Telegram.Deliveries(d.chatIds, message))
          && config == old(config).(lastAlertTime := Some(now))
          && history == old(history) + [HistoryRow(kind, severity, message, tds, temp, voltage, threshold,
                                                   d.notified, ["telegram"], r.recipients, r.failed, r.recipients)]
    {
      var d := Decide(config.lastAlertTime, config.cooldownMinutes, recipients, now);
      if d.InCooldown? {
        return Suppressed(d.remainingMinutes);
      }
      if d.NoRecipients? {
        return NotSent;
      }
      var message := Telegram.FormatAlertMessage(KindName(kind), tds, temp, voltage, threshold);
      var results, delivered := telegram.SendBulkAlert(d.chatIds, message);
      history := history + [HistoryRow(kind, severity, message, tds, temp, voltage, threshold,
                                       d.notified, ["telegram"], results.success, results.failed, results.success)];
      config := config.(lastAlertTime := Some(now));
      r := Sent(kind, severity, results.success, results.failed, results.total, now);
    }

    /** A reading inside every limit triggers nothing and changes nothing;
        otherwise the single condition found is handed to `TriggerAlert`. */
    method ProcessSensorData(tds: real, temp: real, voltage: real, recipients: seq<DbRecipient>, now: int)
      returns (r: Option<TriggerResult>)
      modifies this, telegram
      ensures var info := CheckThresholds(old(config.tdsThreshold), old(config.tempThreshold), tds, temp, voltage);
        info.None? ==> r.None? && config == old(config) && history == old(history) && telegram.sent == old(telegram.sent)
      ensures var info := CheckThresholds(old(config.tdsThreshold), old(config.tempThreshold), tds, temp, voltage);
        var d := Decide(old(config.lastAlertTime), old(config.cooldownMinutes), recipients, now);
        info.Some? ==>
          && r.Some?
          && (d.InCooldown? ==> r.value == Suppressed(d.remainingMinutes))
          && (d.NoRecipients? ==> r.value == NotSent)
          && (!d.Dispatch? ==> config == old(config) && history == old(history) && telegram.sent == old(telegram.sent))
          && (d.Dispatch? ==>
                && r.value.Sent? && r.value.alertType == info.value.kind
                && config == old(config).(lastAlertTime := Some(now))
                && |history| == |old(history)| + 1 && history[..|old(history)|] == old(history)
                && history[|history| - 1].threshold == info.value.threshold)
    {
      var info := CheckThresholds(config.tdsThreshold, config.tempThreshold, tds, temp, voltage);
      if info.None? {
        return None;
      }
      var t := TriggerAlert(info.value.kind, info.value.severity, tds, temp, voltage, info.value.threshold, recipients, now);
      r := Some(t);
    }

    /** The status report: the remaining cooldown is positive exactly when
        sending is refused. */
    function GetAlertStatus(now: int): (s: AlertStatus)
      reads this
      ensures s.cooldownRemaining >= 0.0
      ensures s.cooldownRemaining > 0.0 <==> !s.canSendAlert
      ensures s.lastAlert.None? ==> s.canSendAlert && s.cooldownRemaining == 0.0
      ensures s.canSendAlert <==> Decide(config.lastAlertTime, config.cooldownMinutes, [], now).NoRecipients?
    {
      AlertStatus(config.telegramEnabled, config.tdsThreshold, config.tempThreshold, config.cooldownMinutes,
                  config.lastAlertTime,
                  CooldownRemaining(config.lastAlertTime, config.cooldownMinutes, now),
                  ShouldSendAlert(config.lastAlertTime, config.cooldownMinutes, now))
    }
  }

  /** Scenario: a second high reading 5 minutes after a dispatch, with a
      15-minute cooldown, is suppressed with 10 minutes left. */
  lemma SuppressedFiveMinutesLater(recipients: seq<DbRecipient>, t: int)
    ensures Decide(Some(t), 15, recipients, t + 300) == InCooldown(10.0)
  {
  }
}

=== FILE: alert_model.dfy ===
/**
 * The in-memory alert database: recipients with counter-assigned ids, a
 * history bounded to the last 1000 alerts, one configuration object, and a
 * per-recipient cooldown map from recipient id to the time of its last alert.
 *
 * The pydantic records become values; a method that changes one record
 * writes the changed value back into the list at the record's position.
 */
module AlertModel {
  import opened Common

  const MAX_HISTORY := 1000

  /** The declared fields of each pydantic model. Reading any other attribute
      of an instance raises `AttributeError`; extra keyword arguments to a
      constructor are ignored. */
  const RECIPIENT_FIELDS: set<string> := {"id", "name", "telegram_chat_id", "email", "phone", "role",
                                          "is_active", "channels", "created_at", "created_by"}
  const HISTORY_FIELDS: set<string> := {"id", "alert_type", "tds_value", "threshold", "message",
                                        "recipients_notified", "channels_used", "delivery_status", "created_at"}
  /** The `AlertHistory` fields without a default, in declaration order: a
      constructor call that omits one raises a validation error. */
  const HISTORY_REQUIRED: seq<string> := ["alert_type", "tds_value", "threshold", "message"]
  const CONFIG_FIELDS: set<string> := {"tds_threshold", "warning_threshold", "cooldown_minutes", "enable_telegram",
                                       "enable_email", "enable_sms", "telegram_bot_token", "email_from",
                                       "offline_threshold_minutes"}

  datatype Recipient = Recipient(
    id: Option<int>, name: string, telegramChatId: Option<string>, email: Option<string>,
    phone: Option<string>, role: string, isActive: bool, channels: seq<string>,
    createdAt: Option<int>, createdBy: Option<string>)

  /** A new recipient with the model's defaults: viewer, active, Telegram only. */
  function NewRecipient(name: string, telegramChatId: Option<string>): (r: Recipient)
    ensures r.id.None? && r.role == "viewer" && r.isActive && r.channels == ["telegram"]
  {
    Recipient(None, name, telegramChatId, None, None, "viewer", true, ["telegram"], None, None)
  }

  /** The keys of an `updates` dict that name fields of the record; an absent
      key leaves that field alone. */
  datatype RecipientUpdate = RecipientUpdate(
    id: Option<Option<int>>, name: Option<string>, telegramChatId: Option<Option<string>>,
    email: Option<Option<string>>, phone: Option<Option<string>>, role: Option<string>,
    isActive: Option<bool>, channels: Option<seq<string>>, createdAt: Option<Option<int>>,
    createdBy: Option<Option<string>>)

  /** Sets every field the update names and keeps every other one. */
  function ApplyUpdate(r: Recipient, u: RecipientUpdate): (q: Recipient)
    ensures q.id == u.id.GetOr(r.id) && q.name == u.name.GetOr(r.name)
    ensures q.telegramChatId == u.telegramChatId.GetOr(r.telegramChatId)
    ensures q.email == u.email.GetOr(r.email) && q.phone == u.phone.GetOr(r.phone)
    ensures q.isActive == u.isActive.GetOr(r.isActive) && q.role == u.role.GetOr(r.role)
    ensures q.channels == u.channels.GetOr(r.channels)
    ensures q.createdAt == u.createdAt.GetOr(r.createdAt) && q.createdBy == u.createdBy.GetOr(r.createdBy)
    ensures u == RecipientUpdate(None, None, None, None, None, None, None, None, None, None) ==> q == r
  {
    Recipient(u.id.GetOr(r.id), u.name.GetOr(r.name), u.telegramChatId.GetOr(r.telegramChatId),
              u.email.GetOr(r.email), u.phone.GetOr(r.phone), u.role.GetOr(r.role),
              u.isActive.GetOr(r.isActive), u.channels.GetOr(r.channels),
              u.createdAt.GetOr(r.createdAt), u.createdBy.GetOr(r.createdBy))
  }

  datatype HistoryEntry = HistoryEntry(
    id: Option<int>, alertType: string, tdsValue: real, threshold: real, message: string,
    recipientsNotified: seq<string>, channelsUsed: seq<string>, createdAt: Option<int>)

  datatype Config = Config(
    tdsThreshold: real, warningThreshold: real, cooldownMinutes: int,
    enableTelegram: bool, enableEmail: bool, enableSms: bool,
    telegramBotToken: Option<string>, emailFrom: string, offlineThresholdMinutes: int)

  /** `AlertConfig()` with no arguments. */
  function DefaultConfig(): (c: Config)
    ensures c.tdsThreshold == 150.0 && c.warningThreshold == 135.0 && c.cooldownMinutes == 5
    ensures c.enableTelegram && !c.enableEmail && !c.enableSms && c.telegramBotToken.None?
  {
    Config(150.0, 135.0, 5, true, false, false, None, "alerts@evaratds.com", 5)
  }

  datatype ConfigUpdate = ConfigUpdate(
    tdsThreshold: Option<real>, warningThreshold: Option<real>, cooldownMinutes: Option<int>,
    enableTelegram: Option<bool>, enableEmail: Option<bool>, enableSms: Option<bool>,
    telegramBotToken: Option<Option<string>>, emailFrom: Option<string>, offlineThresholdMinutes: Option<int>)

  function ApplyConfigUpdate(c: Config, u: ConfigUpdate): (d: Config)
    ensures d.tdsThreshold == u.tdsThreshold.GetOr(c.tdsThreshold)
    ensures d.warningThreshold == u.warningThreshold.GetOr(c.warningThreshold)
    ensures d.cooldownMinutes == u.cooldownMinutes.GetOr(c.cooldownMinutes)
    ensures d.enableTelegram == u.enableTelegram.GetOr(c.enableTelegram)
    ensures d.enableEmail == u.enableEmail.GetOr(c.enableEmail) && d.enableSms == u.enableSms.GetOr(c.enableSms)
    ensures d.telegramBotToken == u.telegramBotToken.GetOr(c.telegramBotToken)
    ensures d.emailFrom == u.emailFrom.GetOr(c.emailFrom)
    ensures d.offlineThresholdMinutes == u.offlineThresholdMinutes.GetOr(c.offlineThresholdMinutes)
    ensures (u.tdsThreshold.None? && u.warningThreshold.None? && u.cooldownMinutes.None? && u.enableTelegram.None?
      && u.enableEmail.None? && u.enableSms.None? && u.telegramBotToken.None? && u.emailFrom.None?
      && u.offlineThresholdMinutes.None?) ==> d == c
  {
    Config(u.tdsThreshold.GetOr(c.tdsThreshold), u.warningThreshold.GetOr(c.warningThreshold),
           u.cooldownMinutes.GetOr(c.cooldownMinutes), u.enableTelegram.GetOr(c.enableTelegram),
           u.enableEmail.GetOr(c.enableEmail), u.enableSms.GetOr(c.enableSms),
           u.telegramBotToken.GetOr(c.telegramBotToken), u.emailFrom.GetOr(c.emailFrom),
           u.offlineThresholdMinutes.GetOr(c.offlineThresholdMinutes))
  }

  /** Sort key of a recipient or entry by id (only read once ids are set). */
  function RecipientKey(r: Recipient): int { r.id.GetOr(0) }
  function EntryKey(e: HistoryEntry): int { e.id.GetOr(0) }
  function CreatedKey(e: HistoryEntry): int { e.createdAt.GetOr(0) }

  // ---------------------------------------------------------------------------
  // Per-recipient cooldown
  // ---------------------------------------------------------------------------

  /** `can_send_alert`: a recipient never marked may always be alerted;
      otherwise the elapsed minutes must reach the cooldown. */
  function CanSend(lastAlertTime: map<int, int>, cooldownMinutes: int, recipientId: int, now: int): bool {
    recipientId !in lastAlertTime
    || (now - lastAlertTime[recipientId]) as real / 60.0 >= cooldownMinutes as real
  }

  /** Marking one recipient at `t` closes its window until `cooldownMinutes`
      have elapsed, opens it from then on, and leaves every other recipient's
      answer as it was. */
  lemma MarkThenCanSend(last: map<int, int>, cooldownMinutes: int, r: int, t: int, now: int, other: int)
    requires other != r
    ensures CanSend(last[r := t], cooldownMinutes, r, now) <==> now >= t + cooldownMinutes * 60
    ensures CanSend(last[r := t], cooldownMinutes, other, now) == CanSend(last, cooldownMinutes, other, now)
  {
    var e := (now - t) as real / 60.0;
    assert e >= cooldownMinutes as real <==> (now - t) as real >= (cooldownMinutes * 60) as real;
  }

  // ---------------------------------------------------------------------------
  // Statistics
  // ---------------------------------------------------------------------------

  datatype AlertStats = AlertStats(
    totalAlerts: nat, criticalAlerts: nat, warningAlerts: nat, recoveryAlerts: nat,
    activeRecipients: nat, lastAlert: Option<int>, uptimePercentage: real)

  function CreatedTimes(h: seq<HistoryEntry>): (ts: seq<int>)
    ensures |ts| == |h| && forall i :: 0 <= i < |h| ==> ts[i] == CreatedKey(h[i])
  {
    seq(|h|, i requires 0 <= i < |h| => CreatedKey(h[i]))
  }

  /** `get_stats` over the given history and recipient list. */
  function Stats(history: seq<HistoryEntry>, recipients: seq<Recipient>): (s: AlertStats)
    ensures s.totalAlerts == |history|
    ensures s.criticalAlerts + s.warningAlerts + s.recoveryAlerts <= s.totalAlerts
    ensures s.activeRecipients <= |recipients|
    ensures s.lastAlert.None? <==> history == []
    ensures s.lastAlert.Some? ==> forall i :: 0 <= i < |history| ==> CreatedKey(history[i]) <= s.lastAlert.value
    ensures s.lastAlert.Some? ==> exists i :: 0 <= i < |history| && CreatedKey(history[i]) == s.lastAlert.value
  {
    var critical := (a: HistoryEntry) => a.alertType == "critical";
    var warning := (a: HistoryEntry) => a.alertType == "warning";
    var recovery := (a: HistoryEntry) => a.alertType == "recovery";
    CountExclusive(history, critical, warning, recovery);
    var last := if history == [] then None else Some(MaxOr(CreatedTimes(history), 0));
    AlertStats(|history|, Count(history, critical), Count(history, warning), Count(history, recovery),
               Count(recipients, (r: Recipient) => r.isActive), last, 100.0)
  }

  /** Every entry has an id in `1..next-1` and a creation time, and ids
      increase along the history. */
  ghost predicate HistoryIds(h: seq<HistoryEntry>, next: int) {
    && (forall i :: 0 <= i < |h| ==> h[i].id.Some? && 0 < h[i].id.value < next && h[i].createdAt.Some?)
    && Increasing(h, EntryKey)
  }

  /** Appending an entry whose id exceeds every stored id keeps the ids
      increasing and below the advanced counter. */
  lemma AppendIds(h: seq<HistoryEntry>, a: HistoryEntry, next: int)
    requires HistoryIds(h, next)
    requires a.id == Some(next) && 0 < next && a.createdAt.Some?
    ensures HistoryIds(h + [a], next + 1)
  {
    var g := h + [a];
    forall i, j | 0 <= i < j < |g| ensures EntryKey(g[i]) < EntryKey(g[j]) {
      assert g[i] == h[i];
      if j < |h| {
        assert g[j] == h[j];
      }
    }
  }

  /** Dropping a prefix keeps the id properties. */
  lemma SuffixIds(g: seq<HistoryEntry>, k: nat, next: int)
    requires HistoryIds(g, next) && k <= |g|
    ensures HistoryIds(g[k..], next)
  {
    var r := g[k..];
    assert forall i :: 0 <= i < |r| ==> r[i] == g[k + i];
  }

  /** Appending and keeping the last 1000, as `add_alert` does. */
  lemma KeepLastValid(h: seq<HistoryEntry>, a: HistoryEntry, next: int)
    requires HistoryIds(h, next)
    requires a.id == Some(next) && 0 < next && a.createdAt.Some?
    ensures HistoryIds(SliceFrom(h + [a], -MAX_HISTORY), next + 1)
    ensures 0 < |SliceFrom(h + [a], -MAX_HISTORY)| <= MAX_HISTORY
    ensures SliceFrom(h + [a], -MAX_HISTORY)[|SliceFrom(h + [a], -MAX_HISTORY)| - 1] == a
  {
    AppendKeepLast(h, a, MAX_HISTORY);
    AppendIds(h, a, next);
    var g := h + [a];
    var r := SliceFrom(g, -MAX_HISTORY);
    SuffixIds(g, |g| - |r|, next + 1);
  }

  class AlertDatabase {
    var recipients: seq<Recipient>
    var alertHistory: seq<HistoryEntry>
    var config: Config
    var lastAlertTime: map<int, int>
    var nextRecipientId: int
    var nextAlertId: int

    /** Every stored recipient and alert has an id below its counter, ids
        increase in insertion order, and the history holds at most 1000
        entries, each with a creation time. */
    ghost predicate Valid()
      reads this
    {
      && 0 < nextRecipientId && 0 < nextAlertId
      && (forall i :: 0 <= i < |recipients| ==> recipients[i].id.Some? && 0 < recipients[i].id.value < nextRecipientId)
      && Increasing(recipients, RecipientKey)
      && HistoryIds(alertHistory, nextAlertId)
      && |alertHistory| <= MAX_HISTORY
    }

    constructor ()
      ensures Valid()
      ensures recipients == [] && alertHistory == [] && config == DefaultConfig() && lastAlertTime == map[]
      ensures nextRecipientId == 1 && nextAlertId == 1
    {
      recipients := [];
      alertHistory := [];
      config := DefaultConfig();
      lastAlertTime := map[];
      nextRecipientId := 1;
      nextAlertId := 1;
    }

    /** Assigns the next id and the creation time and appends the record. */
    method AddRecipient(recipient: Recipient, now: int) returns (r: Recipient)
      requires Valid()
      modifies this
      ensures Valid()
      ensures r == recipient.(id := Some(old(nextRecipientId)), createdAt := Some(now))
      ensures recipients == old(recipients) + [r]
      ensures nextRecipientId == old(nextRecipientId) + 1
      ensures forall i :: 0 <= i < |old(recipients)| ==> old(recipients)[i].id.value < r.id.value
      ensures alertHistory == old(alertHistory) && config == old(config) && lastAlertTime == old(lastAlertTime)
      ensures nextAlertId == old(nextAlertId)
    {
      r := recipient.(id := Some(nextRecipientId), createdAt := Some(now));
      recipients := recipients + [r];
      nextRecipientId := nextRecipientId + 1;
    }

    /** All recipients, or exactly the active ones in stored order. */
    function GetRecipients(activeOnly: bool): (rs: seq<Recipient>)
      reads this
      ensures !activeOnly ==> rs == recipients
      ensures activeOnly ==> forall i :: 0 <= i < |rs| ==> rs[i].isActive && rs[i] in recipients
      ensures activeOnly ==> forall i :: 0 <= i < |recipients| && recipients[i].isActive ==> recipients[i] in rs
    {
      if activeOnly then Filter(recipients, (r: Recipient) => r.isActive) else recipients
    }

    /** The first recipient with the id, if any. */
    function GetRecipientById(recipientId: int): (r: Option<Recipient>)
      reads this
      ensures r.Some? ==> r.value in recipients && r.value.id == Some(recipientId)
      ensures r.None? <==> forall i :: 0 <= i < |recipients| ==> recipients[i].id != Some(recipientId)
    {
      var i := FindFirst(recipients, (r: Recipient) => r.id == Some(recipientId));
      if i.Some? then Some(recipients[i.value]) else None
    }

    /** The first recipient with the chat id, if any. */
    function GetRecipientByChatId(chatId: string): (r: Option<Recipient>)
      reads this
      ensures r.Some? ==> r.value in recipients && r.value.telegramChatId == Some(chatId)
      ensures r.None? <==> forall i :: 0 <= i < |recipients| ==> recipients[i].telegramChatId != Some(chatId)
    {
      var i := FindFirst(recipients, (r: Recipient) => r.telegramChatId == Some(chatId));
      if i.Some? then Some(recipients[i.value]) else None
    }

    /** Rewrites the first recipient with the id and returns it; an unknown
        id changes nothing. The id invariant survives updates that leave the
        id alone. */
    method UpdateRecipient(recipientId: int, updates: RecipientUpdate) returns (r: Option<Recipient>)
      requires Valid()
      modifies this
      ensures var i := FindFirst(old(recipients), (q: Recipient) => q.id == Some(recipientId));
        && (i.None? ==> r.None? && recipients == old(recipients))
        && (i.Some? ==> r == Some(ApplyUpdate(old(recipients)[i.value], updates))
                        && recipients == old(recipients)[i.value := r.value])
      ensures |recipients| == |old(recipients)|
      ensures alertHistory == old(alertHistory) && config == old(config) && lastAlertTime == old(lastAlertTime)
      ensures nextRecipientId == old(nextRecipientId) && nextAlertId == old(nextAlertId)
      ensures updates.id.None? ==> Valid()
    {
      var i := FindFirst(recipients, (q: Recipient) => q.id == Some(recipientId));
      if i.None? {
        return None;
      }
      var updated := ApplyUpdate(recipients[i.value], updates);
      recipients := recipients[i.value := updated];
      r := Some(updated);
      if updates.id.None? {
        assert forall k :: 0 <= k < |recipients| ==> RecipientKey(recipients[k]) == RecipientKey(old(recipients)[k]);
      }
    }

    /** Removes every recipient with the id, keeps the rest in order, and
        reports success whether or not the id was present. */
    method DeleteRecipient(recipientId: int) returns (ok: bool)
      requires Valid()
      modifies this
      ensures Valid()
      ensures ok
      ensures recipients == Filter(old(recipients), (r: Recipient) => r.id != Some(recipientId))
      ensures forall i :: 0 <= i < |recipients| ==> recipients[i].id != Some(recipientId)
      ensures alertHistory == old(alertHistory) && config == old(config) && lastAlertTime == old(lastAlertTime)
      ensures nextRecipientId == old(nextRecipientId) && nextAlertId == old(nextAlertId)
    {
      var keep := (r: Recipient) => r.id != Some(recipientId);
      FilterIncreasing(recipients, keep, RecipientKey);
      recipients := Filter(recipients, keep);
      ok := true;
    }

    /** Assigns the next alert id and the time, appends, and keeps the last
        1000 alerts: the new one is always last. */
    method AddAlert(alert: HistoryEntry, now: int) returns (a: HistoryEntry)
      requires Valid()
      modifies this
      ensures Valid()
      ensures a == alert.(id := Some(old(nextAlertId)), createdAt := Some(now))
      ensures alertHistory == SliceFrom(old(alertHistory) + [a], -MAX_HISTORY)
      ensures 0 < |alertHistory| <= MAX_HISTORY && alertHistory[|alertHistory| - 1] == a
      ensures nextAlertId == old(nextAlertId) + 1
      ensures recipients == old(recipients) && config == old(config) && lastAlertTime == old(lastAlertTime)
      ensures nextRecipientId == old(nextRecipientId)
    {
      a := alert.(id := Some(nextAlertId), createdAt := Some(now));
      KeepLastValid(alertHistory, a, nextAlertId);
      var h := alertHistory + [a];
      if |h| > MAX_HISTORY {
        h := h[|h| - MAX_HISTORY..];
      }
      alertHistory := h;
      nextAlertId := nextAlertId + 1;
    }

    /** The newest `limit` alerts by creation time, newest first: no alert
        left out is newer than one returned. */
    function GetAlertHistory(limit: int): (h: seq<HistoryEntry>)
      reads this
      ensures |h| <= |alertHistory| && (limit >= 0 ==> |h| <= limit)
      ensures SortedDesc(h, CreatedKey)
      ensures multiset(h) <= multiset(alertHistory)
      ensures 0 <= limit ==> |h| == Min(limit, |alertHistory|)
      ensures forall x, y :: x in h && y in multiset(alertHistory) - multiset(h) ==> CreatedKey(y) <= CreatedKey(x)
    {
      var sorted := SortDesc(alertHistory, CreatedKey);
      var h := SliceTo(sorted, limit);
      PrefixMultiset(sorted, |h|);
      SortedPrefixLargest(sorted, CreatedKey, |h|);
      h
    }

    function GetConfig(): (c: Config)
      reads this
      ensures c == config
    {
      config
    }

    /** Sets the named configuration fields and returns the new configuration. */
    method UpdateConfig(updates: ConfigUpdate) returns (c: Config)
      requires Valid()
      modifies this
      ensures Valid()
      ensures c == config == ApplyConfigUpdate(old(config), updates)
      ensures recipients == old(recipients) && alertHistory == old(alertHistory) && lastAlertTime == old(lastAlertTime)
      ensures nextRecipientId == old(nextRecipientId) && nextAlertId == old(nextAlertId)
    {
      config := ApplyConfigUpdate(config, updates);
      c := config;
    }

    function CanSendAlert(recipientId: int, now: int): (ok: bool)
      reads this
      ensures recipientId !in lastAlertTime ==> ok
      ensures ok == CanSend(lastAlertTime, config.cooldownMinutes, recipientId, now)
    {
      CanSend(lastAlertTime, config.cooldownMinutes, recipientId, now)
    }

    /** Records `now` for this recipient only. */
    method MarkAlertSent(recipientId: int, now: int)
      requires Valid()
      modifies this
      ensures Valid()
      ensures lastAlertTime == old(lastAlertTime)[recipientId := now]
      ensures recipients == old(recipients) && alertHistory == old(alertHistory) && config == old(config)
      ensures nextRecipientId == old(nextRecipientId) && nextAlertId == old(nextAlertId)
    {
      lastAlertTime := lastAlertTime[recipientId := now];
    }

    function GetStats(): (s: AlertStats)
      reads this
      ensures s == Stats(alertHistory, recipients)
    {
      Stats(alertHistory, recipients)
    }
  }
}

=== FILE: alerts_serverless.dfy ===
/**
 * The alert routes over the serverless JSON store: the status report and its
 * cooldown, the test-alert fan-out, the history filter, the default
 * configuration, and the Telegram webhook that registers a chat on `/start`.
 */
module ServerlessApi {
  import opened Common
  import AlertModel
  import ServerlessStore
  import Telegram

  // ---------------------------------------------------------------------------
  // Status
  // ---------------------------------------------------------------------------

  datatype StatusReport = StatusReport(
    telegramEnabled: bool, tdsThreshold: real, tempThreshold: real, cooldownMinutes: int,
    lastAlert: Option<int>, cooldownRemaining: int, canSendAlert: bool,
    activeRecipients: nat, totalAlertsSent: nat)

  /** The report for the given inputs. The cooldown applies only when both a
      last alert and a stored configuration exist; the remaining time is in
      seconds. Without a configuration the thresholds are 150 and 35, and the
      temperature threshold reported is the configuration's warning threshold. */
  function Status(botConfigured: bool, activeRecipients: nat, config: Option<AlertModel.Config>,
                  lastAlert: Option<int>, historyCount: nat, now: int): (s: StatusReport)
    ensures s.canSendAlert <==>
      !(lastAlert.Some? && config.Some? && now - lastAlert.value < config.value.cooldownMinutes * 60)
    ensures s.cooldownRemaining >= 0
    ensures s.cooldownRemaining > 0 <==> !s.canSendAlert
    ensures !s.canSendAlert ==> s.cooldownRemaining == config.value.cooldownMinutes * 60 - (now - lastAlert.value)
    ensures config.None? ==> s.tdsThreshold == 150.0 && s.tempThreshold == 35.0 && s.cooldownMinutes == 15
    ensures config.Some? ==> s.tempThreshold == config.value.warningThreshold
    ensures s.lastAlert == lastAlert && s.totalAlertsSent == historyCount
    ensures s.telegramEnabled == botConfigured && s.activeRecipients == activeRecipients
    ensures config.Some? ==> s.tdsThreshold == config.value.tdsThreshold && s.cooldownMinutes == config.value.cooldownMinutes
  {
    var inCooldown := lastAlert.Some? && config.Some? && now - lastAlert.value < config.value.cooldownMinutes * 60;
    StatusReport(
      botConfigured,
      if config.Some? then config.value.tdsThreshold else 150.0,
      if config.Some? then config.value.warningThreshold else 35.0,
      if config.Some? then config.value.cooldownMinutes else 15,
      lastAlert,
      if inCooldown then config.value.cooldownMinutes * 60 - (now - lastAlert.value) else 0,
      !inCooldown,
      activeRecipients, historyCount)
  }

  /** A stored time as the handler receives it: still ISO text, or already
      a parsed datetime. */
  datatype TimeValue = IsoText(t: int) | DateTime(t: int)

  /** Building an `AlertHistory` from a stored dictionary parses its
      `created_at` text into a datetime. */
  function ParsedCreatedAt(stored: Option<nat>): (v: Option<TimeValue>)
    ensures v.Some? ==> v.value.DateTime?
  {
    if stored.Some? then Some(DateTime(stored.value)) else None
  }

  /** `datetime.fromisoformat` accepts only text. */
  function FromIsoFormat(v: Option<TimeValue>): (r: Result<int>)
    ensures r.Success? <==> v.Some? && v.value.IsoText?
  {
    if v.Some? && v.value.IsoText? then Success(v.value.t) else Failure(TypeError("fromisoformat: argument must be str"))
  }

  /** As written: the first alert's already-parsed time is handed to
      `fromisoformat`, and the error is swallowed. */
  function LastAlertAsWritten(history: seq<ServerlessStore.AlertRecord>): Option<int> {
    if history == [] then None
    else
      var parsed := FromIsoFormat(ParsedCreatedAt(history[0].createdAt));
      if parsed.Success? then Some(parsed.value) else None
  }

  /** Whatever the history holds, the as-written status sees no last alert. */
  lemma LastAlertAsWrittenIsNone(history: seq<ServerlessStore.AlertRecord>)
    ensures LastAlertAsWritten(history).None?
  {
  }

  /** Corrected: the creation time of the newest alert. */
  function LastAlert(history: seq<ServerlessStore.AlertRecord>): (t: Option<int>)
    ensures history == [] ==> t.None?
    ensures history != [] ==> t == (if history[0].createdAt.Some? then Some(history[0].createdAt.value as int) else None)
  {
    if history == [] || history[0].createdAt.None? then None else Some(history[0].createdAt.value)
  }

  /** As written, the report never shows a cooldown, even seconds after an
      alert. */
  lemma StatusAsWrittenNeverCoolsDown(botConfigured: bool, active: nat, config: Option<AlertModel.Config>,
                                      history: seq<ServerlessStore.AlertRecord>, now: int)
    ensures var s := Status(botConfigured, active, config, LastAlertAsWritten(history), |history|, now);
      s.canSendAlert && s.cooldownRemaining == 0 && s.lastAlert.None?
  {
    LastAlertAsWrittenIsNone(history);
  }

  /** Corrected: an alert stored `d` seconds ago, with `d` inside the
      configured cooldown, is reported as a cooldown of the remaining seconds. */
  lemma StatusCoolsDownAfterAlert(botConfigured: bool, active: nat, config: AlertModel.Config,
                                  newest: ServerlessStore.AlertRecord, t: nat, now: int)
    requires newest.createdAt == Some(t) && t <= now < t + config.cooldownMinutes * 60
    ensures var s := Status(botConfigured, active, Some(config), LastAlert([newest]), 1, now);
      !s.canSendAlert && s.cooldownRemaining == t + config.cooldownMinutes * 60 - now
  {
  }

  /** As written: `get_alert_status`. */
  method GetAlertStatusAsWritten(storage: ServerlessStore.ServerlessStorage, telegram: Telegram.TelegramService, now: int)
    returns (s: StatusReport)
    ensures s.telegramEnabled ==> telegram.hasBot
    ensures var h := storage.GetAlertHistory(1);
      s == Status(s.telegramEnabled, |storage.GetRecipients(true)|, storage.GetConfig(), LastAlertAsWritten(h), |h|, now)
    ensures s.totalAlertsSent <= 1
  {
    var botConfigured := telegram.GetBotInfo();
    var recipients := storage.GetRecipients(true);
    var config := storage.GetConfig();
    var history := storage.GetAlertHistory(1);
    s := Status(botConfigured, |recipients|, config, LastAlertAsWritten(history), |history|, now);
  }

  /** Corrected `get_alert_status`: the history is fetched with limit 1, so at
      most one alert is ever counted. */
  method GetAlertStatus(storage: ServerlessStore.ServerlessStorage, telegram: Telegram.TelegramService, now: int)
    returns (s: StatusReport)
    ensures s.telegramEnabled ==> telegram.hasBot
    ensures var h := storage.GetAlertHistory(1);
      s == Status(s.telegramEnabled, |storage.GetRecipients(true)|, storage.GetConfig(), LastAlert(h), |h|, now)
    ensures s.totalAlertsSent <= 1
  {
    var botConfigured := telegram.GetBotInfo();
    var recipients := storage.GetRecipients(true);
    var config := storage.GetConfig();
    var history := storage.GetAlertHistory(1);
    s := Status(botConfigured, |recipients|, config, LastAlert(history), |history|, now);
  }

  // ---------------------------------------------------------------------------
  // Test alert
  // ---------------------------------------------------------------------------

  /** The recipients a test alert is sent to: a truthy chat id and the
      Telegram channel. */
  predicate IsTarget(r: ServerlessStore.RecipientRecord) {
    ServerlessStore.Truthy(r.telegramChatId) && "telegram" in r.channels
  }

  /** The recipients whose chat id is truthy. */
  predicate HasChatId(r: ServerlessStore.RecipientRecord) {
    ServerlessStore.Truthy(r.telegramChatId)
  }

  /** The chat id of each record, in order. */
  function ChatIds(rs: seq<ServerlessStore.RecipientRecord>): (ids: seq<string>)
    ensures |ids| == |rs|
    ensures forall i :: 0 <= i < |rs| ==> ids[i] == rs[i].telegramChatId.GetOr("")
  {
    seq(|rs|, i requires 0 <= i < |rs| => rs[i].telegramChatId.GetOr(""))
  }

  /** The chat ids of the targets, in the order the send loop meets them. */
  function TestTargets(rs: seq<ServerlessStore.RecipientRecord>): (ids: seq<string>)
    ensures |ids| <= |rs|
    ensures forall i :: 0 <= i < |ids| ==> ids[i] != ""
    ensures forall i :: 0 <= i < |rs| && IsTarget(rs[i]) ==> rs[i].telegramChatId.value in ids
  {
    if rs == [] then []
    else
      var last := rs[|rs| - 1];
      TestTargets(rs[..|rs| - 1]) + (if IsTarget(last) then [last.telegramChatId.value] else [])
  }

  /** The targets are exactly the recipients the comprehension keeps: the
      chat ids of `Filter(rs, IsTarget)`, in order, and nothing else. */
  lemma {:induction false} TestTargetsAreFiltered(rs: seq<ServerlessStore.RecipientRecord>)
    ensures TestTargets(rs) == ChatIds(Filter(rs, IsTarget))
  {
    if rs != [] {
      var last := rs[|rs| - 1];
      assert rs == rs[..|rs| - 1] + [last];
      TestTargetsAreFiltered(rs[..|rs| - 1]);
      FilterAppend(rs[..|rs| - 1], [last], IsTarget);
      ChatIdsAppend(Filter(rs[..|rs| - 1], IsTarget), Filter([last], IsTarget));
    }
  }

  /** `[r.telegram_chat_id for r in recipients if r.telegram_chat_id]`. */
  function NotifiedIds(rs: seq<ServerlessStore.RecipientRecord>): (ids: seq<string>)
    ensures |ids| <= |rs|
    ensures |TestTargets(rs)| <= |ids|
  {
    if rs == [] then []
    else
      var last := rs[|rs| - 1];
      NotifiedIds(rs[..|rs| - 1]) + (if HasChatId(last) then [last.telegramChatId.value] else [])
  }

  /** The history lists the truthy chat ids, in order, whether or not the
      recipient takes Telegram. */
  lemma {:induction false} NotifiedIdsAreFiltered(rs: seq<ServerlessStore.RecipientRecord>)
    ensures NotifiedIds(rs) == ChatIds(Filter(rs, HasChatId))
  {
    if rs != [] {
      var last := rs[|rs| - 1];
      assert rs == rs[..|rs| - 1] + [last];
      NotifiedIdsAreFiltered(rs[..|rs| - 1]);
      FilterAppend(rs[..|rs| - 1], [last], HasChatId);
      ChatIdsAppend(Filter(rs[..|rs| - 1], HasChatId), Filter([last], HasChatId));
    }
  }

  lemma ChatIdsAppend(a: seq<ServerlessStore.RecipientRecord>, b: seq<ServerlessStore.RecipientRecord>)
    ensures ChatIds(a + b) == ChatIds(a) + ChatIds(b)
  {
  }

  /** The message text: the request's, or the built-in text when empty. */
  const DEFAULT_TEST_TEXT := "Test Alert"

  function TestMessage(requested: string): (m: Telegram.Message)
    ensures requested != "" ==> m == Telegram.Text(requested)
  {
    Telegram.Text(if requested != "" then requested else DEFAULT_TEST_TEXT)
  }

  datatype TestOutcome =
    | Unavailable                  // 503: no bot
    | NoActiveRecipients           // 400
    | ServerError(error: Error)    // 500
    | Delivered(recipientsTotal: nat, sentSuccessfully: nat, failed: nat)

  /** The send loop: every target is attempted once, in order, and counted
      as a success whatever the send returned, because `send_alert` reports
      failure by returning false and never raises. */
  method FanOut(telegram: Telegram.TelegramService, recipients: seq<ServerlessStore.RecipientRecord>, message: Telegram.Message)
    returns (successCount: nat)
    modifies telegram
    ensures successCount == |TestTargets(recipients)|
    ensures telegram.hasBot ==> telegram.sent == old(telegram.sent) + Telegram.Deliveries(TestTargets(recipients), message)
    ensures !telegram.hasBot ==> telegram.sent == old(telegram.sent)
  {
    successCount := 0;
    var i := 0;
    while i < |recipients|
      invariant 0 <= i <= |recipients|
      invariant successCount == |TestTargets(recipients[..i])|
      invariant telegram.hasBot ==> telegram.sent == old(telegram.sent) + Telegram.Deliveries(TestTargets(recipients[..i]), message)
      invariant !telegram.hasBot ==> telegram.sent == old(telegram.sent)
    {
      assert recipients[..i + 1][..i] == recipients[..i];
      var r := recipients[i];
      if IsTarget(r) {
        var _ := telegram.SendAlert(r.telegramChatId.value, message);
        Telegram.DeliveriesAppend(TestTargets(recipients[..i]), [r.telegramChatId.value], message);
        successCount := successCount + 1;
      }
      i := i + 1;
    }
    assert recipients[..i] == recipients;
  }

  /** The keys the test alert passes when it builds its `AlertHistory`. */
  const TEST_HISTORY_KEYS: set<string> :=
    {"alert_type", "severity", "message", "recipients_notified", "channels_used", "delivery_status", "recipient_count"}

  /** The test alert's history record omits the required `tds_value`. */
  lemma TestHistoryLacksTdsValue()
    ensures FirstMissing(TEST_HISTORY_KEYS, AlertModel.HISTORY_REQUIRED) == Some("tds_value")
  {
    assert AlertModel.HISTORY_REQUIRED[0] in TEST_HISTORY_KEYS;
    assert AlertModel.HISTORY_REQUIRED[1] !in TEST_HISTORY_KEYS;
    assert FirstMissing(TEST_HISTORY_KEYS, AlertModel.HISTORY_REQUIRED[1..]) == Some("tds_value");
  }

  /** As written: after the sends, building the history record fails
      validation, so the route answers 500 although the messages went out,
      and nothing is logged. */
  method SendTestAlertAsWritten(storage: ServerlessStore.ServerlessStorage, telegram: Telegram.TelegramService,
                                requested: string) returns (o: TestOutcome)
    modifies telegram
    ensures o.Unavailable? || o.NoActiveRecipients? || o == ServerError(ValidationError("tds_value"))
    ensures o.Unavailable? || o.NoActiveRecipients? ==> telegram.sent == old(telegram.sent)
    ensures o.NoActiveRecipients? <==> !o.Unavailable? && storage.GetRecipients(true) == []
    ensures o.ServerError? ==>
      (telegram.hasBot
       && telegram.sent == old(telegram.sent) + Telegram.Deliveries(TestTargets(storage.GetRecipients(true)), TestMessage(requested)))
  {
    var available := telegram.GetBotInfo();
    if !available {
      return Unavailable;
    }
    var recipients := storage.GetRecipients(true);
    if recipients == [] {
      return NoActiveRecipients;
    }
    var successCount := FanOut(telegram, recipients, TestMessage(requested));
    TestHistoryLacksTdsValue();
    var missing := FirstMissing(TEST_HISTORY_KEYS, AlertModel.HISTORY_REQUIRED);
    return ServerError(ValidationError(missing.value));
  }

  /** The record the corrected test alert logs. A test has no reading, so
      the required `tds_value` and `threshold` are given as 0; with both set
      the record validates as an `AlertHistory` when the history is read. */
  function TestRecord(recipients: seq<ServerlessStore.RecipientRecord>, requested: string, successCount: nat)
    : (h: ServerlessStore.AlertRecord)
    ensures h.alertType == "test" && h.recipientCount == Some(|recipients|)
    ensures h.tdsValue == Some(0.0) && h.threshold == Some(0.0)
    ensures h.recipientsNotified == NotifiedIds(recipients)
    ensures h.deliveryStatus == map["success" := successCount, "failed" := 0]
  {
    ServerlessStore.AlertRecord(None, "test", Some("info"), if requested != "" then requested else "Test alert",
                                Some(0.0), None, None, Some(0.0), NotifiedIds(recipients), ["telegram"],
                                map["success" := successCount, "failed" := 0], Some(|recipients|), None)
  }

  /** Corrected `send_test_alert`: no bot gives 503 and no active recipient
      400, in that order and before any send; otherwise every target is sent
      to once, the attempt is logged, and the counts satisfy
      `sent + failed <= total`. */
  method SendTestAlert(storage: ServerlessStore.ServerlessStorage, telegram: Telegram.TelegramService,
                       requested: string, now: nat) returns (o: TestOutcome)
    modifies storage, telegram
    ensures o.Unavailable? || o.NoActiveRecipients? || o.Delivered?
    ensures !o.Delivered? ==> telegram.sent == old(telegram.sent) && storage.history == old(storage.history)
    ensures o.NoActiveRecipients? <==> !o.Unavailable? && old(storage.GetRecipients(true)) == []
    ensures storage.recipients == old(storage.recipients) && storage.configs == old(storage.configs)
    ensures o.Delivered? ==>
      var active := old(storage.GetRecipients(true));
      && telegram.hasBot && active != []
      && o == Delivered(|active|, |TestTargets(active)|, 0)
      && o.sentSuccessfully + o.failed <= o.recipientsTotal
      && telegram.sent == old(telegram.sent) + Telegram.Deliveries(TestTargets(active), TestMessage(requested))
      && |storage.history| > 0 && storage.history[|storage.history| - 1].alertType == "test"
    ensures o.Delivered? ==>
      var active := old(storage.GetRecipients(true));
      var logged := TestRecord(active, requested, |TestTargets(active)|)
                      .(id := Some(ServerlessStore.NextAlertId(old(storage.history))), createdAt := Some(now));
      storage.history == SliceFrom(old(storage.history) + [logged], -ServerlessStore.MAX_HISTORY)
  {
    var available := telegram.GetBotInfo();
    if !available {
      return Unavailable;
    }
    var recipients := storage.GetRecipients(true);
    if recipients == [] {
      return NoActiveRecipients;
    }
    var successCount := FanOut(telegram, recipients, TestMessage(requested));
    var logged := storage.AddAlertHistory(TestRecord(recipients, requested, successCount), now);
    o := Delivered(|recipients|, successCount, 0);
  }

  // ---------------------------------------------------------------------------
  // History and configuration
  // ---------------------------------------------------------------------------

  /** `get_alert_history`: the newest `limit` alerts, then, for a non-empty
      type, only those of that type — so fewer than `limit` may come back. */
  function HistoryRoute(storage: ServerlessStore.ServerlessStorage, limit: int, alertType: string)
    : (h: seq<ServerlessStore.AlertRecord>)
    reads storage
    ensures limit >= 0 ==> |h| <= limit
    ensures alertType == "" ==> h == storage.GetAlertHistory(limit)
    ensures alertType != "" ==> forall i :: 0 <= i < |h| ==> h[i].alertType == alertType
    ensures forall i :: 0 <= i < |h| ==> h[i] in storage.GetAlertHistory(limit)
    ensures forall x :: x in storage.GetAlertHistory(limit) && x.alertType == alertType ==> x in h
  {
    var recent := storage.GetAlertHistory(limit);
    if alertType != "" then Filter(recent, (a: ServerlessStore.AlertRecord) => a.alertType == alertType) else recent
  }

  /** The configuration `get_config` creates when none is stored. */
  const ROUTE_DEFAULT_CONFIG: AlertModel.Config :=
    AlertModel.Config(150.0, 120.0, 15, true, false, false, None, "alerts@evaratds.com", 5)

  /** As written: with no stored configuration the route tries to store the
      default, which raises, so the first read of the configuration fails. */
  method GetConfigRouteAsWritten(storage: ServerlessStore.ServerlessStorage) returns (r: Result<AlertModel.Config>)
    ensures storage.GetConfig().Some? ==> r == Success(storage.GetConfig().value)
    ensures storage.GetConfig().None? ==> r == Failure(AttributeError("enabled"))
  {
    var config := storage.GetConfig();
    if config.None? {
      r := storage.UpdateConfigAsWritten(ROUTE_DEFAULT_CONFIG);
      return;
    }
    r := Success(config.value);
  }

  /** Corrected `get_config`: a stored configuration is returned unchanged;
      otherwise the default is stored and returned, and later reads see it. */
  method GetConfigRoute(storage: ServerlessStore.ServerlessStorage) returns (c: AlertModel.Config)
    modifies storage
    ensures old(storage.GetConfig()).Some? ==> c == old(storage.GetConfig()).value && storage.configs == old(storage.configs)
    ensures old(storage.GetConfig()).None? ==> c == ROUTE_DEFAULT_CONFIG
    ensures storage.GetConfig() == Some(c)
    ensures storage.recipients == old(storage.recipients) && storage.history == old(storage.history)
  {
    var config := storage.GetConfig();
    if config.Some? {
      return config.value;
    }
    var stored := storage.UpdateConfig(ROUTE_DEFAULT_CONFIG);
    c := ROUTE_DEFAULT_CONFIG;
  }

  // ---------------------------------------------------------------------------
  // Telegram webhook
  // ---------------------------------------------------------------------------

  /** The parts of an update the webhook reads; `None` is a missing key. */
  datatype WebhookUpdate = WebhookUpdate(text: Option<string>, chatId: Option<int>,
                                         firstName: Option<string>, username: Option<string>)

  /** `f"{first} (@{username})"` when the username is non-empty, else `first`. */
  function RecipientName(first: string, username: string): (name: string)
    ensures username == "" ==> name == first
    ensures username != "" ==> name == first + " (@" + username + ")"
    ensures StartsWith(name, first)
  {
    if username != "" then first + " (@" + username + ")" else first
  }

  /** The reply texts; their wording is not modelled. */
  const WELCOME_TEXT := "Welcome"
  const ALREADY_REGISTERED_TEXT := "Already registered"

  /** The update is the `/start` command from a chat with a non-zero id. */
  predicate IsStart(u: WebhookUpdate) {
    u.text.GetOr("") == "/start" && u.chatId.Some? && u.chatId.value != 0
  }

  /** Some stored record, active or not, has the chat id. */
  predicate Registered(rs: seq<ServerlessStore.RecipientRecord>, chatId: string) {
    exists i :: 0 <= i < |rs| && rs[i].telegramChatId == Some(chatId)
  }

  /** Only `/start` from a chat does anything. An unregistered chat gains
      exactly one active viewer record; a registered one gains nothing. Either
      way one reply is sent to the chat. */
  method TelegramWebhook(storage: ServerlessStore.ServerlessStorage, telegram: Telegram.TelegramService,
                         update: WebhookUpdate, now: nat) returns (ok: bool)
    modifies storage, telegram
    ensures ok
    ensures storage.history == old(storage.history) && storage.configs == old(storage.configs)
    ensures !IsStart(update) ==> storage.recipients == old(storage.recipients) && telegram.sent == old(telegram.sent)
    ensures IsStart(update) && Registered(old(storage.recipients), DecimalString(update.chatId.value)) ==>
      storage.recipients == old(storage.recipients)
      && (telegram.hasBot ==>
            telegram.sent == old(telegram.sent) + [Telegram.Delivery(DecimalString(update.chatId.value), Telegram.Text(ALREADY_REGISTERED_TEXT))])
    ensures IsStart(update) && !Registered(old(storage.recipients), DecimalString(update.chatId.value)) ==>
      var chat := DecimalString(update.chatId.value);
      && storage.recipients == old(storage.recipients) + [ServerlessStore.RecipientRecord(
           Some(ServerlessStore.NextRecipientId(old(storage.recipients))),
           RecipientName(update.firstName.GetOr("User"), update.username.GetOr("")),
           Some(chat), None, None, "viewer", Some(true), ["telegram"], Some(now), Some("telegram_webhook"))]
      && (telegram.hasBot ==> telegram.sent == old(telegram.sent) + [Telegram.Delivery(chat, Telegram.Text(WELCOME_TEXT))])
  {
    if !IsStart(update) {
      return true;
    }
    var chat := DecimalString(update.chatId.value);
    var all := storage.GetRecipients(false);
    var existing := FindFirst(all, (r: ServerlessStore.RecipientRecord) => r.telegramChatId == Some(chat));
    var reply: string;
    if existing.None? {
      var name := RecipientName(update.firstName.GetOr("User"), update.username.GetOr(""));
      var recipient := AlertModel.Recipient(None, name, Some(chat), None, None, "viewer", true, ["telegram"],
                                            None, Some("telegram_webhook"));
      var added := storage.AddRecipient(recipient, now);
      reply := WELCOME_TEXT;
    } else {
      reply := ALREADY_REGISTERED_TEXT;
    }
    var _ := telegram.SendAlert(chat, Telegram.Text(reply));
    ok := true;
  }

  /** The step `WebhookTwice` uses when the first `/start` registered a new
      chat: the appended record makes the chat registered. The property of
      the webhook itself is `WebhookTwice`. */
  lemma WebhookRegistersOnce(rs: seq<ServerlessStore.RecipientRecord>, added: ServerlessStore.RecipientRecord, chat: string)
    requires added.telegramChatId == Some(chat)
    ensures Registered(rs + [added], chat)
  {
    assert (rs + [added])[|rs|] == added;
  }

  /** The same `/start` delivered twice adds at most one recipient: the
      second call finds the chat the first registered, changes no record
      and only replies. */
  method WebhookTwice(storage: ServerlessStore.ServerlessStorage, telegram: Telegram.TelegramService,
                      update: WebhookUpdate, now: nat)
    modifies storage, telegram
    ensures |storage.recipients| <= |old(storage.recipients)| + 1
    ensures |old(storage.recipients)| <= |storage.recipients|
    ensures storage.recipients[..|old(storage.recipients)|] == old(storage.recipients)
    ensures IsStart(update) ==> Registered(storage.recipients, DecimalString(update.chatId.value))
  {
    var _ := TelegramWebhook(storage, telegram, update, now);
    ghost var between := storage.recipients;
    if IsStart(update) {
      var chat := DecimalString(update.chatId.value);
      if !Registered(old(storage.recipients), chat) {
        WebhookRegistersOnce(old(storage.recipients), storage.recipients[|storage.recipients| - 1], chat);
        assert storage.recipients == old(storage.recipients) + [storage.recipients[|storage.recipients| - 1]];
      }
    }
    var _ := TelegramWebhook(storage, telegram, update, now);
    assert IsStart(update) ==> storage.recipients == between;
  }
}

=== FILE: alerts_simple.dfy ===
/**
 * The simple alert routes over two JSON lists: recipients (dictionaries with
 * optional keys) and a history of at most 100 entries. Phone numbers are
 * normalised to an international `+` form before the duplicate check; the
 * test alert goes to one fixed group chat and is always logged.
 */
module SimpleApi {
  import opened Common
  import AlertModel
  import ServerlessStore
  import Telegram

  type RecipientRecord = ServerlessStore.RecipientRecord

  const MAX_SIMPLE_HISTORY := 100

  // ---------------------------------------------------------------------------
  // Phone numbers
  // ---------------------------------------------------------------------------

  /** The phone after `strip`: kept when it starts with `+`, given a `+` when
      it starts with the country code `91`, given `+91` otherwise. */
  function NormalizePhone(phone: string): (r: string)
    ensures StartsWith(r, "+")
    ensures EndsWith(r, Strip(phone))
    ensures StartsWith(Strip(phone), "+") ==> r == Strip(phone)
    ensures !StartsWith(Strip(phone), "+") && StartsWith(Strip(phone), "91") ==> r == "+" + Strip(phone)
    ensures !StartsWith(Strip(phone), "+") && !StartsWith(Strip(phone), "91") ==> r == "+91" + Strip(phone)
  {
    var p := Strip(phone);
    if StartsWith(p, "+") then p
    else if StartsWith(p, "91") then "+" + p
    else "+91" + p
  }

  /** A phone already in `+` form with no surrounding space is left alone. */
  lemma NormalizeKeepsPlusForm(r: string)
    requires StartsWith(r, "+") && !IsSpace(r[|r| - 1])
    ensures NormalizePhone(r) == r
  {
    assert r[0] == '+' by { assert r[..1] == "+"; }
    StripNoop(r);
  }

  /** A normalised phone does not end in whitespace. */
  lemma NormalizedEndsWithoutSpace(phone: string)
    ensures var r := NormalizePhone(phone); !IsSpace(r[|r| - 1])
  {
    var r := NormalizePhone(phone);
    var p := Strip(phone);
    if p == [] {
      assert r == "+91";
      assert !IsSpace('1');
    } else {
      assert r == p || r == "+" + p || r == "+91" + p;
      assert r[|r| - 1] == p[|p| - 1];
    }
  }

  /** A normalised phone is its own normalisation. */
  lemma NormalizePhoneIdempotent(phone: string)
    ensures NormalizePhone(NormalizePhone(phone)) == NormalizePhone(phone)
  {
    NormalizedEndsWithoutSpace(phone);
    NormalizeKeepsPlusForm(NormalizePhone(phone));
  }

  /** The phone that is stored: normalised when truthy, as given otherwise. */
  function StoredPhone(phone: Option<string>): (p: Option<string>)
    ensures ServerlessStore.Truthy(phone) ==> p.Some? && StartsWith(p.value, "+")
    ensures !ServerlessStore.Truthy(phone) ==> p == phone
  {
    if ServerlessStore.Truthy(phone) then Some(NormalizePhone(phone.value)) else phone
  }

  /** Some stored record already has the phone. */
  predicate PhoneTaken(rs: seq<RecipientRecord>, phone: string) {
    exists i :: 0 <= i < |rs| && rs[i].phone == Some(phone)
  }

  // ---------------------------------------------------------------------------
  // History
  // ---------------------------------------------------------------------------

  /** One history dictionary, as the test alert writes it. */
  datatype SimpleAlert = SimpleAlert(id: int, alertType: string, severity: string, message: string,
                                     createdAt: int, success: bool, error: Option<string>)

  /** The test alert's history entry: numbered one past the current length. */
  function TestEntry(history: seq<SimpleAlert>, requested: string, now: int, success: bool): (e: SimpleAlert)
    ensures e.id == |history| + 1 && e.alertType == "test" && e.success == success
    ensures success ==> e.error.None?
  {
    SimpleAlert(|history| + 1, "test", "info", if requested != "" then requested else "Test alert", now, success, None)
  }

  /** The saved history after the test entry is appended: the entry is
      last, numbered one past the old length, and the older entries kept are
      the newest ones of the old history. */
  function LogTest(history: seq<SimpleAlert>, requested: string, now: int): (h: seq<SimpleAlert>)
    ensures |h| == Min(|history| + 1, MAX_SIMPLE_HISTORY)
    ensures h[|h| - 1] == TestEntry(history, requested, now, true) && h[|h| - 1].id == |history| + 1
    ensures h[..|h| - 1] == history[|history| - (|h| - 1)..]
  {
    var entry := TestEntry(history, requested, now, true);
    AppendKeepLast(history, entry, MAX_SIMPLE_HISTORY);
    var h := SliceFrom(history + [entry], -MAX_SIMPLE_HISTORY);
    assert h == (history + [entry])[|history| + 1 - |h|..];
    assert h[..|h| - 1] == history[|history| - (|h| - 1)..];
    h
  }

  /** Once the history is full, its length stays 100, so every later test
      entry is numbered 101: the ids repeat. */
  lemma TestIdsRepeatWhenFull(history: seq<SimpleAlert>, m1: string, m2: string, t1: int, t2: int)
    requires |history| == MAX_SIMPLE_HISTORY
    ensures var h1 := LogTest(history, m1, t1);
      var h2 := LogTest(h1, m2, t2);
      && |h1| == MAX_SIMPLE_HISTORY && |h2| == MAX_SIMPLE_HISTORY
      && h1[|h1| - 1].id == 101 && h2[|h2| - 1].id == 101
  {
    var h1 := LogTest(history, m1, t1);
    AppendKeepLast(history, TestEntry(history, m1, t1, true), MAX_SIMPLE_HISTORY);
    AppendKeepLast(h1, TestEntry(h1, m2, t2, true), MAX_SIMPLE_HISTORY);
  }

  /** `history[-limit:]`: the last `limit` entries; with `limit == 0` the
      slice `[-0:]` is the whole list, and a negative limit drops that many
      entries from the front. */
  function HistoryTail(history: seq<SimpleAlert>, limit: int): (h: seq<SimpleAlert>)
    ensures |h| <= |history| && h == history[|history| - |h|..]
    ensures limit == 0 ==> h == history
    ensures limit > 0 ==> |h| == Min(limit, |history|)
    ensures limit < 0 ==> |h| == Max(|history| + limit, 0)
  {
    SliceFrom(history, -limit)
  }

  /** Only the last 100 entries are written. */
  function SavedHistory(history: seq<SimpleAlert>): (h: seq<SimpleAlert>)
    ensures |h| == Min(|history|, MAX_SIMPLE_HISTORY)
    ensures h == history[|history| - |h|..]
    ensures |history| <= MAX_SIMPLE_HISTORY ==> h == history
  {
    SliceFrom(history, -MAX_SIMPLE_HISTORY)
  }

  datatype TestOutcome =
    | Unavailable                              // 503: no bot
    | SentToGroup(registeredRecipients: nat)   // 200

  // ---------------------------------------------------------------------------
  // The store
  // ---------------------------------------------------------------------------

  class SimpleStore {
    var recipients: seq<RecipientRecord>
    var history: seq<SimpleAlert>

    /** Missing files read as empty lists. */
    constructor ()
      ensures recipients == [] && history == []
    {
      recipients := [];
      history := [];
    }

    /** `save_history`: writes the last 100 entries. */
    method SaveHistory(entries: seq<SimpleAlert>)
      modifies this
      ensures history == SavedHistory(entries)
      ensures recipients == old(recipients)
    {
      history := SliceFrom(entries, -MAX_SIMPLE_HISTORY);
    }

    /** `get_recipients`: every record, or those whose `is_active` is true or
        missing, in stored order. */
    function GetRecipients(activeOnly: bool): (rs: seq<RecipientRecord>)
      reads this
      ensures !activeOnly ==> rs == recipients
      ensures activeOnly ==> forall i :: 0 <= i < |rs| ==> ServerlessStore.IsActive(rs[i]) && rs[i] in recipients
      ensures activeOnly ==> forall i :: 0 <= i < |recipients| && ServerlessStore.IsActive(recipients[i]) ==> recipients[i] in rs
    {
      if activeOnly then Filter(recipients, ServerlessStore.IsActive) else recipients
    }

    /** `create_recipient`. A truthy phone is normalised; if that phone is
        already stored the request is refused and nothing is saved. Otherwise
        the record is appended active, numbered one above the largest id, with
        the Telegram channel when none was given, created by `admin`. */
    method CreateRecipient(recipient: AlertModel.Recipient, now: nat) returns (r: Result<RecipientRecord>)
      modifies this
      ensures var phone := StoredPhone(recipient.phone);
        ServerlessStore.Truthy(recipient.phone) && PhoneTaken(old(recipients), phone.value) ==>
          r == Failure(Rejected("Phone number already registered")) && recipients == old(recipients)
      ensures r.Success? ==>
        && r.value == ServerlessStore.RecipientRecord(
             Some(ServerlessStore.NextRecipientId(old(recipients))), recipient.name, recipient.telegramChatId,
             recipient.email, StoredPhone(recipient.phone), recipient.role, Some(true),
             if recipient.channels != [] then recipient.channels else ["telegram"], Some(now), Some("admin"))
        && recipients == old(recipients) + [r.value]
      ensures r.Failure? <==> ServerlessStore.Truthy(recipient.phone) && PhoneTaken(old(recipients), StoredPhone(recipient.phone).value)
      ensures r.Success? ==> forall i :: 0 <= i < |old(recipients)| ==> ServerlessStore.IdKey(old(recipients)[i]) < r.value.id.value
      ensures history == old(history)
    {
      var phone := StoredPhone(recipient.phone);
      if ServerlessStore.Truthy(recipient.phone) {
        assert phone.Some?;
        var existing := Filter(recipients, (q: RecipientRecord) => q.phone == phone);
        if existing != [] {
          assert existing[0] in recipients;
          assert PhoneTaken(recipients, phone.value);
          return Failure(Rejected("Phone number already registered"));
        }
        assert forall i :: 0 <= i < |recipients| ==> recipients[i].phone != phone;
        assert !PhoneTaken(recipients, phone.value);
      }
      var record := ServerlessStore.RecipientRecord(
        Some(ServerlessStore.NextRecipientId(recipients)), recipient.name, recipient.telegramChatId, recipient.email,
        phone, recipient.role, Some(true), if recipient.channels != [] then recipient.channels else ["telegram"],
        Some(now), Some("admin"));
      recipients := recipients + [record];
      r := Success(record);
    }

    /** `delete_recipient`: drops every record with the id, keeps the rest in
        order, and reports success whether or not the id was present. */
    method DeleteRecipient(recipientId: int)
      modifies this
      ensures recipients == Filter(old(recipients), (q: RecipientRecord) => q.id != Some(recipientId))
      ensures forall i :: 0 <= i < |recipients| ==> recipients[i].id != Some(recipientId)
      ensures history == old(history)
    {
      recipients := Filter(recipients, (q: RecipientRecord) => q.id != Some(recipientId));
    }

    /** `toggle_recipient`: flips `is_active` of the first record with the id,
        a missing flag counting as true; an unknown id saves nothing. */
    method ToggleRecipient(recipientId: int) returns (r: Option<RecipientRecord>)
      modifies this
      ensures var i := FindFirst(old(recipients), (q: RecipientRecord) => q.id == Some(recipientId));
        && (i.None? ==> r.None? && recipients == old(recipients))
        && (i.Some? ==> r == Some(old(recipients)[i.value].(isActive := Some(!ServerlessStore.IsActive(old(recipients)[i.value]))))
                        && recipients == old(recipients)[i.value := r.value])
      ensures r.Some? ==> r.value.id == Some(recipientId)
      ensures history == old(history)
    {
      var i := 0;
      while i < |recipients|
        invariant 0 <= i <= |recipients|
        invariant recipients == old(recipients)
        invariant forall k :: 0 <= k < i ==> recipients[k].id != Some(recipientId)
      {
        if recipients[i].id == Some(recipientId) {
          var toggled := recipients[i].(isActive := Some(!ServerlessStore.IsActive(recipients[i])));
          recipients := recipients[i := toggled];
          return Some(toggled);
        }
        i := i + 1;
      }
      return None;
    }

    /** `get_alert_history`. */
    function GetAlertHistory(limit: int): (h: seq<SimpleAlert>)
      reads this
      ensures h == HistoryTail(history, limit)
      ensures limit >= 0 && |history| <= limit ==> h == history
    {
      HistoryTail(history, limit)
    }

    /** `send_test_alert`: without a bot the route answers 503 and nothing
        changes. Otherwise one message goes to the group chat and an entry is
        logged; `send_alert` reports failure by returning false rather than
        raising, so the entry always records success and the error branch is
        never taken. */
    method SendTestAlert(telegram: Telegram.TelegramService, groupChatId: string, requested: string, now: int)
      returns (o: TestOutcome)
      modifies this, telegram
      ensures o.Unavailable? ==> history == old(history) && telegram.sent == old(telegram.sent)
      ensures !telegram.hasBot ==> o.Unavailable?
      ensures o.SentToGroup? ==>
        && o.registeredRecipients == |recipients|
        && history == LogTest(old(history), requested, now)
        && telegram.sent == old(telegram.sent) + [Telegram.Delivery(groupChatId, Telegram.Text(
             if requested != "" then requested else "Test Alert"))]
      ensures recipients == old(recipients)
    {
      var available := telegram.GetBotInfo();
      if !available {
        return Unavailable;
      }
      var message := Telegram.Text(if requested != "" then requested else "Test Alert");
      var _ := telegram.SendAlert(groupChatId, message);
      var entries := history + [TestEntry(history, requested, now, true)];
      SaveHistory(entries);
      o := SentToGroup(|recipients|);
    }
  }
}

=== FILE: auth.dfy ===
/**
 * Authentication: the bearer header check, the token it yields, the user
 * dictionary built from the verified token's claims, and the admin rule
 * (the `admin` role in the public metadata, or an address at the company
 * domain). Token verification itself is an input.
 */
module Auth {
  import opened Common

  const BEARER := "Bearer "
  const ADMIN_DOMAIN := "@evaratds.com"
  const HEADER_ERROR := "Missing or invalid authorization header"

  /** A claim of the token: absent, JSON `null`, or a value. */
  datatype Claim<T> = Absent | Null | Present(v: T)

  /** `payload.get(key, default)`: the default only when the key is absent;
      a `null` claim reads as `None`. */
  function Get<T>(c: Claim<T>, default: Option<T>): (r: Option<T>)
    ensures c.Absent? ==> r == default
    ensures c.Null? ==> r.None?
    ensures c.Present? ==> r == Some(c.v)
  {
    match c
    case Absent => default
    case Null => None
    case Present(v) => Some(v)
  }

  /** The claims the code reads. */
  datatype Payload = Payload(sub: Claim<string>, email: Claim<string>, emailVerified: Claim<bool>,
                             username: Claim<string>, publicMetadata: Claim<map<string, string>>)

  /** The user dictionary: every key is always present, and a value is
      `None` when its claim was absent (without a default) or null. */
  datatype CurrentUser = CurrentUser(userId: Option<string>, email: Option<string>, emailVerified: Option<bool>,
                                     username: Option<string>, metadata: Option<map<string, string>>)

  function UserFromPayload(p: Payload): (u: CurrentUser)
    ensures u.userId == Get(p.sub, None) && u.email == Get(p.email, None)
    ensures p.publicMetadata.Absent? ==> u.metadata == Some(map[])
    ensures p.emailVerified.Absent? ==> u.emailVerified == Some(false)
    ensures u.username == Get(p.username, None)
    ensures u.emailVerified == Get(p.emailVerified, Some(false))
    ensures u.metadata == Get(p.publicMetadata, Some(map[]))
  {
    CurrentUser(Get(p.sub, None), Get(p.email, None), Get(p.emailVerified, Some(false)),
                Get(p.username, None), Get(p.publicMetadata, Some(map[])))
  }

  // ---------------------------------------------------------------------------
  // The header
  // ---------------------------------------------------------------------------

  lemma BearerPrefix(header: string)
    requires StartsWith(header, BEARER)
    ensures ' ' in header && IndexOf(header, ' ') == 6
  {
    assert header[6] == BEARER[6];
    assert forall k :: 0 <= k < 6 ==> header[k] == BEARER[k];
  }

  /** The second field of the header split on single spaces: the text after
      `Bearer ` up to the next space. */
  function HeaderToken(header: Option<string>): (r: Result<string>)
    ensures r.Failure? <==> header.None? || !StartsWith(header.value, BEARER)
    ensures r.Failure? ==> r.error == Rejected(HEADER_ERROR)
    ensures r.Success? ==> ' ' !in r.value
    ensures r.Success? ==>
      var rest := header.value[|BEARER|..];
      r.value == if ' ' in rest then rest[..IndexOf(rest, ' ')] else rest
  {
    if header.None? || !StartsWith(header.value, BEARER) then Failure(Rejected(HEADER_ERROR))
    else
      BearerPrefix(header.value);
      SplitTwo(header.value, ' ');
      SplitStep(header.value, ' ');
      Success(Split(header.value, ' ')[1])
  }

  /** A token without spaces comes back unchanged from its header. */
  lemma BearerRoundTrip(token: string)
    requires ' ' !in token
    ensures HeaderToken(Some(BEARER + token)) == Success(token)
  {
    assert StartsWith(BEARER + token, BEARER) by { assert (BEARER + token)[..|BEARER|] == BEARER; }
    assert (BEARER + token)[|BEARER|..] == token;
  }

  /** Whatever follows a second space is dropped. */
  lemma TokenStopsAtSpace(token: string, more: string)
    requires ' ' !in token
    ensures HeaderToken(Some(BEARER + token + " " + more)) == Success(token)
  {
    var h := BEARER + token + " " + more;
    assert StartsWith(h, BEARER) by { assert h[..|BEARER|] == BEARER; }
    var rest := h[|BEARER|..];
    assert rest == token + " " + more;
    assert rest[|token|] == ' ';
    assert rest[..|token|] == token;
    IndexOfFirst(rest, ' ', |token|);
  }

  /** `get_current_user`: a bad header is refused before the token is
      verified; otherwise the verified claims become the user dictionary. */
  function GetCurrentUser(header: Option<string>, verify: string -> Result<Payload>): (r: Result<CurrentUser>)
    ensures HeaderToken(header).Failure? ==> r == Failure(Rejected(HEADER_ERROR))
    ensures HeaderToken(header).Success? ==>
      var verified := verify(HeaderToken(header).value);
      && (verified.Failure? ==> r == Failure(verified.error))
      && (verified.Success? ==> r == Success(UserFromPayload(verified.value)))
  {
    var token := HeaderToken(header);
    if token.Failure? then Failure(token.error)
    else
      var payload := verify(token.value);
      if payload.Failure? then Failure(payload.error) else Success(UserFromPayload(payload.value))
  }

  // ---------------------------------------------------------------------------
  // The admin rule
  // ---------------------------------------------------------------------------

  /** `metadata.get("role", "")`. */
  function Role(metadata: map<string, string>): string {
    if "role" in metadata then metadata["role"] else ""
  }

  /** As written: the role is checked first; otherwise `endswith` is called
      on the e-mail, which raises when the token carried no address, and
      `get` on a null metadata raises too. */
  function RequireAdminAsWritten(user: CurrentUser): (r: Result<bool>)
    ensures user.metadata.None? ==> r == Failure(AttributeError("get"))
    ensures user.metadata.Some? && Role(user.metadata.value) == "admin" ==> r == Success(true)
    ensures user.metadata.Some? && Role(user.metadata.value) != "admin" && user.email.None? ==>
      r == Failure(AttributeError("endswith"))
    ensures r.Success? ==> (r.value <==> Role(user.metadata.value) == "admin" || EndsWith(user.email.value, ADMIN_DOMAIN))
  {
    if user.metadata.None? then Failure(AttributeError("get"))
    else if Role(user.metadata.value) == "admin" then Success(true)
    else if user.email.None? then Failure(AttributeError("endswith"))
    else Success(EndsWith(user.email.value, ADMIN_DOMAIN))
  }

  /** Corrected: a missing e-mail or metadata counts as empty. */
  function RequireAdmin(user: CurrentUser): (admin: bool)
    ensures admin <==> (user.metadata.Some? && Role(user.metadata.value) == "admin")
                       || (user.email.Some? && EndsWith(user.email.value, ADMIN_DOMAIN))
  {
    Role(user.metadata.GetOr(map[])) == "admin" || EndsWith(user.email.GetOr(""), ADMIN_DOMAIN)
  }

  /** Wherever the code as written answers, the corrected rule answers the
      same. */
  lemma RequireAdminAgrees(user: CurrentUser)
    ensures RequireAdminAsWritten(user).Success? ==> RequireAdminAsWritten(user).value == RequireAdmin(user)
  {
  }

  /** A verified token with neither an `email` claim nor an admin role makes
      the code as written raise, where the intended answer is "not admin". */
  lemma NoEmailClaimRaises(sub: Claim<string>, verified: Claim<bool>, username: Claim<string>)
    ensures var u := UserFromPayload(Payload(sub, Claim.Absent, verified, username, Claim.Absent));
      RequireAdminAsWritten(u) == Failure(AttributeError("endswith")) && !RequireAdmin(u)
  {
  }

  /** The company domain grants admin whatever the role. */
  lemma DomainGrantsAdmin(user: CurrentUser, local: string)
    requires user.email == Some(local + ADMIN_DOMAIN)
    ensures RequireAdmin(user)
  {
    assert (local + ADMIN_DOMAIN)[|local|..] == ADMIN_DOMAIN;
  }
}

=== FILE: common.dfy ===
/**
 * Shared vocabulary for the model of the water-quality notifier: the optional
 * value every Python `None` becomes, Python's slice and `max(..., default=)`
 * semantics, list comprehensions with a condition, the stable descending sort
 * that `sorted(..., reverse=True)` performs, and the few `str` methods the
 * code relies on (`startswith`, `endswith`, `split`, `strip`, `isdigit`).
 */
module Common {

  datatype Option<T> = None | Some(value: T) {
    /** `value` when present, else `default` (Python's `d.get(k, default)`). */
    function GetOr(default: T): T {
      if Some? then value else default
    }
  }

  /** The exceptions the modelled code raises or reports. */
  datatype Error =
    | AttributeError(attribute: string)   // reading a field a record does not declare
    | ValidationError(field: string)      // constructing a record without a required field
    | TypeError(detail: string)           // a library call given a value of the wrong type
    | ValueError(detail: string)          // a library call given text it cannot parse
    | Rejected(detail: string)            // a check of the code itself refused the input

  /** The outcome of a call that can raise. */
  datatype Result<T> = Success(value: T) | Failure(error: Error)

  function Min(a: int, b: int): int { if a <= b then a else b }
  function Max(a: int, b: int): int { if a <= b then b else a }

  // ---------------------------------------------------------------------------
  // Python slices
  // ---------------------------------------------------------------------------

  /** Python's `s[start:]` for any integer `start`: a negative start counts from
      the end, and both ends are clamped to the sequence. */
  function SliceFrom<T>(s: seq<T>, start: int): (r: seq<T>)
    ensures |r| <= |s|
    ensures r == s[|s| - |r|..]
    ensures 0 <= start ==> |r| == Max(|s| - start, 0)
    ensures start < 0 ==> |r| == Min(-start, |s|)
  {
    if start >= |s| then []
    else if start >= 0 then s[start..]
    else if -start >= |s| then s
    else s[|s| + start..]
  }

  /** Python's `s[:stop]` for any integer `stop`. */
  function SliceTo<T>(s: seq<T>, stop: int): (r: seq<T>)
    ensures |r| <= |s|
    ensures r == s[..|r|]
    ensures 0 <= stop ==> |r| == Min(stop, |s|)
    ensures stop < 0 ==> |r| == Max(|s| + stop, 0)
  {
    if stop >= |s| then s
    else if stop >= 0 then s[..stop]
    else if -stop >= |s| then []
    else s[..|s| + stop]
  }

  /** `(s + [x])[-n:]` with `n > 0`, the append-then-truncate idiom of every
      bounded log in the code, keeps the new element as its last one, holds at
      most `n` elements, and loses nothing while the log is not full. */
  lemma AppendKeepLast<T>(s: seq<T>, x: T, n: int)
    requires n > 0
    ensures var r := SliceFrom(s + [x], -n);
      && 0 < |r| <= n
      && r[|r| - 1] == x
      && r == (s + [x])[|s| + 1 - |r|..]
      && (|s| < n ==> r == s + [x])
      && (|s| >= n ==> r == s[|s| + 1 - n..] + [x])
  {
    var r := SliceFrom(s + [x], -n);
    if |s| >= n {
      assert (s + [x])[|s| + 1 - n..] == s[|s| + 1 - n..] + [x];
    }
  }

  // ---------------------------------------------------------------------------
  // Comprehensions
  // ---------------------------------------------------------------------------

  /** `[x for x in s if p(x)]`: the elements of `s` that satisfy `p`, in order. */
  function Filter<T>(s: seq<T>, p: T -> bool): (r: seq<T>)
    ensures |r| <= |s|
    ensures forall i :: 0 <= i < |r| ==> r[i] in s && p(r[i])
    ensures forall i :: 0 <= i < |s| && p(s[i]) ==> s[i] in r
  {
    if s == [] then []
    else (if p(s[0]) then [s[0]] else []) + Filter(s[1..], p)
  }

  /** Filtering distributes over concatenation: order is kept. */
  lemma {:induction false} FilterAppend<T>(s: seq<T>, t: seq<T>, p: T -> bool)
    ensures Filter(s + t, p) == Filter(s, p) + Filter(t, p)
  {
    if s == [] {
      assert s + t == t;
    } else {
      assert (s + t)[1..] == s[1..] + t;
      FilterAppend(s[1..], t, p);
    }
  }

  /** A filter that keeps everything is the identity. */
  lemma {:induction false} FilterAll<T>(s: seq<T>, p: T -> bool)
    requires forall i :: 0 <= i < |s| ==> p(s[i])
    ensures Filter(s, p) == s
  {
    if s != [] {
      FilterAll(s[1..], p);
    }
  }

  /** The keys of `s` strictly increase from left to right. */
  ghost predicate Increasing<T>(s: seq<T>, key: T -> int) {
    forall i, j :: 0 <= i < j < |s| ==> key(s[i]) < key(s[j])
  }

  lemma IncreasingHead<T>(s: seq<T>, key: T -> int)
    requires Increasing(s, key) && s != []
    ensures forall x :: x in s[1..] ==> key(s[0]) < key(x)
  {
    forall x | x in s[1..] ensures key(s[0]) < key(x) {
      var m :| 0 <= m < |s| - 1 && s[1..][m] == x;
      assert s[m + 1] == x;
    }
  }

  /** An element below everything in an increasing sequence can go in front. */
  lemma ConsIncreasing<T>(x: T, t: seq<T>, key: T -> int)
    requires Increasing(t, key)
    requires forall k :: 0 <= k < |t| ==> key(x) < key(t[k])
    ensures Increasing([x] + t, key)
  {
    var r := [x] + t;
    forall i, j | 0 <= i < j < |r| ensures key(r[i]) < key(r[j]) {
      assert r[j] == t[j - 1];
      if i > 0 {
        assert r[i] == t[i - 1];
      }
    }
  }

  /** Filtering keeps a strictly increasing key strictly increasing. */
  lemma {:induction false} FilterIncreasing<T>(s: seq<T>, p: T -> bool, key: T -> int)
    requires Increasing(s, key)
    ensures Increasing(Filter(s, p), key)
  {
    if s != [] {
      var t := Filter(s[1..], p);
      FilterIncreasing(s[1..], p, key);
      if p(s[0]) {
        IncreasingHead(s, key);
        forall k | 0 <= k < |t| ensures key(s[0]) < key(t[k]) {
          assert t[k] in s[1..];
        }
        ConsIncreasing(s[0], t, key);
        assert Filter(s, p) == [s[0]] + t;
      } else {
        assert Filter(s, p) == t;
      }
    }
  }

  /** Index of the first element of `s` that satisfies `p`: the
      `for x in s: if p(x): return x` idiom. */
  function FindFirst<T>(s: seq<T>, p: T -> bool): (r: Option<nat>)
    ensures r.Some? ==> r.value < |s| && p(s[r.value])
    ensures r.Some? ==> forall k :: 0 <= k < r.value ==> !p(s[k])
    ensures r.None? <==> forall k :: 0 <= k < |s| ==> !p(s[k])
  {
    if s == [] then None
    else if p(s[0]) then Some(0)
    else
      var t := FindFirst(s[1..], p);
      if t.None? then None else Some(t.value + 1)
  }

  /** Filtering drops something exactly when some element fails the test. */
  lemma {:induction false} FilterShorter<T>(s: seq<T>, p: T -> bool)
    ensures |Filter(s, p)| < |s| <==> exists i :: 0 <= i < |s| && !p(s[i])
  {
    if s != [] {
      FilterShorter(s[1..], p);
      if exists i :: 0 <= i < |s[1..]| && !p(s[1..][i]) {
        var i :| 0 <= i < |s[1..]| && !p(s[1..][i]);
        assert s[i + 1] == s[1..][i];
      }
      if exists i :: 0 <= i < |s| && !p(s[i]) {
        var i :| 0 <= i < |s| && !p(s[i]);
        if i > 0 {
          assert s[1..][i - 1] == s[i];
        }
      }
    }
  }

  /** `len([x for x in s if p(x)])`. */
  function Count<T>(s: seq<T>, p: T -> bool): nat {
    |Filter(s, p)|
  }

  /** Three mutually exclusive conditions count at most the whole sequence. */
  lemma {:induction false} CountExclusive<T>(s: seq<T>, p: T -> bool, q: T -> bool, r: T -> bool)
    requires forall x :: !(p(x) && q(x)) && !(p(x) && r(x)) && !(q(x) && r(x))
    ensures Count(s, p) + Count(s, q) + Count(s, r) <= |s|
  {
    if s != [] {
      CountExclusive(s[1..], p, q, r);
    }
  }

  /** Python's `max(xs, default=d)`. */
  function MaxOr(xs: seq<int>, d: int): (m: int)
    ensures forall i :: 0 <= i < |xs| ==> xs[i] <= m
    ensures |xs| == 0 ==> m == d
    ensures |xs| > 0 ==> m in xs
  {
    if |xs| == 0 then d
    else if |xs| == 1 then xs[0]
    else
      var t := MaxOr(xs[1..], d);
      if xs[0] >= t then xs[0] else t
  }

  /** The number of `true`s in `bs`. */
  function CountTrue(bs: seq<bool>): (n: nat)
    ensures n <= |bs|
    ensures n == |bs| <==> forall i :: 0 <= i < |bs| ==> bs[i]
  {
    if bs == [] then 0 else (if bs[0] then 1 else 0) + CountTrue(bs[1..])
  }

  lemma {:induction false} CountTrueAppend(bs: seq<bool>, b: bool)
    ensures CountTrue(bs + [b]) == CountTrue(bs) + (if b then 1 else 0)
  {
    if bs != [] {
      assert (bs + [b])[1..] == bs[1..] + [b];
      CountTrueAppend(bs[1..], b);
    }
  }

  // ---------------------------------------------------------------------------
  // Stable descending sort (`sorted(s, key=k, reverse=True)`)
  // ---------------------------------------------------------------------------

  ghost predicate SortedDesc<T>(s: seq<T>, key: T -> int) {
    forall i, j :: 0 <= i < j < |s| ==> key(s[i]) >= key(s[j])
  }

  /** Inserts `x` in front of the first element whose key is not larger, so it
      stays ahead of elements with the same key that came after it. */
  function InsertDesc<T>(x: T, s: seq<T>, key: T -> int): (r: seq<T>)
    requires SortedDesc(s, key)
    ensures SortedDesc(r, key)
    ensures multiset(r) == multiset(s) + multiset{x}
    ensures |r| == |s| + 1
    ensures r[0] == x || (s != [] && r[0] == s[0])
  {
    if s == [] || key(s[0]) <= key(x) then [x] + s
    else
      var t := InsertDesc(x, s[1..], key);
      assert key(s[0]) >= key(t[0]);
      assert s == [s[0]] + s[1..];
      [s[0]] + t
  }

  /** Newest first; elements with equal keys keep their original order. */
  function SortDesc<T>(s: seq<T>, key: T -> int): (r: seq<T>)
    ensures SortedDesc(r, key)
    ensures multiset(r) == multiset(s)
    ensures |r| == |s|
  {
    if s == [] then []
    else
      assert s == [s[0]] + s[1..];
      InsertDesc(s[0], SortDesc(s[1..], key), key)
  }

  /** A prefix holds no element more often than the whole sequence. */
  lemma PrefixMultiset<T>(s: seq<T>, k: nat)
    requires k <= |s|
    ensures multiset(s[..k]) <= multiset(s)
  {
    assert s == s[..k] + s[k..];
  }

  /** A prefix of a descending sequence holds its largest keys: nothing left
      behind has a larger key than anything kept. */
  lemma SortedPrefixLargest<T>(s: seq<T>, key: T -> int, k: nat)
    requires SortedDesc(s, key) && k <= |s|
    ensures forall x, y :: x in s[..k] && y in multiset(s) - multiset(s[..k]) ==> key(y) <= key(x)
  {
    assert s == s[..k] + s[k..];
    assert multiset(s) - multiset(s[..k]) == multiset(s[k..]);
    forall x, y | x in s[..k] && y in multiset(s) - multiset(s[..k])
      ensures key(y) <= key(x)
    {
      assert y in s[k..];
      var i :| 0 <= i < k && s[i] == x;
      var j :| 0 <= j < |s| - k && s[k..][j] == y;
      assert s[k + j] == y;
    }
  }

  // ---------------------------------------------------------------------------
  // Attribute access on a record with a fixed set of fields
  // ---------------------------------------------------------------------------

  /** The first of `names` that is not one of `fields`: reading the
      attributes in order raises `AttributeError` on that one. */
  function FirstMissing(fields: set<string>, names: seq<string>): (m: Option<string>)
    ensures m.None? <==> forall i :: 0 <= i < |names| ==> names[i] in fields
    ensures m.Some? ==> m.value in names && m.value !in fields
  {
    if names == [] then None
    else if names[0] !in fields then Some(names[0])
    else FirstMissing(fields, names[1..])
  }

  /** A numeric key of a JSON reading: missing, a number, or some other JSON
      value such as `null`, which Python cannot compare with a number. */
  datatype FieldValue = Absent | Number(v: real) | NotNumber

  /** `d.get(key, 0)` as a number, `None` when comparing it would raise. */
  function Numeric(f: FieldValue): (r: Option<real>)
    ensures f.Absent? ==> r == Some(0.0)
    ensures f.Number? ==> r == Some(f.v)
    ensures f.NotNumber? <==> r.None?
  {
    match f
    case Absent => Some(0.0)
    case Number(v) => Some(v)
    case NotNumber => None
  }

  // ---------------------------------------------------------------------------
  // Strings
  // ---------------------------------------------------------------------------

  predicate StartsWith(s: string, prefix: string) {
    |prefix| <= |s| && s[..|prefix|] == prefix
  }

  predicate EndsWith(s: string, suffix: string) {
    |suffix| <= |s| && s[|s| - |suffix|..] == suffix
  }

  predicate IsDigit(c: char) { '0' <= c <= '9' }

  /** Python's `str.isdigit()` on ASCII text: non-empty and all digits. */
  predicate IsDigits(s: string) {
    |s| > 0 && forall i :: 0 <= i < |s| ==> IsDigit(s[i])
  }

  /** Position of the first `c` in `s`. */
  function IndexOf(s: string, c: char): (i: nat)
    requires c in s
    ensures i < |s| && s[i] == c && c !in s[..i]
  {
    if s[0] == c then 0
    else
      assert c in s[1..] by { assert s == [s[0]] + s[1..]; }
      var j := IndexOf(s[1..], c);
      assert s[..j + 1] == [s[0]] + s[1..][..j];
      j + 1
  }

  /** The first occurrence is the one `IndexOf` finds. */
  lemma IndexOfFirst(s: string, c: char, k: nat)
    requires k < |s| && s[k] == c && c !in s[..k]
    ensures IndexOf(s, c) == k
  {
    var i := IndexOf(s, c);
    assert forall j :: 0 <= j < k ==> s[..k][j] == s[j];
    assert forall j :: 0 <= j < i ==> s[..i][j] == s[j];
  }

  /** Python's `s.split(c)` for a one-character separator. */
  function Split(s: string, c: char): (parts: seq<string>)
    ensures |parts| >= 1
    decreases |s|
  {
    if c !in s then [s]
    else
      var i := IndexOf(s, c);
      [s[..i]] + Split(s[i + 1..], c)
  }

  /** One step of `Split`: the text before the first separator, then the
      split of the rest. */
  lemma SplitStep(s: string, c: char)
    ensures c !in s ==> Split(s, c) == [s]
    ensures c in s ==> Split(s, c) == [s[..IndexOf(s, c)]] + Split(s[IndexOf(s, c) + 1..], c)
  {
  }

  /** The first field of a split is the text before the first separator, and a
      split has exactly two fields iff the separator occurs exactly once. */
  lemma SplitTwo(s: string, c: char)
    ensures |Split(s, c)| == 2 <==>
      c in s && c !in s[IndexOf(s, c) + 1..]
    ensures c in s ==> Split(s, c)[0] == s[..IndexOf(s, c)]
    ensures c in s ==> (Split(s, c)[1] ==
      var rest := s[IndexOf(s, c) + 1..]; if c in rest then rest[..IndexOf(rest, c)] else rest)
  {
    SplitStep(s, c);
    if c in s {
      var rest := s[IndexOf(s, c) + 1..];
      SplitStep(rest, c);
      if c in rest {
        var more := rest[IndexOf(rest, c) + 1..];
        assert |Split(more, c)| >= 1;
      }
    }
  }

  /** The characters for which Python's `str.isspace()` holds, the set
      `str.strip()` with no argument removes: the ASCII controls tab to
      carriage return and the four separators 0x1C-0x1F, the space, NEL,
      no-break space, and the Unicode space and line/paragraph separators. */
  predicate IsSpace(c: char) {
    var n := c as int;
    (0x09 <= n <= 0x0D) || (0x1C <= n <= 0x20) || n == 0x85 || n == 0xA0 || n == 0x1680
    || (0x2000 <= n <= 0x200A) || n == 0x2028 || n == 0x2029 || n == 0x202F || n == 0x205F
    || n == 0x3000
  }

  function StripLeft(s: string): (r: string)
    ensures |r| <= |s| && r == s[|s| - |r|..]
    ensures r == [] || !IsSpace(r[0])
  {
    if s == [] || !IsSpace(s[0]) then s else StripLeft(s[1..])
  }

  function StripRight(s: string): (r: string)
    ensures |r| <= |s| && r == s[..|r|]
    ensures r == [] || !IsSpace(r[|r| - 1])
  {
    if s == [] || !IsSpace(s[|s| - 1]) then s else StripRight(s[..|s| - 1])
  }

  /** Python's `str.strip()`: both ends lose every whitespace character. */
  function Strip(s: string): (r: string)
    ensures |r| <= |s|
    ensures r == [] || (!IsSpace(r[0]) && !IsSpace(r[|r| - 1]))
  {
    var l := StripLeft(s);
    var r := StripRight(l);
    assert r != [] ==> r[0] == l[0];
    r
  }

  /** Text that neither starts nor ends with whitespace is its own strip. */
  lemma StripNoop(s: string)
    requires s == [] || (!IsSpace(s[0]) && !IsSpace(s[|s| - 1]))
    ensures Strip(s) == s
  {
  }

  /** `str(n)` for an integer `n`. */
  function DecimalString(n: int): (s: string)
    ensures |s| > 0
    decreases if n < 0 then 1 - n else n
  {
    if n < 0 then "-" + DecimalString(-n)
    else if n < 10 then ["0123456789"[n]]
    else DecimalString(n / 10) + ["0123456789"[n % 10]]
  }
}

=== FILE: cron.dfy ===
/**
 * The stand-alone cron function: it reads the last ThingSpeak feed entry,
 * grades the TDS against two fixed levels (500 and 1000 ppm, both inclusive)
 * and posts the report to one Telegram chat. The HTTP calls are inputs: the
 * feed response (or its absence) and whether the post was accepted.
 */
module Cron {
  import opened Common

  const TDS_THRESHOLD: real := 500.0
  const TDS_DANGER: real := 1000.0

  /** One `fieldN` of the feed: absent, falsy (`""` or `null`), text that
      `float` accepts, or text it rejects. */
  datatype FeedField = Missing | Blank | Parsed(v: real) | Unparseable

  /** A `200` or other response to the feed request. */
  datatype FeedResponse = FeedResponse(status: int, field1: FeedField, field2: FeedField,
                                       field3: FeedField, field4: FeedField, createdAt: string)

  datatype CronData = CronData(tds: real, ph: real, turbidity: real, temperature: real, timestamp: string)

  /** `float(d.get(k, 0)) if d.get(k) else 0`: a missing or falsy field is 0;
      text `float` rejects raises. */
  function FeedValue(f: FeedField): (r: Result<real>)
    ensures f.Missing? || f.Blank? ==> r == Success(0.0)
    ensures f.Parsed? ==> r == Success(f.v)
    ensures r.Failure? <==> f.Unparseable?
  {
    match f
    case Missing => Success(0.0)
    case Blank => Success(0.0)
    case Parsed(v) => Success(v)
    case Unparseable => Failure(ValueError("could not convert string to float"))
  }

  /** `get_thingspeak_data`: `None` when the request raised, the status is
      not 200, or any field fails to convert (the conversion error is caught
      with the rest); otherwise the four numbers and the time stamp. */
  function ThingSpeakData(response: Option<FeedResponse>): (d: Option<CronData>)
    ensures d.Some? <==>
      response.Some? && response.value.status == 200
      && FeedValue(response.value.field1).Success? && FeedValue(response.value.field2).Success?
      && FeedValue(response.value.field3).Success? && FeedValue(response.value.field4).Success?
    ensures d.Some? ==>
      d.value.tds == FeedValue(response.value.field1).value && d.value.ph == FeedValue(response.value.field2).value
      && d.value.turbidity == FeedValue(response.value.field3).value
      && d.value.temperature == FeedValue(response.value.field4).value
      && d.value.timestamp == response.value.createdAt
  {
    if response.None? || response.value.status != 200 then None
    else
      var r := response.value;
      var tds := FeedValue(r.field1);
      var ph := FeedValue(r.field2);
      var turbidity := FeedValue(r.field3);
      var temp := FeedValue(r.field4);
      if tds.Failure? || ph.Failure? || turbidity.Failure? || temp.Failure? then None
      else Some(CronData(tds.value, ph.value, turbidity.value, temp.value, r.createdAt))
  }

  /** A missing or empty TDS field reads as 0 ppm and so as safe water. */
  lemma EmptyTdsReadsAsZero(f2: FeedField, f3: FeedField, f4: FeedField, at: string)
    requires !f2.Unparseable? && !f3.Unparseable? && !f4.Unparseable?
    ensures var d := ThingSpeakData(Some(FeedResponse(200, Blank, f2, f3, f4, at)));
      d.Some? && d.value.tds == 0.0 && Grade(d.value.tds) == Safe
  {
  }

  datatype CronStatus = CriticalDanger | HighAlert | Safe

  /** At or above 1000 ppm critical, at or above 500 high, below 500 safe. */
  function Grade(tds: real): (s: CronStatus)
    ensures s == CriticalDanger <==> tds >= TDS_DANGER
    ensures s == HighAlert <==> TDS_THRESHOLD <= tds < TDS_DANGER
    ensures s == Safe <==> tds < TDS_THRESHOLD
  {
    if tds >= TDS_DANGER then CriticalDanger
    else if tds >= TDS_THRESHOLD then HighAlert
    else Safe
  }

  /** What the message says; the layout is not modelled. */
  datatype CronMessage = CronMessage(status: CronStatus, tds: real, ph: real, turbidity: real,
                                     temperature: real, actionRequired: bool)

  /** `format_alert_message`: the grade, the four readings, and the
      "action required" footer when the TDS is not below 500. */
  function FormatAlertMessage(d: CronData): (m: CronMessage)
    ensures m.status == Grade(d.tds)
    ensures m.actionRequired <==> d.tds >= TDS_THRESHOLD
    ensures m.tds == d.tds && m.ph == d.ph && m.turbidity == d.turbidity && m.temperature == d.temperature
  {
    CronMessage(Grade(d.tds), d.tds, d.ph, d.turbidity, d.temperature, !(d.tds < TDS_THRESHOLD))
  }

  /** The footer agrees with the headline: action is required exactly when
      the status is not safe. */
  lemma FooterMatchesStatus(d: CronData)
    ensures FormatAlertMessage(d).actionRequired <==> FormatAlertMessage(d).status != Safe
  {
  }

  /** Grading never goes down as the TDS rises. */
  lemma GradeMonotone(t1: real, t2: real)
    requires t1 <= t2
    ensures Grade(t1) == CriticalDanger ==> Grade(t2) == CriticalDanger
    ensures Grade(t2) == Safe ==> Grade(t1) == Safe
  {
  }

  datatype CronOutcome = FetchFailed | SendFailed | Sent(tds: real)

  /** One run: the outcome and the message posted, if any. */
  datatype CronRun = CronRun(outcome: CronOutcome, posted: Option<CronMessage>)

  /** `send_alert`: no data means an error and no post; otherwise the message
      is posted once and the run succeeds exactly when the post did. */
  function SendAlert(response: Option<FeedResponse>, accepted: bool): (run: CronRun)
    ensures ThingSpeakData(response).None? ==> run == CronRun(FetchFailed, None)
    ensures ThingSpeakData(response).Some? ==>
      && run.posted == Some(FormatAlertMessage(ThingSpeakData(response).value))
      && (run.outcome.Sent? <==> accepted)
      && (run.outcome.Sent? ==> run.outcome.tds == ThingSpeakData(response).value.tds)
    ensures run.outcome.Sent? ==> run.posted.Some?
  {
    var data := ThingSpeakData(response);
    if data.None? then CronRun(FetchFailed, None)
    else
      var message := FormatAlertMessage(data.value);
      if accepted then CronRun(Sent(data.value.tds), Some(message)) else CronRun(SendFailed, Some(message))
  }
}

=== FILE: email_service.dfy ===
/**
 * E-mail alerts with a per-type throttle. The throttle log keeps, for each
 * alert type, the last 50 deliveries; a type may be mailed again once 15
 * minutes have passed since its last logged delivery. Delivery itself (the
 * Brevo API with an SMTP fallback) is an oracle whose every attempt is
 * recorded in `outbox`.
 */
module Email {
  import opened Common

  const THROTTLE_SECONDS := 15 * 60
  const MAX_LOG := 50

  datatype AlertType = Tds | Temp

  /** One logged delivery; `sentAt` is `None` when the entry has no usable
      `sent_at` (missing or empty). */
  datatype LogEntry = LogEntry(sentAt: Option<int>, recipients: seq<string>, value: real, threshold: real)

  /** The two lists of the log file, `tds_alerts` and `temp_alerts`. */
  datatype AlertLog = AlertLog(tdsAlerts: seq<LogEntry>, tempAlerts: seq<LogEntry>) {
    function Entries(t: AlertType): seq<LogEntry> {
      match t
      case Tds => tdsAlerts
      case Temp => tempAlerts
    }

    /** The log with the list of type `t` replaced. */
    function WithEntries(t: AlertType, entries: seq<LogEntry>): (r: AlertLog)
      ensures r.Entries(t) == entries
      ensures forall u :: u != t ==> r.Entries(u) == Entries(u)
    {
      match t
      case Tds => this.(tdsAlerts := entries)
      case Temp => this.(tempAlerts := entries)
    }
  }

  const EmptyLog := AlertLog([], [])

  /** True when the type has no entry, its last entry has no time, or at
      least 15 minutes have passed since that time (the boundary included). */
  function ShouldSendAlert(log: AlertLog, t: AlertType, now: int): bool {
    var alerts := log.Entries(t);
    alerts == []
    || alerts[|alerts| - 1].sentAt.None?
    || now - alerts[|alerts| - 1].sentAt.value >= THROTTLE_SECONDS
  }

  /** Appends the entry to its type's list and keeps the last 50. */
  function LogAlert(log: AlertLog, t: AlertType, entry: LogEntry): (r: AlertLog)
    ensures r.Entries(t) == SliceFrom(log.Entries(t) + [entry], -MAX_LOG)
    ensures 0 < |r.Entries(t)| <= MAX_LOG && r.Entries(t)[|r.Entries(t)| - 1] == entry
    ensures |log.Entries(t)| < MAX_LOG ==> r.Entries(t) == log.Entries(t) + [entry]
    ensures forall u :: u != t ==> r.Entries(u) == log.Entries(u)
  {
    AppendKeepLast(log.Entries(t), entry, MAX_LOG);
    log.WithEntries(t, SliceFrom(log.Entries(t) + [entry], -MAX_LOG))
  }

  /** After a delivery of type `t` is logged at time `s`, that type is
      throttled exactly until 15 minutes have passed. */
  lemma ThrottleWindow(log: AlertLog, t: AlertType, recipients: seq<string>, value: real, threshold: real, s: int, now: int)
    ensures ShouldSendAlert(LogAlert(log, t, LogEntry(Some(s), recipients, value, threshold)), t, now)
      <==> now - s >= THROTTLE_SECONDS
  {
  }

  /** Logging one type never changes whether the other type may be sent. */
  lemma ThrottlePerType(log: AlertLog, t: AlertType, u: AlertType, entry: LogEntry, now: int)
    requires u != t
    ensures ShouldSendAlert(LogAlert(log, t, entry), u, now) == ShouldSendAlert(log, u, now)
  {
  }

  /** Once allowed, a type stays allowed as time passes. */
  lemma ThrottleMonotone(log: AlertLog, t: AlertType, now1: int, now2: int)
    requires now1 <= now2 && ShouldSendAlert(log, t, now1)
    ensures ShouldSendAlert(log, t, now2)
  {
  }

  /** A recipient dictionary: only `email` and `name` are used. */
  datatype EmailRecipient = EmailRecipient(email: string, name: string)

  function Emails(rs: seq<EmailRecipient>): (es: seq<string>)
    ensures |es| == |rs| && forall i :: 0 <= i < |rs| ==> es[i] == rs[i].email
  {
    seq(|rs|, i requires 0 <= i < |rs| => rs[i].email)
  }

  /** One call to the delivery oracle. */
  datatype Attempt = Attempt(kind: AlertType, recipients: seq<EmailRecipient>, value: real, threshold: real)

  class EmailAlertService {
    const apiKey: string
    var log: AlertLog
    var outbox: seq<Attempt>

    constructor (apiKey: string, log: AlertLog)
      ensures this.apiKey == apiKey && this.log == log && outbox == []
    {
      this.apiKey := apiKey;
      this.log := log;
      outbox := [];
    }

    /** `send_tds_alert` (kind `Tds`) and `send_temp_alert` (kind `Temp`).
        Without an API key, or while the kind is throttled, nothing is
        attempted or logged and the result is false. Otherwise delivery is
        attempted once; the result is the delivery's, and only a successful
        delivery is logged, so a failure starts no throttle window. */
    method SendAlert(kind: AlertType, recipients: seq<EmailRecipient>, value: real, threshold: real, now: int)
      returns (ok: bool)
      modifies this
      ensures apiKey == "" || !ShouldSendAlert(old(log), kind, now) ==>
        !ok && log == old(log) && outbox == old(outbox)
      ensures apiKey != "" && ShouldSendAlert(old(log), kind, now) ==>
        outbox == old(outbox) + [Attempt(kind, recipients, value, threshold)]
      ensures ok ==> log == LogAlert(old(log), kind, LogEntry(Some(now), Emails(recipients), value, threshold))
      ensures !ok ==> log == old(log)
    {
      if apiKey == "" {
        return false;
      }
      if !ShouldSendAlert(log, kind, now) {
        return false;
      }
      outbox := outbox + [Attempt(kind, recipients, value, threshold)];
      var delivered :| true;
      ok := delivered;
      if ok {
        log := LogAlert(log, kind, LogEntry(Some(now), Emails(recipients), value, threshold));
      }
    }
  }

  /** Scenario: a TDS mail sent at `t` blocks a second TDS mail ten minutes
      later but not a temperature mail. */
  lemma TdsDoesNotThrottleTemp(log: AlertLog, recipients: seq<string>, v: real, thr: real, t: int)
    requires ShouldSendAlert(log, Temp, t + 600)
    ensures var after := LogAlert(log, Tds, LogEntry(Some(t), recipients, v, thr));
      !ShouldSendAlert(after, Tds, t + 600) && ShouldSendAlert(after, Temp, t + 600)
  {
    ThrottleWindow(log, Tds, recipients, v, thr, t, t + 600);
    ThrottlePerType(log, Tds, Temp, LogEntry(Some(t), recipients, v, thr), t + 600);
  }
}

=== FILE: endpoints.dfy ===
/**
 * The dashboard routes: the three-way water status shown on the dashboard,
 * the settings file with its 150/35 fallbacks, and the alert check that
 * mails a TDS alert and a temperature alert independently of each other.
 * The ThingSpeak fetch and the recipient table are inputs.
 */
module Endpoints {
  import opened Common
  import Email

  /** The configured dashboard threshold (`TDS_ALERT_THRESHOLD`). */
  const TDS_ALERT_THRESHOLD: real := 150.0

  /** The latest reading; a missing or empty `latest` is `None`. */
  datatype Reading = Reading(tds: FieldValue, temp: FieldValue)

  datatype DashStatus = Normal | Warning | Critical

  function Rank(s: DashStatus): nat {
    match s
    case Normal => 0
    case Warning => 1
    case Critical => 2
  }

  /** `CRITICAL` above the threshold, `WARNING` above 80% of it, `NORMAL`
      otherwise or without a reading; a value that cannot be compared gives
      `WARNING`. */
  function DashboardStatus(latest: Option<Reading>, threshold: real): (s: DashStatus)
    ensures latest.None? ==> s == Normal
    ensures latest.Some? && latest.value.tds.NotNumber? ==> s == Warning
    ensures latest.Some? && !latest.value.tds.NotNumber? ==>
      var t := Numeric(latest.value.tds).value;
      && (s == Critical <==> t > threshold)
      && (s == Warning <==> threshold * 0.8 < t <= threshold)
      && (s == Normal <==> t <= threshold && t <= threshold * 0.8)
  {
    if latest.None? then Normal
    else
      var t := Numeric(latest.value.tds);
      if t.None? then Warning
      else if t.value > threshold then Critical
      else if t.value > threshold * 0.8 then Warning
      else Normal
  }

  /** A higher numeric TDS never shows a lower status. */
  lemma DashboardStatusMonotone(t1: real, t2: real, temp: FieldValue, threshold: real)
    requires t1 <= t2
    ensures Rank(DashboardStatus(Some(Reading(Number(t1), temp)), threshold))
         <= Rank(DashboardStatus(Some(Reading(Number(t2), temp)), threshold))
  {
  }

  /** With the configured threshold the bands are (120, 150] and above 150. */
  lemma DashboardBands(t: real, temp: FieldValue)
    ensures DashboardStatus(Some(Reading(Number(t), temp)), TDS_ALERT_THRESHOLD) == Critical <==> t > 150.0
    ensures DashboardStatus(Some(Reading(Number(t), temp)), TDS_ALERT_THRESHOLD) == Warning <==> 120.0 < t <= 150.0
  {
  }

  // ---------------------------------------------------------------------------
  // Settings
  // ---------------------------------------------------------------------------

  const DEFAULT_SETTINGS: map<string, real> := map["tdsThreshold" := 150.0, "tempThreshold" := 35.0]

  /** `load_settings_file`: the stored dictionary, or the defaults when the
      file is missing or unreadable. */
  function LoadSettingsFile(stored: Option<map<string, real>>): (m: map<string, real>)
    ensures stored.Some? ==> m == stored.value
    ensures stored.None? ==> m == DEFAULT_SETTINGS
  {
    stored.GetOr(DEFAULT_SETTINGS)
  }

  /** `settings.get(key, default)`. */
  function Setting(settings: map<string, real>, key: string, default: real): real {
    if key in settings then settings[key] else default
  }

  function TdsThreshold(stored: Option<map<string, real>>): real {
    Setting(LoadSettingsFile(stored), "tdsThreshold", 150.0)
  }

  function TempThreshold(stored: Option<map<string, real>>): real {
    Setting(LoadSettingsFile(stored), "tempThreshold", 35.0)
  }

  /** The thresholds are 150 and 35 unless the file stores its own. */
  lemma ThresholdsFallBack(stored: Option<map<string, real>>)
    ensures stored.None? || "tdsThreshold" !in stored.value ==> TdsThreshold(stored) == 150.0
    ensures stored.None? || "tempThreshold" !in stored.value ==> TempThreshold(stored) == 35.0
    ensures stored.Some? && "tdsThreshold" in stored.value ==> TdsThreshold(stored) == stored.value["tdsThreshold"]
    ensures stored.Some? && "tempThreshold" in stored.value ==> TempThreshold(stored) == stored.value["tempThreshold"]
  {
  }

  // ---------------------------------------------------------------------------
  // Alert check
  // ---------------------------------------------------------------------------

  datatype CheckOutcome =
    | NoData
    | NoRecipients
    | Sent(alerts: seq<Email.AlertType>)
    | NoAlertsNeeded(tds: real, temp: real)
    | Failed(error: Error)

  /** The other alert type. */
  function Other(kind: Email.AlertType): (u: Email.AlertType)
    ensures u != kind
  {
    match kind
    case Tds => Email.Temp
    case Temp => Email.Tds
  }

  /** The attempt one check makes: none unless the reading exceeds its
      threshold, an API key is set and the type is not throttled. */
  function PlannedAttempt(apiKey: string, log: Email.AlertLog, kind: Email.AlertType,
                          recipients: seq<Email.EmailRecipient>, value: real, threshold: real, now: int)
    : (a: seq<Email.Attempt>)
    ensures |a| <= 1
    ensures a != [] <==> value > threshold && apiKey != "" && Email.ShouldSendAlert(log, kind, now)
  {
    if value > threshold && apiKey != "" && Email.ShouldSendAlert(log, kind, now)
    then [Email.Attempt(kind, recipients, value, threshold)] else []
  }

  /** The delivery attempts the check makes: one per exceeded reading whose
      type is neither throttled nor blocked by a missing API key. Logging a
      TDS alert does not throttle temperature, so both gates are read on the
      log as it was before the call. */
  function PlannedAttempts(apiKey: string, log: Email.AlertLog, recipients: seq<Email.EmailRecipient>,
                           tds: real, tdsThr: real, temp: real, tempThr: real, now: int): (a: seq<Email.Attempt>)
    ensures |a| <= 2
    ensures forall i :: 0 <= i < |a| ==> a[i].recipients == recipients
  {
    PlannedAttempt(apiKey, log, Email.Tds, recipients, tds, tdsThr, now)
    + PlannedAttempt(apiKey, log, Email.Temp, recipients, temp, tempThr, now)
  }

  /** Both readings over their thresholds, with both types open, give two
      attempts: the checks are independent, not an `elif`. */
  lemma BothAlertsAttempted(apiKey: string, log: Email.AlertLog, recipients: seq<Email.EmailRecipient>,
                            tds: real, tdsThr: real, temp: real, tempThr: real, now: int)
    requires tds > tdsThr && temp > tempThr && apiKey != ""
    requires Email.ShouldSendAlert(log, Email.Tds, now) && Email.ShouldSendAlert(log, Email.Temp, now)
    ensures PlannedAttempts(apiKey, log, recipients, tds, tdsThr, temp, tempThr, now)
         == [Email.Attempt(Email.Tds, recipients, tds, tdsThr), Email.Attempt(Email.Temp, recipients, temp, tempThr)]
  {
  }

  /** The time of the newest logged delivery of type `t`. */
  function LastSentAt(log: Email.AlertLog, t: Email.AlertType): Option<int> {
    var entries := log.Entries(t);
    if entries == [] then None else entries[|entries| - 1].sentAt
  }

  /** Logging a delivery makes it the newest of its type and leaves the
      other type's newest delivery and throttle as they were. */
  lemma LogAlertEffects(log: Email.AlertLog, kind: Email.AlertType, entry: Email.LogEntry, now: int)
    ensures LastSentAt(Email.LogAlert(log, kind, entry), kind) == entry.sentAt
    ensures LastSentAt(Email.LogAlert(log, kind, entry), Other(kind)) == LastSentAt(log, Other(kind))
    ensures Email.ShouldSendAlert(Email.LogAlert(log, kind, entry), Other(kind), now)
         == Email.ShouldSendAlert(log, Other(kind), now)
  {
    var after := Email.LogAlert(log, kind, entry);
    assert after.Entries(Other(kind)) == log.Entries(Other(kind));
  }

  /** The log after the deliveries of the types in `sent` are recorded at
      `now`, the TDS one first. */
  function LogSent(log: Email.AlertLog, sent: seq<Email.AlertType>, recipients: seq<Email.EmailRecipient>,
                   tds: real, tdsThr: real, temp: real, tempThr: real, now: int): (r: Email.AlertLog)
    ensures Email.Tds !in sent ==> r.Entries(Email.Tds) == log.Entries(Email.Tds)
    ensures Email.Temp !in sent ==> r.Entries(Email.Temp) == log.Entries(Email.Temp)
    ensures sent == [] ==> r == log
  {
    var afterTds :=
      if Email.Tds in sent then Email.LogAlert(log, Email.Tds, Email.LogEntry(Some(now), Email.Emails(recipients), tds, tdsThr))
      else log;
    if Email.Temp in sent then Email.LogAlert(afterTds, Email.Temp, Email.LogEntry(Some(now), Email.Emails(recipients), temp, tempThr))
    else afterTds
  }

  /** The types whose delivery succeeded, TDS first. */
  function Listed(tdsSent: bool, tempSent: bool): (sent: seq<Email.AlertType>)
    ensures Email.Tds in sent <==> tdsSent
    ensures Email.Temp in sent <==> tempSent
    ensures sent == [] <==> !tdsSent && !tempSent
    ensures sent != [] ==> sent in {[Email.Tds], [Email.Temp], [Email.Tds, Email.Temp]}
  {
    if tdsSent && tempSent then [Email.Tds, Email.Temp]
    else if tdsSent then [Email.Tds]
    else if tempSent then [Email.Temp]
    else []
  }

  /** The result of the two checks: `sent` listing the types whose delivery
      succeeded, or `normal` with both readings when none did. */
  function Outcome(tdsSent: bool, tempSent: bool, tds: real, temp: real): (o: CheckOutcome)
    ensures o.Sent? <==> tdsSent || tempSent
    ensures o.Sent? ==> o.alerts == Listed(tdsSent, tempSent)
    ensures !o.Sent? ==> o == NoAlertsNeeded(tds, temp)
  {
    if tdsSent || tempSent then Sent(Listed(tdsSent, tempSent)) else NoAlertsNeeded(tds, temp)
  }

  /** What the two checks promise, from the log `log0` before them to the log
      `log` after: the result is `sent` or `normal`; `normal` leaves the log
      alone; `sent` lists one or both types, and the new log is the old one
      with exactly the listed types logged now. Each listed type had its
      reading over its threshold and a planned attempt, and its newest
      delivery is now. */
  ghost predicate Reported(apiKey: string, log0: Email.AlertLog, log: Email.AlertLog, o: CheckOutcome,
                           recipients: seq<Email.EmailRecipient>, tds: real, tdsThr: real, temp: real, tempThr: real, now: int)
  {
    && (o.Sent? || o.NoAlertsNeeded?)
    && (o.NoAlertsNeeded? ==> log == log0)
    && (o.Sent? ==> o.alerts in {[Email.Tds], [Email.Temp], [Email.Tds, Email.Temp]})
    && (o.Sent? ==> log == LogSent(log0, o.alerts, recipients, tds, tdsThr, temp, tempThr, now))
    && (o.Sent? && Email.Tds in o.alerts ==>
          && tds > tdsThr && LastSentAt(log, Email.Tds) == Some(now)
          && PlannedAttempt(apiKey, log0, Email.Tds, recipients, tds, tdsThr, now) != [])
    && (o.Sent? && Email.Temp in o.alerts ==>
          && temp > tempThr && LastSentAt(log, Email.Temp) == Some(now)
          && PlannedAttempt(apiKey, log0, Email.Temp, recipients, temp, tempThr, now) != [])
  }

  /** Logging the TDS delivery when it succeeded and then the temperature
      delivery when it succeeded gives the log `LogSent` describes for the
      types listed, each with its newest delivery at `now`. */
  lemma LogTwoSteps(log0: Email.AlertLog, log1: Email.AlertLog, log2: Email.AlertLog, tdsSent: bool, tempSent: bool,
                    recipients: seq<Email.EmailRecipient>, tds: real, tdsThr: real, temp: real, tempThr: real, now: int)
    requires log1 == if tdsSent then Email.LogAlert(log0, Email.Tds, Email.LogEntry(Some(now), Email.Emails(recipients), tds, tdsThr)) else log0
    requires log2 == if tempSent then Email.LogAlert(log1, Email.Temp, Email.LogEntry(Some(now), Email.Emails(recipients), temp, tempThr)) else log1
    ensures log2 == LogSent(log0, Listed(tdsSent, tempSent), recipients, tds, tdsThr, temp, tempThr, now)
    ensures tdsSent ==> LastSentAt(log2, Email.Tds) == Some(now)
    ensures tempSent ==> LastSentAt(log2, Email.Temp) == Some(now)
  {
    var e1 := Email.LogEntry(Some(now), Email.Emails(recipients), tds, tdsThr);
    var e2 := Email.LogEntry(Some(now), Email.Emails(recipients), temp, tempThr);
    assert Other(Email.Temp) == Email.Tds;
    LogAlertEffects(log0, Email.Tds, e1, now);
    LogAlertEffects(log1, Email.Temp, e2, now);
  }

  /** Two sends, each logged only when it succeeded and attempted only when
      planned, give the outcome that `Reported` describes. */
  lemma ReportedAfterSends(apiKey: string, log0: Email.AlertLog, log1: Email.AlertLog, log2: Email.AlertLog,
                           tdsSent: bool, tempSent: bool, recipients: seq<Email.EmailRecipient>,
                           tds: real, tdsThr: real, temp: real, tempThr: real, now: int)
    requires log1 == if tdsSent then Email.LogAlert(log0, Email.Tds, Email.LogEntry(Some(now), Email.Emails(recipients), tds, tdsThr)) else log0
    requires log2 == if tempSent then Email.LogAlert(log1, Email.Temp, Email.LogEntry(Some(now), Email.Emails(recipients), temp, tempThr)) else log1
    requires tdsSent ==> PlannedAttempt(apiKey, log0, Email.Tds, recipients, tds, tdsThr, now) != []
    requires tempSent ==> PlannedAttempt(apiKey, log0, Email.Temp, recipients, temp, tempThr, now) != []
    ensures Reported(apiKey, log0, log2, Outcome(tdsSent, tempSent, tds, temp), recipients, tds, tdsThr, temp, tempThr, now)
  {
    LogTwoSteps(log0, log1, log2, tdsSent, tempSent, recipients, tds, tdsThr, temp, tempThr, now);
  }

  /** One independent check: mails the reading's type when the reading is
      over its threshold. The result is the delivery's; a success is logged
      as the newest of its type, and the other type's log is untouched. */
  method SendIfExceeded(email: Email.EmailAlertService, kind: Email.AlertType, recipients: seq<Email.EmailRecipient>,
                        value: real, threshold: real, now: int) returns (ok: bool)
    modifies email
    ensures ok ==> value > threshold
    ensures email.outbox == old(email.outbox) + PlannedAttempt(email.apiKey, old(email.log), kind, recipients, value, threshold, now)
    ensures !ok ==> email.log == old(email.log)
    ensures ok ==> PlannedAttempt(email.apiKey, old(email.log), kind, recipients, value, threshold, now) != []
    ensures ok ==> email.log == Email.LogAlert(old(email.log), kind, Email.LogEntry(Some(now), Email.Emails(recipients), value, threshold))
    ensures ok ==> LastSentAt(email.log, kind) == Some(now)
    ensures LastSentAt(email.log, Other(kind)) == LastSentAt(old(email.log), Other(kind))
    ensures Email.ShouldSendAlert(email.log, Other(kind), now) == Email.ShouldSendAlert(old(email.log), Other(kind), now)
  {
    ok := false;
    if value > threshold {
      ok := email.SendAlert(kind, recipients, value, threshold, now);
      LogAlertEffects(old(email.log), kind, Email.LogEntry(Some(now), Email.Emails(recipients), value, threshold), now);
    }
  }

  /** The two independent checks once the TDS value is known to be a number:
      each exceeded reading is mailed on its own, and the result lists the
      types whose delivery succeeded. */
  method MailExceeded(email: Email.EmailAlertService, recipients: seq<Email.EmailRecipient>,
                      tds: real, tdsThr: real, temp: FieldValue, tempThr: real, now: int) returns (o: CheckOutcome)
    modifies email
    ensures o.Failed? <==> temp.NotNumber?
    ensures !temp.NotNumber? ==>
      email.outbox == old(email.outbox) + PlannedAttempts(email.apiKey, old(email.log), recipients, tds, tdsThr, Numeric(temp).value, tempThr, now)
    ensures !temp.NotNumber? ==>
      Reported(email.apiKey, old(email.log), email.log, o, recipients, tds, tdsThr, Numeric(temp).value, tempThr, now)
    ensures o.Failed? ==>
      || email.log == old(email.log)
      || email.log == Email.LogAlert(old(email.log), Email.Tds, Email.LogEntry(Some(now), Email.Emails(recipients), tds, tdsThr))
  {
    ghost var log0 := email.log;
    ghost var out0 := email.outbox;
    var tdsSent := SendIfExceeded(email, Email.Tds, recipients, tds, tdsThr, now);
    ghost var log1 := email.log;
    ghost var first := PlannedAttempt(email.apiKey, log0, Email.Tds, recipients, tds, tdsThr, now);
    ghost var e1 := Email.LogEntry(Some(now), Email.Emails(recipients), tds, tdsThr);
    assert email.outbox == out0 + first;
    assert log1 == if tdsSent then Email.LogAlert(log0, Email.Tds, e1) else log0;
    var t := Numeric(temp);
    if t.None? {
      return Failed(TypeError("'>' not supported for the temperature value"));
    }
    ghost var second := PlannedAttempt(email.apiKey, log0, Email.Temp, recipients, t.value, tempThr, now);
    ghost var e2 := Email.LogEntry(Some(now), Email.Emails(recipients), t.value, tempThr);
    assert Other(Email.Tds) == Email.Temp && Other(Email.Temp) == Email.Tds;
    var tempSent := SendIfExceeded(email, Email.Temp, recipients, t.value, tempThr, now);
    assert email.outbox == out0 + (first + second);
    assert email.log == if tempSent then Email.LogAlert(log1, Email.Temp, e2) else log1;
    ReportedAfterSends(email.apiKey, log0, log1, email.log, tdsSent, tempSent, recipients, tds, tdsThr, t.value, tempThr, now);
    o := Outcome(tdsSent, tempSent, tds, t.value);
  }

  /** `check_and_send_alerts`. No reading gives `no_data` and no recipient
      `no_recipients`, both before any delivery. Otherwise each exceeded
      reading is mailed on its own; the result is `sent`, listing exactly the
      types whose delivery succeeded (and each is logged now), or `normal`
      when none did. A reading that cannot be compared ends the call with an
      error. */
  method CheckAndSendAlerts(email: Email.EmailAlertService, latest: Option<Reading>,
                            stored: Option<map<string, real>>, recipients: seq<Email.EmailRecipient>, now: int)
    returns (o: CheckOutcome)
    modifies email
    ensures latest.None? ==> o == NoData
    ensures latest.Some? && recipients == [] ==> o == NoRecipients
    ensures o.NoData? || o.NoRecipients? || o.NoAlertsNeeded? ==> email.log == old(email.log)
    ensures o.NoData? || o.NoRecipients? ==> email.outbox == old(email.outbox)
    ensures latest.Some? && recipients != [] && latest.value.tds.NotNumber? ==>
      o.Failed? && email.outbox == old(email.outbox)
    ensures latest.Some? && recipients != [] && !latest.value.tds.NotNumber? && !latest.value.temp.NotNumber? ==>
      && email.outbox == old(email.outbox) + PlannedAttempts(email.apiKey, old(email.log), recipients,
           Numeric(latest.value.tds).value, TdsThreshold(stored), Numeric(latest.value.temp).value, TempThreshold(stored), now)
      && Reported(email.apiKey, old(email.log), email.log, o, recipients, Numeric(latest.value.tds).value,
           TdsThreshold(stored), Numeric(latest.value.temp).value, TempThreshold(stored), now)
    ensures o.Sent? ==> o.alerts != [] && latest.Some? && !latest.value.tds.NotNumber? && !latest.value.temp.NotNumber?
  {
    if latest.None? {
      return NoData;
    }
    var settings := LoadSettingsFile(stored);
    if recipients == [] {
      return NoRecipients;
    }
    var tds := Numeric(latest.value.tds);
    if tds.None? {
      return Failed(TypeError("'>' not supported for the TDS value"));
    }
    o := MailExceeded(email, recipients, tds.value, Setting(settings, "tdsThreshold", 150.0),
                      latest.value.temp, Setting(settings, "tempThreshold", 35.0), now);
  }
}

=== FILE: periodic_alerts.dfy ===
/**
 * The periodic status report: every run fetches the latest reading, labels
 * the water SAFE only when both TDS and temperature are strictly below their
 * thresholds, posts the report to the group chat and appends a record to a
 * history file that keeps the last 100 records. A failure is recorded too.
 */
module Periodic {
  import opened Common
  import Telegram

  const MAX_PERIODIC_HISTORY := 100

  /** The chat and the thresholds, read from the environment at start-up. */
  datatype PeriodicConfig = PeriodicConfig(chatId: string, tdsThreshold: real, tempThreshold: real)

  const DEFAULT_CONFIG := PeriodicConfig("1362954575", 150.0, 35.0)

  /** The three flags of a report. */
  datatype Classification = Classification(tdsSafe: bool, tempSafe: bool, overallSafe: bool)

  /** Safe means strictly below the threshold; the water is safe only when
      both readings are. The voltage plays no part. */
  function Classify(tds: real, temp: real, config: PeriodicConfig): (c: Classification)
    ensures c.tdsSafe <==> tds < config.tdsThreshold
    ensures c.tempSafe <==> temp < config.tempThreshold
    ensures c.overallSafe <==> c.tdsSafe && c.tempSafe
  {
    var tdsSafe := tds < config.tdsThreshold;
    var tempSafe := temp < config.tempThreshold;
    Classification(tdsSafe, tempSafe, tdsSafe && tempSafe)
  }

  /** The headline of the report. */
  function StatusText(c: Classification): (t: string)
    ensures t == "SAFE" <==> c.overallSafe
    ensures t == "ALERT" <==> !c.overallSafe
  {
    if c.overallSafe then "SAFE" else "ALERT"
  }

  /** The severity recorded in the history. */
  function Severity(c: Classification): (s: string)
    ensures s == "info" <==> c.overallSafe
    ensures s == "warning" <==> !c.overallSafe
  {
    if c.overallSafe then "info" else "warning"
  }

  /** A reading equal to the threshold is already unsafe, and the report
      then says ALERT whatever the temperature. */
  lemma ThresholdItselfIsUnsafe(temp: real, config: PeriodicConfig)
    ensures !Classify(config.tdsThreshold, temp, config).tdsSafe
    ensures StatusText(Classify(config.tdsThreshold, temp, config)) == "ALERT"
  {
  }

  /** The fetched reading: `tds`, `temperature` and `voltage`. */
  datatype SensorData = SensorData(tds: FieldValue, temperature: FieldValue, voltage: FieldValue)

  /** What the fetch gives: an exception, nothing (no or empty data), or a
      reading. */
  datatype Fetched = FetchRaised(message: string) | NoData | Data(reading: SensorData)

  /** One history record. */
  datatype PeriodicRecord =
    | Report(id: int, severity: string, tds: real, temp: real, voltage: real,
             classification: Classification, createdAt: int, success: bool)
    | ErrorRecord(id: int, error: string, createdAt: int)   // `success` false

  /** The report message; only its headline is modelled. */
  function ReportMessage(c: Classification): Telegram.Message {
    Telegram.Text("Water Quality Status - " + StatusText(c))
  }

  class PeriodicHistory {
    var history: seq<PeriodicRecord>

    constructor ()
      ensures history == []
    {
      history := [];
    }

    /** `save_alert_to_history`: appends and keeps the last 100 records. */
    method Save(record: PeriodicRecord)
      modifies this
      ensures history == SliceFrom(old(history) + [record], -MAX_PERIODIC_HISTORY)
      ensures 0 < |history| <= MAX_PERIODIC_HISTORY && history[|history| - 1] == record
      ensures |old(history)| < MAX_PERIODIC_HISTORY ==> history == old(history) + [record]
    {
      AppendKeepLast(history, record, MAX_PERIODIC_HISTORY);
      history := SliceFrom(history + [record], -MAX_PERIODIC_HISTORY);
    }
  }

  /** `send_periodic_alert`. No data: nothing is sent or written. A failed
      fetch, or a reading that cannot be compared or formatted, writes an
      error record and sends nothing. Otherwise the report goes to the chat
      and a record is written whose `success` is true whatever the send
      returned. */
  method SendPeriodicAlert(store: PeriodicHistory, telegram: Telegram.TelegramService, config: PeriodicConfig,
                           fetched: Fetched, now: int)
    modifies store, telegram
    ensures fetched.NoData? ==> store.history == old(store.history) && telegram.sent == old(telegram.sent)
    ensures fetched.FetchRaised? ==>
      store.history == SliceFrom(old(store.history) + [ErrorRecord(now, fetched.message, now)], -MAX_PERIODIC_HISTORY)
      && telegram.sent == old(telegram.sent)
    ensures fetched.Data? && !Comparable(fetched.reading) ==>
      store.history == SliceFrom(old(store.history) + [ErrorRecord(now, "TypeError", now)], -MAX_PERIODIC_HISTORY)
      && telegram.sent == old(telegram.sent)
    ensures fetched.Data? && Comparable(fetched.reading) ==>
      var r := fetched.reading;
      var c := Classify(Numeric(r.tds).value, Numeric(r.temperature).value, config);
      && store.history == SliceFrom(old(store.history) + [Report(now, Severity(c), Numeric(r.tds).value,
           Numeric(r.temperature).value, Numeric(r.voltage).value, c, now, true)], -MAX_PERIODIC_HISTORY)
      && (telegram.hasBot ==> telegram.sent == old(telegram.sent) + [Telegram.Delivery(config.chatId, ReportMessage(c))])
      && (!telegram.hasBot ==> telegram.sent == old(telegram.sent))
    ensures !fetched.NoData? ==> 0 < |store.history| <= MAX_PERIODIC_HISTORY
  {
    match fetched
    case NoData =>
      return;
    case FetchRaised(message) =>
      store.Save(ErrorRecord(now, message, now));
    case Data(r) =>
      if !Comparable(r) {
        store.Save(ErrorRecord(now, "TypeError", now));
        return;
      }
      var tds := Numeric(r.tds).value;
      var temp := Numeric(r.temperature).value;
      var c := Classify(tds, temp, config);
      var _ := telegram.SendAlert(config.chatId, ReportMessage(c));
      store.Save(Report(now, Severity(c), tds, temp, Numeric(r.voltage).value, c, now, true));
  }

  /** All three readings are numbers, so comparing and formatting them
      cannot raise. */
  predicate Comparable(r: SensorData) {
    !r.tds.NotNumber? && !r.temperature.NotNumber? && !r.voltage.NotNumber?
  }
}

=== FILE: serverless_storage.dfy ===
/**
 * The JSON-file store used in serverless deployments. Each file holds a list
 * of dictionaries; the class fields are those lists, and a method that saves
 * a file assigns the field. A key that is missing from a stored dictionary
 * (or holds null) is `None`.
 */
module ServerlessStore {
  import opened Common
  import AlertModel

  const MAX_HISTORY := 1000

  /** A recipient dictionary as stored. */
  datatype RecipientRecord = RecipientRecord(
    id: Option<int>, name: string, telegramChatId: Option<string>, email: Option<string>,
    phone: Option<string>, role: string, isActive: Option<bool>, channels: seq<string>,
    createdAt: Option<nat>, createdBy: Option<string>)

  /** `r.get('id', 0)`. */
  function IdKey(r: RecipientRecord): int { r.id.GetOr(0) }

  /** `r.get('is_active', True)`: a record without the key counts as active. */
  predicate IsActive(r: RecipientRecord) { r.isActive.GetOr(true) }

  /** A Python string that is neither None nor empty. */
  predicate Truthy(s: Option<string>) { s.Some? && s.value != "" }

  function RecipientIds(rs: seq<RecipientRecord>): (ids: seq<int>)
    ensures |ids| == |rs| && forall i :: 0 <= i < |rs| ==> ids[i] == IdKey(rs[i])
  {
    seq(|rs|, i requires 0 <= i < |rs| => IdKey(rs[i]))
  }

  /** `max([r.get('id', 0) for r in rs], default=0) + 1`: above every stored id. */
  function NextRecipientId(rs: seq<RecipientRecord>): (n: int)
    ensures forall i :: 0 <= i < |rs| ==> IdKey(rs[i]) < n
    ensures rs == [] ==> n == 1
    ensures rs != [] ==> exists i :: 0 <= i < |rs| && IdKey(rs[i]) == n - 1
  {
    var ids := RecipientIds(rs);
    MaxOr(ids, 0) + 1
  }

  /** Some stored record already has this truthy chat id. */
  predicate ChatIdTaken(rs: seq<RecipientRecord>, chatId: Option<string>) {
    Truthy(chatId) && exists i :: 0 <= i < |rs| && rs[i].telegramChatId == chatId
  }

  /** The keys given to `dict.update`; an absent key keeps the stored value. */
  datatype RecordUpdate = RecordUpdate(
    name: Option<string>, telegramChatId: Option<Option<string>>, email: Option<Option<string>>,
    phone: Option<Option<string>>, role: Option<string>, isActive: Option<bool>,
    channels: Option<seq<string>>)

  function Merge(r: RecipientRecord, u: RecordUpdate): (q: RecipientRecord)
    ensures q.id == r.id && q.createdAt == r.createdAt && q.createdBy == r.createdBy
    ensures q.isActive == (if u.isActive.Some? then Some(u.isActive.value) else r.isActive)
    ensures q.name == u.name.GetOr(r.name) && q.role == u.role.GetOr(r.role)
    ensures q.telegramChatId == u.telegramChatId.GetOr(r.telegramChatId)
    ensures q.email == u.email.GetOr(r.email) && q.phone == u.phone.GetOr(r.phone)
    ensures q.channels == u.channels.GetOr(r.channels)
    ensures u == RecordUpdate(None, None, None, None, None, None, None) ==> q == r
  {
    r.(name := u.name.GetOr(r.name), telegramChatId := u.telegramChatId.GetOr(r.telegramChatId),
       email := u.email.GetOr(r.email), phone := u.phone.GetOr(r.phone), role := u.role.GetOr(r.role),
       isActive := if u.isActive.Some? then Some(u.isActive.value) else r.isActive,
       channels := u.channels.GetOr(r.channels))
  }

  /** An alert dictionary as stored, with every key `add_alert_history` writes. */
  datatype AlertRecord = AlertRecord(
    id: Option<int>, alertType: string, severity: Option<string>, message: string,
    tdsValue: Option<real>, tempValue: Option<real>, voltageValue: Option<real>, threshold: Option<real>,
    recipientsNotified: seq<string>, channelsUsed: seq<string>, deliveryStatus: map<string, int>,
    recipientCount: Option<int>, createdAt: Option<nat>)

  function AlertIdKey(h: AlertRecord): int { h.id.GetOr(0) }

  /** `x.get('created_at', '')`: a record without a time sorts as the oldest. */
  function CreatedKey(h: AlertRecord): int {
    if h.createdAt.Some? then h.createdAt.value else -1
  }

  function AlertIds(hs: seq<AlertRecord>): (ids: seq<int>)
    ensures |ids| == |hs| && forall i :: 0 <= i < |hs| ==> ids[i] == AlertIdKey(hs[i])
  {
    seq(|hs|, i requires 0 <= i < |hs| => AlertIdKey(hs[i]))
  }

  /** `max([h.get('id', 0) for h in hs], default=0) + 1`: above every stored id. */
  function NextAlertId(hs: seq<AlertRecord>): (n: int)
    ensures forall i :: 0 <= i < |hs| ==> AlertIdKey(hs[i]) < n
    ensures hs == [] ==> n == 1
  {
    MaxOr(AlertIds(hs), 0) + 1
  }

  /** The configuration dictionary: `id` is always 1. */
  datatype StoredConfig = StoredConfig(
    id: int, tdsThreshold: real, warningThreshold: real, cooldownMinutes: int,
    enableTelegram: bool, enableEmail: bool, enableSms: bool)

  /** The dictionary `update_config` writes for a configuration. */
  function StoreConfig(c: AlertModel.Config): (s: StoredConfig)
    ensures s.id == 1
  {
    StoredConfig(1, c.tdsThreshold, c.warningThreshold, c.cooldownMinutes,
                 c.enableTelegram, c.enableEmail, c.enableSms)
  }

  /** `AlertConfig(**d)`: the stored fields, defaults for the others; the
      extra `id` key is ignored. */
  function LoadConfig(s: StoredConfig): (c: AlertModel.Config)
    ensures c.telegramBotToken.None? && c.emailFrom == AlertModel.DefaultConfig().emailFrom
    ensures c.offlineThresholdMinutes == AlertModel.DefaultConfig().offlineThresholdMinutes
  {
    AlertModel.Config(s.tdsThreshold, s.warningThreshold, s.cooldownMinutes,
                      s.enableTelegram, s.enableEmail, s.enableSms,
                      None, "alerts@evaratds.com", 5)
  }

  /** Storing and loading a configuration keeps the six stored fields and
      resets the other three to their defaults, so the round trip is exact
      iff those three already had their defaults. */
  lemma ConfigRoundTrip(c: AlertModel.Config)
    ensures var d := LoadConfig(StoreConfig(c));
      && d.tdsThreshold == c.tdsThreshold && d.warningThreshold == c.warningThreshold
      && d.cooldownMinutes == c.cooldownMinutes && d.enableTelegram == c.enableTelegram
      && d.enableEmail == c.enableEmail && d.enableSms == c.enableSms
    ensures LoadConfig(StoreConfig(c)) == c <==>
      c.telegramBotToken.None? && c.emailFrom == "alerts@evaratds.com" && c.offlineThresholdMinutes == 5
  {
  }

  /** The attributes `update_config` reads from its argument, in order. */
  const UPDATE_CONFIG_READS: seq<string> :=
    ["tds_threshold", "warning_threshold", "cooldown_minutes", "enable_telegram", "enable_email",
     "enable_sms", "enabled"]

  /** The attributes `add_alert_history` reads from its argument, in order. */
  const ADD_HISTORY_READS: seq<string> :=
    ["alert_type", "severity", "message", "tds_value", "temp_value", "voltage_value", "threshold",
     "recipients_notified", "channels_used", "delivery_status", "recipient_count"]

  /** `enabled` is not a configuration field, so `update_config` fails on
      every call, whatever the configuration. */
  lemma UpdateConfigReadsMissingField()
    ensures FirstMissing(AlertModel.CONFIG_FIELDS, UPDATE_CONFIG_READS) == Some("enabled")
  {
    assert UPDATE_CONFIG_READS[..6] + ["enabled"] == UPDATE_CONFIG_READS;
    assert forall i :: 0 <= i < 6 ==> UPDATE_CONFIG_READS[i] in AlertModel.CONFIG_FIELDS;
    assert "enabled" !in AlertModel.CONFIG_FIELDS;
    assert FirstMissing(AlertModel.CONFIG_FIELDS, UPDATE_CONFIG_READS[6..]) == Some("enabled");
    FirstMissingPrefix(AlertModel.CONFIG_FIELDS, UPDATE_CONFIG_READS, 6);
  }

  /** `severity` is not an alert-history field, so `add_alert_history` fails on
      every call, whatever the alert. */
  lemma AddHistoryReadsMissingField()
    ensures FirstMissing(AlertModel.HISTORY_FIELDS, ADD_HISTORY_READS) == Some("severity")
  {
    assert ADD_HISTORY_READS[0] in AlertModel.HISTORY_FIELDS;
    assert ADD_HISTORY_READS[1] !in AlertModel.HISTORY_FIELDS;
    assert FirstMissing(AlertModel.HISTORY_FIELDS, ADD_HISTORY_READS[1..]) == Some("severity");
  }

  /** Reads that all succeed can be skipped. */
  lemma {:induction false} FirstMissingPrefix(fields: set<string>, names: seq<string>, k: nat)
    requires k <= |names|
    requires forall i :: 0 <= i < k ==> names[i] in fields
    ensures FirstMissing(fields, names) == FirstMissing(fields, names[k..])
  {
    if k > 0 {
      assert names[1..][k - 1..] == names[k..];
      FirstMissingPrefix(fields, names[1..], k - 1);
    }
  }

  class ServerlessStorage {
    var recipients: seq<RecipientRecord>
    var history: seq<AlertRecord>
    var configs: seq<StoredConfig>

    /** Missing files read as empty lists. */
    constructor ()
      ensures recipients == [] && history == [] && configs == []
    {
      recipients := [];
      history := [];
      configs := [];
    }

    /** Rejects a truthy chat id that is already stored and saves nothing;
        otherwise appends a record whose id is above every stored id. */
    method AddRecipient(recipient: AlertModel.Recipient, now: nat) returns (r: Result<RecipientRecord>)
      modifies this
      ensures ChatIdTaken(old(recipients), recipient.telegramChatId) ==>
        r == Failure(ValueError("Telegram chat ID already registered")) && recipients == old(recipients)
      ensures !ChatIdTaken(old(recipients), recipient.telegramChatId) ==>
        && r == Success(RecipientRecord(Some(NextRecipientId(old(recipients))), recipient.name,
                          recipient.telegramChatId, recipient.email, recipient.phone, recipient.role,
                          Some(recipient.isActive), recipient.channels, Some(now), recipient.createdBy))
        && recipients == old(recipients) + [r.value]
      ensures r.Success? ==> forall i :: 0 <= i < |old(recipients)| ==> IdKey(old(recipients)[i]) < r.value.id.value
      ensures history == old(history) && configs == old(configs)
    {
      if Truthy(recipient.telegramChatId) {
        var existing := Filter(recipients, (q: RecipientRecord) => q.telegramChatId == recipient.telegramChatId);
        if existing != [] {
          assert existing[0] in recipients;
          return Failure(ValueError("Telegram chat ID already registered"));
        }
      }
      var record := RecipientRecord(Some(NextRecipientId(recipients)), recipient.name, recipient.telegramChatId,
                                    recipient.email, recipient.phone, recipient.role, Some(recipient.isActive),
                                    recipient.channels, Some(now), recipient.createdBy);
      recipients := recipients + [record];
      r := Success(record);
    }

    /** All records, or exactly those active by `IsActive`, in stored order. */
    function GetRecipients(activeOnly: bool): (rs: seq<RecipientRecord>)
      reads this
      ensures !activeOnly ==> rs == recipients
      ensures activeOnly ==> forall i :: 0 <= i < |rs| ==> IsActive(rs[i]) && rs[i] in recipients
      ensures activeOnly ==> forall i :: 0 <= i < |recipients| && IsActive(recipients[i]) ==> recipients[i] in rs
    {
      if activeOnly then Filter(recipients, IsActive) else recipients
    }

    /** The first record with the id, if any. */
    function GetRecipientById(recipientId: int): (r: Option<RecipientRecord>)
      reads this
      ensures r.Some? ==> r.value in recipients && r.value.id == Some(recipientId)
      ensures r.None? <==> forall i :: 0 <= i < |recipients| ==> recipients[i].id != Some(recipientId)
    {
      var i := FindFirst(recipients, (q: RecipientRecord) => q.id == Some(recipientId));
      if i.Some? then Some(recipients[i.value]) else None
    }

    /** Merges the update into the first record with the id only; an unknown
        id saves nothing. */
    method UpdateRecipient(recipientId: int, updates: RecordUpdate) returns (r: Option<RecipientRecord>)
      modifies this
      ensures var i := FindFirst(old(recipients), (q: RecipientRecord) => q.id == Some(recipientId));
        && (i.None? ==> r.None? && recipients == old(recipients))
        && (i.Some? ==> r == Some(Merge(old(recipients)[i.value], updates))
                        && recipients == old(recipients)[i.value := r.value])
      ensures r.Some? ==> r.value.id == Some(recipientId)
      ensures |recipients| == |old(recipients)|
      ensures history == old(history) && configs == old(configs)
    {
      var i := 0;
      while i < |recipients|
        invariant 0 <= i <= |recipients|
        invariant recipients == old(recipients)
        invariant forall k :: 0 <= k < i ==> recipients[k].id != Some(recipientId)
      {
        if recipients[i].id == Some(recipientId) {
          var updated := Merge(recipients[i], updates);
          recipients := recipients[i := updated];
          return Some(updated);
        }
        i := i + 1;
      }
      return None;
    }

    /** True iff some record had the id; afterwards none has it and the rest
        keep their order. Nothing is saved when it returns false. */
    method DeleteRecipient(recipientId: int) returns (removed: bool)
      modifies this
      ensures removed <==> exists i :: 0 <= i < |old(recipients)| && old(recipients)[i].id == Some(recipientId)
      ensures removed ==> recipients == Filter(old(recipients), (q: RecipientRecord) => q.id != Some(recipientId))
      ensures !removed ==> recipients == old(recipients)
      ensures forall i :: 0 <= i < |recipients| ==> recipients[i].id != Some(recipientId)
      ensures history == old(history) && configs == old(configs)
    {
      var keep := (q: RecipientRecord) => q.id != Some(recipientId);
      var kept := Filter(recipients, keep);
      FilterShorter(recipients, keep);
      if |kept| < |recipients| {
        recipients := kept;
        return true;
      }
      return false;
    }

    /** As written: building the stored dictionary reads `severity` from an
        `AlertHistory`, which has no such field, so the call raises before
        anything is saved. */
    method AddAlertHistoryAsWritten(alert: AlertModel.HistoryEntry) returns (r: Result<AlertRecord>)
      ensures r == Failure(AttributeError("severity"))
    {
      AddHistoryReadsMissingField();
      var missing := FirstMissing(AlertModel.HISTORY_FIELDS, ADD_HISTORY_READS);
      r := Failure(AttributeError(missing.value));
    }

    /** Appends the alert with an id above every stored id and the current
        time, and keeps the last 1000: the new alert is always last. */
    method AddAlertHistory(alert: AlertRecord, now: nat) returns (a: AlertRecord)
      modifies this
      ensures a == alert.(id := Some(NextAlertId(old(history))), createdAt := Some(now))
      ensures history == SliceFrom(old(history) + [a], -MAX_HISTORY)
      ensures 0 < |history| <= MAX_HISTORY && history[|history| - 1] == a
      ensures recipients == old(recipients) && configs == old(configs)
    {
      a := alert.(id := Some(NextAlertId(history)), createdAt := Some(now));
      var h := history + [a];
      AppendKeepLast(history, a, MAX_HISTORY);
      history := SliceFrom(h, -MAX_HISTORY);
    }

    /** At most `limit` alerts, newest first by creation time, all stored;
        no alert left out is newer than one returned. */
    function GetAlertHistory(limit: int): (h: seq<AlertRecord>)
      reads this
      ensures |h| <= |history| && (limit >= 0 ==> |h| <= limit)
      ensures 0 <= limit ==> |h| == Min(limit, |history|)
      ensures SortedDesc(h, CreatedKey)
      ensures multiset(h) <= multiset(history)
      ensures forall x, y :: x in h && y in multiset(history) - multiset(h) ==> CreatedKey(y) <= CreatedKey(x)
    {
      var sorted := SortDesc(history, CreatedKey);
      var h := SliceTo(sorted, limit);
      PrefixMultiset(sorted, |h|);
      SortedPrefixLargest(sorted, CreatedKey, |h|);
      h
    }

    /** The first stored configuration, or `None` before any is stored. */
    function GetConfig(): (c: Option<AlertModel.Config>)
      reads this
      ensures c.None? <==> configs == []
      ensures c.Some? ==> c.value == LoadConfig(configs[0])
    {
      if configs != [] then Some(LoadConfig(configs[0])) else None
    }

    /** As written: the dictionary reads `config.enabled`, which is not a
        configuration field, so every call raises and nothing is saved. */
    method UpdateConfigAsWritten(config: AlertModel.Config) returns (r: Result<AlertModel.Config>)
      ensures r == Failure(AttributeError("enabled"))
    {
      UpdateConfigReadsMissingField();
      var missing := FirstMissing(AlertModel.CONFIG_FIELDS, UPDATE_CONFIG_READS);
      r := Failure(AttributeError(missing.value));
    }

    /** Replaces the stored configuration list with the single dictionary of
        `config`; reading it back gives the returned configuration. */
    method UpdateConfig(config: AlertModel.Config) returns (c: AlertModel.Config)
      modifies this
      ensures configs == [StoreConfig(config)]
      ensures c == LoadConfig(StoreConfig(config))
      ensures GetConfig() == Some(c)
      ensures recipients == old(recipients) && history == old(history)
    {
      configs := [StoreConfig(config)];
      c := LoadConfig(configs[0]);
    }
  }
}

=== FILE: telegram_service.dfy ===
/**
 * The Telegram bot wrapper: token-format validation, single and bulk sends
 * with success/failure accounting, the emoji and title chosen for an alert
 * message, and the process-wide service instance.
 *
 * `Bot.send_message` and `Bot.get_me` are network calls: their outcome is left
 * open (any outcome may happen), and every message handed to the bot is
 * recorded in `sent`, so contracts can say what was attempted and in which
 * order.
 */
module Telegram {
  import opened Common

  // ---------------------------------------------------------------------------
  // Token format
  // ---------------------------------------------------------------------------

  /** A bot token looks like `<digits>:<35 or more characters>`. */
  function ValidateTokenFormat(token: string): bool {
    var parts := Split(token, ':');
    |parts| == 2 && IsDigits(parts[0]) && |parts[1]| >= 35
  }

  /** The token holds exactly one ':'; what precedes it is a non-empty run of
      digits and at least 35 characters follow it. */
  lemma TokenFormatIff(token: string)
    ensures ValidateTokenFormat(token) <==>
      && ':' in token
      && ':' !in token[IndexOf(token, ':') + 1..]
      && IsDigits(token[..IndexOf(token, ':')])
      && |token| - IndexOf(token, ':') - 1 >= 35
  {
    SplitTwo(token, ':');
  }

  /** `<digits>:<secret>` is accepted when the secret has no ':' and at least
      35 characters, and rejected when the part before the first ':' is not all
      digits or when a second ':' follows. */
  lemma TokenFormatShape(id: string, secret: string)
    requires ':' !in id
    ensures IsDigits(id) && ':' !in secret && |secret| >= 35 ==> ValidateTokenFormat(id + ":" + secret)
    ensures !IsDigits(id) ==> !ValidateTokenFormat(id + ":" + secret)
    ensures ':' in secret ==> !ValidateTokenFormat(id + ":" + secret)
  {
    var t := id + ":" + secret;
    assert t[..|id|] == id && t[|id| + 1..] == secret;
    IndexOfFirst(t, ':', |id|);
    TokenFormatIff(t);
  }

  // ---------------------------------------------------------------------------
  // Alert message: emoji and displayed alert type
  // ---------------------------------------------------------------------------

  datatype Emoji = Siren | Thermometer | Lightning | RedCircle | WarningSign

  /** The emoji looked up for an alert type; unknown types get the warning sign. */
  function SeverityEmoji(alertType: string): (e: Emoji)
    ensures alertType == "high_tds" <==> e == Siren
    ensures alertType == "high_temp" <==> e == Thermometer
    ensures alertType == "low_voltage" <==> e == Lightning
    ensures alertType == "critical" <==> e == RedCircle
    ensures e == WarningSign <==>
      alertType !in ["high_tds", "high_temp", "low_voltage", "critical"]
  {
    if alertType == "high_tds" then Siren
    else if alertType == "high_temp" then Thermometer
    else if alertType == "low_voltage" then Lightning
    else if alertType == "critical" then RedCircle
    else WarningSign
  }

  predicate IsUpper(c: char) { 'A' <= c <= 'Z' }
  predicate IsLower(c: char) { 'a' <= c <= 'z' }
  predicate IsLetter(c: char) { IsUpper(c) || IsLower(c) }

  function ToUpper(c: char): char {
    if IsLower(c) then (c as int - 'a' as int + 'A' as int) as char else c
  }

  function ToLower(c: char): char {
    if IsUpper(c) then (c as int - 'A' as int + 'a' as int) as char else c
  }

  /** `str.title()` on the rest of a string, given whether the character before
      it was a letter. */
  function TitleFrom(s: string, afterLetter: bool): (r: string)
    ensures |r| == |s|
  {
    if s == [] then []
    else
      var c := if !IsLetter(s[0]) then s[0] else if afterLetter then ToLower(s[0]) else ToUpper(s[0]);
      [c] + TitleFrom(s[1..], IsLetter(s[0]))
  }

  /** Python's `str.title()` over ASCII. */
  function Title(s: string): string {
    TitleFrom(s, false)
  }

  /** Each letter that starts a word (first, or after a non-letter) is upper
      case in the title, every other letter lower case; other characters stay. */
  lemma {:induction false} TitleFromAt(s: string, afterLetter: bool, i: nat)
    requires i < |s|
    ensures TitleFrom(s, afterLetter)[i] ==
      if !IsLetter(s[i]) then s[i]
      else if (if i == 0 then afterLetter else IsLetter(s[i - 1])) then ToLower(s[i])
      else ToUpper(s[i])
  {
    if i > 0 {
      TitleFromAt(s[1..], IsLetter(s[0]), i - 1);
    }
  }

  function ReplaceChar(s: string, a: char, b: char): (r: string)
    ensures |r| == |s|
    ensures forall i :: 0 <= i < |s| ==> r[i] == if s[i] == a then b else s[i]
  {
    seq(|s|, i requires 0 <= i < |s| => if s[i] == a then b else s[i])
  }

  /** `alert_type.replace('_', ' ').title()`, the alert type shown in a message. */
  function DisplayAlertType(alertType: string): string {
    Title(ReplaceChar(alertType, '_', ' '))
  }

  /** The displayed type has the same length, no underscores, and each word
      starts with a capital letter followed by lower case. */
  lemma DisplayAlertTypeAt(alertType: string, i: nat)
    requires i < |alertType|
    ensures |DisplayAlertType(alertType)| == |alertType|
    ensures DisplayAlertType(alertType)[i] != '_'
    ensures DisplayAlertType(alertType)[i] ==
      if alertType[i] == '_' then ' '
      else if !IsLetter(alertType[i]) then alertType[i]
      else if i > 0 && IsLetter(alertType[i - 1]) then ToLower(alertType[i])
      else ToUpper(alertType[i])
  {
    TitleFromAt(ReplaceChar(alertType, '_', ' '), false, i);
  }

  /** What `format_alert_message` builds, before it is rendered to text:
      the rendered HTML and float formatting are not modelled. */
  datatype Message =
    | AlertText(emoji: Emoji, alertType: string, threshold: real, tds: real, temp: real, voltage: real)
    | Text(text: string)

  function FormatAlertMessage(alertType: string, tds: real, temp: real, voltage: real, threshold: real): (m: Message)
    ensures m.AlertText? && m.emoji == SeverityEmoji(alertType)
    ensures m.alertType == DisplayAlertType(alertType)
    ensures m.tds == tds && m.temp == temp && m.voltage == voltage && m.threshold == threshold
  {
    AlertText(SeverityEmoji(alertType), DisplayAlertType(alertType), threshold, tds, temp, voltage)
  }

  // ---------------------------------------------------------------------------
  // The service
  // ---------------------------------------------------------------------------

  datatype Delivery = Delivery(chatId: string, message: Message)

  /** The message handed to the bot once for each chat id, in order. */
  function Deliveries(chatIds: seq<string>, message: Message): (d: seq<Delivery>)
    ensures |d| == |chatIds|
    ensures forall i :: 0 <= i < |chatIds| ==> d[i] == Delivery(chatIds[i], message)
  {
    seq(|chatIds|, i requires 0 <= i < |chatIds| => Delivery(chatIds[i], message))
  }

  /** Delivering two lists in turn is delivering their concatenation. */
  lemma DeliveriesAppend(a: seq<string>, b: seq<string>, message: Message)
    ensures Deliveries(a + b, message) == Deliveries(a, message) + Deliveries(b, message)
  {
  }

  datatype BulkResult = BulkResult(success: nat, failed: nat, total: nat)

  class TelegramService {
    /** Whether a bot was created (`self.bot is not None`). */
    const hasBot: bool
    /** Every message handed to `Bot.send_message`, in order. */
    var sent: seq<Delivery>

    /** The bot exists iff a non-empty token of the right format was given. */
    constructor (token: Option<string>)
      ensures hasBot <==> token.Some? && token.value != "" && ValidateTokenFormat(token.value)
      ensures sent == []
    {
      hasBot := token.Some? && token.value != "" && ValidateTokenFormat(token.value);
      sent := [];
    }

    /** Never raises: without a bot it reports false and sends nothing;
        otherwise it hands the message to the bot once and reports whether
        the bot accepted it. */
    method SendAlert(chatId: string, message: Message) returns (ok: bool)
      modifies this
      ensures !hasBot ==> !ok && sent == old(sent)
      ensures hasBot ==> sent == old(sent) + [Delivery(chatId, message)]
    {
      if !hasBot {
        return false;
      }
      sent := sent + [Delivery(chatId, message)];
      ok :| true;
    }

    /** Whether `get_me` answered (`get_bot_info() is not None`); never without a bot. */
    method GetBotInfo() returns (available: bool)
      ensures available ==> hasBot
    {
      if !hasBot {
        return false;
      }
      available :| true;
    }

    /** Attempts every chat id once, in order, and counts the outcomes:
        `delivered[i]` is what the send to `chatIds[i]` returned. */
    method SendBulkAlert(chatIds: seq<string>, message: Message) returns (r: BulkResult, delivered: seq<bool>)
      modifies this
      ensures |delivered| == |chatIds| && r.total == |chatIds|
      ensures r.success == CountTrue(delivered)
      ensures r.success + r.failed == r.total
      ensures !hasBot ==> r.success == 0 && r.failed == |chatIds| && sent == old(sent)
      ensures hasBot ==> sent == old(sent) + Deliveries(chatIds, message)
    {
      if !hasBot {
        delivered := seq(|chatIds|, _ => false);
        assert CountTrue(delivered) == 0 by { AllFalseCountsZero(delivered); }
        return BulkResult(0, |chatIds|, |chatIds|), delivered;
      }
      var success, failed := 0, 0;
      delivered := [];
      var i := 0;
      while i < |chatIds|
        invariant 0 <= i <= |chatIds| && |delivered| == i
        invariant success == CountTrue(delivered) && success + failed == i
        invariant sent == old(sent) + Deliveries(chatIds[..i], message)
      {
        var ok := SendAlert(chatIds[i], message);
        CountTrueAppend(delivered, ok);
        delivered := delivered + [ok];
        if ok {
          success := success + 1;
        } else {
          failed := failed + 1;
        }
        assert Deliveries(chatIds[..i + 1], message) == Deliveries(chatIds[..i], message) + [Delivery(chatIds[i], message)];
        i := i + 1;
      }
      assert chatIds[..i] == chatIds;
      r := BulkResult(success, failed, |chatIds|);
    }
  }

  lemma {:induction false} AllFalseCountsZero(bs: seq<bool>)
    requires forall i :: 0 <= i < |bs| ==> !bs[i]
    ensures CountTrue(bs) == 0
  {
    if bs != [] {
      AllFalseCountsZero(bs[1..]);
    }
  }

  /** The module-level `_telegram_service`. */
  class ServiceRegistry {
    var instance: TelegramService?

    constructor ()
      ensures instance == null
    {
      instance := null;
    }

    /** Creates the service on the first call and returns that same instance
        on every later call. */
    method GetTelegramService(token: Option<string>) returns (s: TelegramService)
      modifies this
      ensures old(instance) != null ==> s == old(instance)
      ensures old(instance) == null ==> fresh(s) && s.sent == []
      ensures old(instance) == null ==>
        (s.hasBot <==> token.Some? && token.value != "" && ValidateTokenFormat(token.value))
      ensures instance == s
    {
      if instance == null {
        instance := new TelegramService(token);
      }
      s := instance;
    }
  }

  /** Two calls, even with different tokens, give the same object. */
  method GetTelegramServiceTwice(registry: ServiceRegistry, t1: Option<string>, t2: Option<string>)
    returns (s1: TelegramService, s2: TelegramService)
    modifies registry
    ensures s1 == s2 && registry.instance == s1
  {
    s1 := registry.GetTelegramService(t1);
    s2 := registry.GetTelegramService(t2);
  }
}

=== FILE: thresholds.dfy ===
/**
 * The four TDS rules side by side. They do not agree at their edges: the
 * alert engine and the dashboard compare strictly above the threshold, the
 * periodic report calls the threshold itself unsafe, and the cron job uses
 * its own levels of 500 and 1000 ppm.
 */
module Thresholds {
  import opened Common
  import Engine
  import Endpoints
  import Periodic
  import Cron

  /** A reading of exactly 150 ppm under the default thresholds: no TDS
      alert from the engine, WARNING on the dashboard, ALERT in the periodic
      report, and safe water for the cron job. */
  lemma AtDefaultThreshold(temp: real, voltage: real)
    ensures var r := Engine.CheckThresholds(150.0, 35.0, 150.0, temp, voltage);
      r.None? || r.value.kind != Engine.HighTds
    ensures Endpoints.DashboardStatus(Some(Endpoints.Reading(Number(150.0), Number(temp))), Endpoints.TDS_ALERT_THRESHOLD)
         == Endpoints.Warning
    ensures Periodic.StatusText(Periodic.Classify(150.0, temp, Periodic.DEFAULT_CONFIG)) == "ALERT"
    ensures Cron.Grade(150.0) == Cron.Safe
  {
  }

  /** Whenever the engine raises a TDS alert under a threshold, the periodic
      report under the same threshold says ALERT; the converse fails at the
      threshold itself. */
  lemma EngineTdsImpliesPeriodicAlert(thr: real, tempThr: real, tds: real, temp: real, voltage: real, chat: string)
    requires Engine.CheckThresholds(thr, tempThr, tds, temp, voltage) == Some(Engine.AlertInfo(Engine.HighTds, Engine.Critical, thr, tds, "TDS"))
    ensures !Periodic.Classify(tds, temp, Periodic.PeriodicConfig(chat, thr, tempThr)).overallSafe
  {
  }
}

=== FILE: users.dfy ===
/**
 * The in-memory user table: a login syncs (inserts or updates) the caller's
 * row, the caller reads back their own row, and an admin lists every row.
 * Rows are keyed by the token's `sub` claim, which may be missing; a row
 * keyed by a missing id is written but cannot be returned as a profile.
 */
module Users {
  import opened Common
  import Auth

  const NOT_FOUND := "User not found. Please sync your profile."
  const ADMIN_REQUIRED := "Admin access required"

  /** One row of the table. Times are seconds. */
  datatype UserRecord = UserRecord(userId: Option<string>, email: string, username: Option<string>,
                                   fullName: Option<string>, role: string, createdAt: int, lastLogin: int)

  /** The body of a sync request. */
  datatype UserSync = UserSync(email: string, username: Option<string>, fullName: Option<string>)

  /** `UserProfile(**row)`: the response model requires a text `user_id`. */
  function Profile(row: UserRecord): (r: Result<UserRecord>)
    ensures r.Success? <==> row.userId.Some?
    ensures r.Success? ==> r.value == row
    ensures r.Failure? ==> r.error == ValidationError("user_id")
  {
    if row.userId.None? then Failure(ValidationError("user_id")) else Success(row)
  }

  /** The role a sync gives: admin exactly when the admin rule holds. */
  function RoleFor(user: Auth.CurrentUser): (role: string)
    ensures role == "admin" <==> Auth.RequireAdmin(user)
    ensures role == "admin" || role == "viewer"
  {
    if Auth.RequireAdmin(user) then "admin" else "viewer"
  }

  class UserStore {
    /** The rows, by user id. */
    var users: map<Option<string>, UserRecord>
    /** The ids in insertion order, the order the table lists its rows in. */
    var order: seq<Option<string>>

    /** Every row is listed once, and a row's own id is its key. */
    ghost predicate Valid()
      reads this
    {
      && (forall k :: k in users <==> k in order)
      && (forall i, j :: 0 <= i < j < |order| ==> order[i] != order[j])
      && (forall k :: k in users ==> users[k].userId == k)
    }

    constructor ()
      ensures users == map[] && order == [] && Valid()
    {
      users := map[];
      order := [];
    }

    /** `sync_user`: the caller's row gets the request's fields, the role the
        admin rule gives and the new login time; an existing row keeps its
        creation time and its place, a new one is created now and goes last.
        No other row changes. The response is the row, read back as a
        profile. */
    method SyncUser(current: Auth.CurrentUser, data: UserSync, now: int) returns (r: Result<UserRecord>)
      requires Valid()
      modifies this
      ensures Valid()
      ensures current.userId in users
      ensures var row := users[current.userId];
        && row.userId == current.userId && row.email == data.email && row.username == data.username
        && row.fullName == data.fullName && row.role == RoleFor(current) && row.lastLogin == now
      ensures current.userId in old(users) ==>
        users[current.userId].createdAt == old(users)[current.userId].createdAt && order == old(order)
      ensures current.userId !in old(users) ==>
        users[current.userId].createdAt == now && order == old(order) + [current.userId]
      ensures users == old(users)[current.userId := users[current.userId]]
      ensures r == GetProfile(current)
      ensures r.Success? <==> current.userId.Some?
    {
      var key := current.userId;
      var role := RoleFor(current);
      if key in users {
        var row := users[key];
        users := users[key := row.(lastLogin := now, email := data.email, username := data.username,
                                   fullName := data.fullName, role := role)];
      } else {
        users := users[key := UserRecord(key, data.email, data.username, data.fullName, role, now, now)];
        order := order + [key];
      }
      r := Profile(users[key]);
    }

    /** As written: the admin rule is evaluated before the table is touched,
        so a caller for whom it raises gets that error and no row is written
        or updated; otherwise the sync proceeds with the role the rule
        answers. */
    method SyncUserAsWritten(current: Auth.CurrentUser, data: UserSync, now: int) returns (r: Result<UserRecord>)
      requires Valid()
      modifies this
      ensures Valid()
      ensures Auth.RequireAdminAsWritten(current).Failure? ==>
        && r == Failure(Auth.RequireAdminAsWritten(current).error)
        && users == old(users) && order == old(order)
      ensures Auth.RequireAdminAsWritten(current).Success? ==>
        && current.userId in users
        && users[current.userId].role == (if Auth.RequireAdminAsWritten(current).value then "admin" else "viewer")
        && users == old(users)[current.userId := users[current.userId]]
        && r == GetProfile(current)
    {
      var admin := Auth.RequireAdminAsWritten(current);
      if admin.Failure? {
        return Failure(admin.error);
      }
      Auth.RequireAdminAgrees(current);
      r := SyncUser(current, data, now);
    }

    /** `get_current_user_profile`: not found exactly when the caller has
        never synced. */
    function GetProfile(current: Auth.CurrentUser): (r: Result<UserRecord>)
      reads this
      ensures current.userId !in users <==> r == Failure(Rejected(NOT_FOUND))
      ensures r.Success? ==> current.userId in users && r.value == users[current.userId]
    {
      if current.userId !in users then Failure(Rejected(NOT_FOUND)) else Profile(users[current.userId])
    }

    /** `list_users`: refused to a non-admin; otherwise every row in
        insertion order, which fails as a whole when some row has no id. */
    function ListUsers(current: Auth.CurrentUser): (r: Result<seq<UserRecord>>)
      requires Valid()
      reads this
      ensures !Auth.RequireAdmin(current) ==> r == Failure(Rejected(ADMIN_REQUIRED))
      ensures Auth.RequireAdmin(current) && None in users ==> r == Failure(ValidationError("user_id"))
      ensures r.Success? <==> Auth.RequireAdmin(current) && None !in users
      ensures r.Success? ==> |r.value| == |order| && forall i :: 0 <= i < |order| ==> r.value[i] == users[order[i]]
    {
      if !Auth.RequireAdmin(current) then Failure(Rejected(ADMIN_REQUIRED))
      else if None in users then Failure(ValidationError("user_id"))
      else Success(seq(|order|, i requires 0 <= i < |order| && order[i] in users reads this => users[order[i]]))
    }

    /** As written: the admin rule raises before the listing for a caller
        with no metadata, or with no e-mail and no admin role; otherwise the
        answer is the corrected route's. */
    function ListUsersAsWritten(current: Auth.CurrentUser): (r: Result<seq<UserRecord>>)
      requires Valid()
      reads this
      ensures Auth.RequireAdminAsWritten(current).Failure? ==> r == Failure(Auth.RequireAdminAsWritten(current).error)
      ensures Auth.RequireAdminAsWritten(current) == Success(false) ==> r == Failure(Rejected(ADMIN_REQUIRED))
      ensures Auth.RequireAdminAsWritten(current).Success? ==> r == ListUsers(current)
    {
      var admin := Auth.RequireAdminAsWritten(current);
      if admin.Failure? then Failure(admin.error)
      else
        Auth.RequireAdminAgrees(current);
        ListUsers(current)
    }

    /** An admin's listing holds every row exactly once. */
    lemma ListUsersComplete(current: Auth.CurrentUser)
      requires Valid() && ListUsers(current).Success?
      ensures forall row :: row in ListUsers(current).value <==> row in users.Values
      ensures forall i, j :: 0 <= i < j < |order| ==>
        ListUsers(current).value[i].userId != ListUsers(current).value[j].userId
    {
      var listed := ListUsers(current).value;
      forall row | row in users.Values
        ensures row in listed
      {
        var k :| k in users && users[k] == row;
        var i :| 0 <= i < |order| && order[i] == k;
        assert listed[i] == row;
      }
    }
  }
}
